=== FILE: README.md ===
# heroi, modelled in Dafny

heroi is a desktop app that runs AI coding agents in terminals, one per git
worktree, next to a git view, a diff view and a file browser. This project
models its in-memory core and proves properties of the model. It covers three
parts.

- **The front end's state.** The terminal session registry with its
  selection effect, the app store (repositories, tabs, workspaces, settings)
  and the terminal store. The pure view logic is modelled too: the
  unified-diff parser, the diff file tree, the git status list and file row,
  and the create-worktree dialog.
- **The backend's registries and commands.** These are the workspace
  lifecycle with its port allocator, the script-process registry, repositories
  and checkpoints, plus directory listing and file reading. They also include
  the git status, diff, branch and worktree commands.
- **The pure helpers.** The hand-written ISO 8601 timestamp (the
  `date-time` format of section 5.6 of RFC 3339) and the UUID-shaped id, the
  file-type table, and the Rust `Path` and JavaScript string operations they
  rely on.

Each source file maps to one Dafny module (`terminal_sessions.dfy` models
`XtermTerminal.tsx`, `workspace_lifecycle.dfy` models `workspace_lifecycle.rs`,
and so on). The shared helpers live in `wrappers.dfy`, `strings.dfy`,
`paths.dfy`, `seqs.dfy` and `sorting.dfy`, and the backend's shared records in
`models.dfy`.

The model is built from immutable values and pure functions. Everything that
touches the world is a parameter: git and libgit2, processes, the pty, the
filesystem, the settings store, the TCP probe and the clock. Each such call is
passed in as the outcome the call reported. A backend command takes the
application data and those outcomes. It returns the new data together with
the command's `Result`. When a store write fails after a change, the change is
kept and the command still reports the error, as in the source.

Some behaviours of the code are easy to misread; the model follows the code
as written:

- terminal sessions are keyed by worktree path, not by tab;
- an exited session is respawned when its worktree is selected again, because
  its pty is gone;
- the pty exit callback does not drop the session's subscriptions;
- the tab bar calls `destroySession` with a tab id (`AgentTabBar.tsx:48`),
  which would end nothing unless that id happens to be a worktree path. Yet
  `XtermTerminal.tsx` declares `destroySession` (line 200) without exporting
  it, so the import at `AgentTabBar.tsx:4` does not resolve as written. The
  model takes the call as if the import resolved;
- the "destroy all sessions" event the app store sends on a workspace switch
  has no listener, so the switch leaves the sessions alone;
- `delete_workspace` frees the port of the first workspace with the id, but
  removes every workspace with that id.

## Model

| member | source | states |
|---|---|---|
| TerminalSessions.EmptyInv | src/components/terminal/XtermTerminal.tsx:27-28 | the empty session map with no active key satisfies the registry invariant (pty held iff running, handles distinct and below the counter) |
| TerminalSessions.NewSession | src/components/terminal/XtermTerminal.tsx:78-88 | a freshly created session is keyed and labelled by its worktree path, has no agent, no pty, no subscriptions, is hidden and exited, and satisfies the session invariant |
| TerminalSessions.KillSessionPty | src/components/terminal/XtermTerminal.tsx:115-134 | after a kill the session owns no subscriptions, holds no pty and is exited; its key, path, agent and visibility are kept |
| TerminalSessions.KillIdempotent | src/components/terminal/XtermTerminal.tsx:115-134 | killing a killed session changes nothing |
| TerminalSessions.KillNewSession | src/components/terminal/XtermTerminal.tsx:78-88 | killing a session that was never spawned leaves it exactly as created |
| TerminalSessions.SpawnInSession | src/components/terminal/XtermTerminal.tsx:136-198 | the agent id is always recorded; a spawn that succeeds leaves the new pty, running, and exactly the four subscriptions; one that throws leaves no pty, exited, none |
| TerminalSessions.OnExit | src/components/terminal/XtermTerminal.tsx:165-173 | the exit of the session's current pty drops it and marks the session exited; the exit of any other handle leaves the session unchanged; consistency is kept |
| TerminalSessions.ExitKeepsDisposers | src/components/terminal/XtermTerminal.tsx:165-173 | a natural exit leaves the four subscriptions registered (they are only disposed by the next kill) |
| TerminalSessions.CreateSession | src/components/terminal/XtermTerminal.tsx:64-92 | the new hidden, exited, agentless session is stored under the worktree path; every other key and the active key are unchanged |
| TerminalSessions.ShowSession | src/components/terminal/XtermTerminal.tsx:94-100 | the active key becomes the shown key and exactly that key's container is visible; nothing but visibility changes |
| TerminalSessions.SpawnIn | src/components/terminal/XtermTerminal.tsx:136-198 | spawning in the session under a key changes only that session, as the single-session spawn says; a success consumes one fresh handle |
| TerminalSessions.ExitIn | src/components/terminal/XtermTerminal.tsx:165-173 | an exit callback affects at most the session it was registered on |
| TerminalSessions.DestroySession | src/components/terminal/XtermTerminal.tsx:200-208 | an unknown key is a no-op; a known key is removed, the active key is cleared exactly when it was that key, and other sessions are untouched |
| TerminalSessions.DestroyIdempotent | src/components/terminal/XtermTerminal.tsx:200-208 | destroying a key twice is destroying it once |
| TerminalSessions.DestroyAllSessions | src/components/terminal/XtermTerminal.tsx:210-214 | destroying each key in turn leaves the map empty and clears the active key when it named a session |
| TerminalSessions.CreatePreservesInv | src/components/terminal/XtermTerminal.tsx:64-92 | creating a session keeps the registry invariant |
| TerminalSessions.ShowPreservesInv | src/components/terminal/XtermTerminal.tsx:94-100 | showing a session keeps the registry invariant |
| TerminalSessions.SpawnPreservesInv | src/components/terminal/XtermTerminal.tsx:136-198 | spawning, successful or not, keeps the registry invariant |
| TerminalSessions.ExitPreservesInv | src/components/terminal/XtermTerminal.tsx:165-173 | any exit callback keeps the registry invariant |
| TerminalSessions.DestroyPreservesInv | src/components/terminal/XtermTerminal.tsx:200-208 | destroying a session keeps the registry invariant |
| TerminalSessions.StaleExitAfterRespawn | src/components/terminal/XtermTerminal.tsx:165-173 | after a respawn, the late exit of the replaced pty leaves the new pty and the running status in place |
| TerminalSessions.Decide | src/components/terminal/XtermTerminal.tsx:264-292 | no session: create and spawn; worktree changed and the session has another non-empty agent: restore that agent only; otherwise respawn exactly when the agent differs or the pty is gone, else only show |
| TerminalSessions.SelectionEffect | src/components/terminal/XtermTerminal.tsx:253-293 | without a worktree or a known agent nothing happens; otherwise the previous path is recorded, the session is shown, and the decided branch is carried out |
| TerminalSessions.FirstVisitSpawns | src/components/terminal/XtermTerminal.tsx:266-273 | the first visit to a worktree creates its session, shows it and spawns the selected agent |
| TerminalSessions.SwitchBackRestoresAgent | src/components/terminal/XtermTerminal.tsx:282-285 | returning to a worktree whose session runs another agent only hands that agent to the store; nothing is spawned |
| TerminalSessions.ExitedSessionRespawns | src/components/terminal/XtermTerminal.tsx:287-292 | re-selecting a worktree whose pty has exited respawns it even with the same agent |
| TerminalSessions.RestoreThenRerun | src/components/terminal/XtermTerminal.tsx:279-292 | after the restore branch hands the session's agent to the store, the re-run with that agent changes the session or the handle counter exactly when the session has no pty and either the spawn succeeds or stale subscriptions remain to be dropped; with a live pty it only shows the session |
| TerminalSessions.RunningSameAgentShowsOnly | src/components/terminal/XtermTerminal.tsx:287-292 | a running session with the selected agent is shown and not respawned |
| TerminalSessions.RespawnRequested | src/components/terminal/XtermTerminal.tsx:296-320 | the respawn-agent event respawns the selected agent in the selected worktree's existing session and otherwise does nothing |
| TerminalSessions.StepPreservesInv | src/components/terminal/XtermTerminal.tsx:253-327 | every signal (selection, respawn request, pty exit, tab close, unmount) keeps the registry invariant |
| TerminalSessions.Step | src/components/terminal/XtermTerminal.tsx:253-327 | only the selection handler records a worktree path or hands an agent back to the store; a pty exit keeps the set of sessions, a tab close removes exactly that tab's session, and unmounting removes every session and keeps the handle counter |
| TerminalSessions.RunPreservesInv | src/components/terminal/XtermTerminal.tsx:253-327 | every sequence of signals keeps the registry invariant |
| TerminalSessions.CloseTabLeavesSessions | src/components/terminal/AgentTabBar.tsx:46-50 | closing a tab passes the tab id as a session key, so unless a worktree path equals the tab id no session is destroyed |
| AppStore.RemoveRepo | src/stores/useAppStore.ts:112-116 | the repository list becomes the order-preserving filter of the entries whose path differs; the selected repository is cleared only when it was that path; nothing else changes |
| AppStore.RemoveAbsentRepo | src/stores/useAppStore.ts:112-116 | removing a path that is not listed leaves the list as it was |
| AppStore.SetSettings | src/stores/useAppStore.ts:123-124 | the settings are replaced and their default agent becomes the selected agent; nothing else changes |
| AppStore.UpdateSettings | src/stores/useAppStore.ts:125-132 | each field the patch supplies (poll interval, default IDE, agent arguments, default agent) wins and an absent one is kept; the selected agent changes only when the patch supplies a default agent, and then to it |
| AppStore.UpdateSettingsLaws | src/stores/useAppStore.ts:125-132 | an empty patch changes nothing and applying the same patch twice is applying it once |
| AppStore.FullPatchIsSetSettings | src/stores/useAppStore.ts:123-132 | a patch supplying every field has the effect of replacing the settings |
| AppStore.TabsFor | src/stores/useAppStore.ts:193-195 | a worktree without an entry has no tabs |
| AppStore.AddTab | src/stores/useAppStore.ts:138-157 | the new tab is appended to that worktree's list only, becomes its active tab, and its agent becomes the selected agent; other worktrees' lists are unchanged |
| AppStore.ActiveAfterRemoval | src/stores/useAppStore.ts:164-172 | removing the active tab makes the last remaining tab active, or drops the entry when none remain; removing a non-active tab leaves the active ids as they were |
| AppStore.RemoveTab | src/stores/useAppStore.ts:159-181 | only that worktree's list changes; it loses exactly the tabs with that id, keeping the rest in order; the active id follows the removal rule; the selected agent becomes the agent of the worktree's active tab afterwards, as `getActiveTabForWorktree` finds it, and stays unchanged when there is none |
| AppStore.RemoveActiveTabSelectsLast | src/stores/useAppStore.ts:164-179 | when the removed tab was active and others remain, the last remaining tab is active and its agent is selected |
| AppStore.SetActiveTab | src/stores/useAppStore.ts:183-191 | the id is always recorded; when a tab with that id is in the worktree's list the selected agent becomes the agent of the first such tab, otherwise it stays; nothing else changes |
| AppStore.SetActiveTabThenActive | src/stores/useAppStore.ts:183-202 | after `setActiveTab`, `getActiveTabForWorktree` finds a tab exactly when the worktree has a tab with that id, and then the selected agent is that tab's agent; otherwise the selection stays |
| AppStore.ActiveTabFor | src/stores/useAppStore.ts:197-202 | the found tab is in the worktree's list and carries the recorded active id; nothing is found only when no listed tab carries it |
| AppStore.AddedTabIsActive | src/stores/useAppStore.ts:138-202 | a tab just added with a fresh id is the tab the worktree reports as active |
| AppStore.RemoveUndoesAdd | src/stores/useAppStore.ts:138-163 | removing a tab just added with a fresh id restores the worktree's previous list |
| AppStore.WorkspaceFromConfig | src/stores/useAppStore.ts:67-86 | the backend record's fields are copied, the status maps Active to active, the tab state is empty and the repository and worktree are selected |
| AppStore.AddWorkspaceFromConfig | src/stores/useAppStore.ts:208-215 | the converted workspace is appended and made active; nothing else changes |
| AppStore.DeleteWorkspace | src/stores/useAppStore.ts:231-239 | every workspace with that id is dropped and the others kept in order; an active deleted workspace hands over to the first remaining one, or to none |
| AppStore.DeletedIsNotActive | src/stores/useAppStore.ts:231-239 | after a delete the deleted id is never the active one |
| AppStore.RenameWorkspace | src/stores/useAppStore.ts:241-246 | the matching workspaces get the new name and nothing else about any workspace changes |
| AppStore.SaveCurrentWorkspace | src/stores/useAppStore.ts:248-266 | without a truthy active id nothing changes; otherwise the active workspaces receive the current UI state and the others are untouched |
| AppStore.LoadWorkspaceState | src/stores/useAppStore.ts:268-285 | the saved tab state and panel widths are restored and the workspace's worktree (named "main" for the main worktree) is selected; the repository list, workspaces and agent are kept |
| AppStore.SwitchWorkspace | src/stores/useAppStore.ts:217-229 | an unknown id only saves the current workspace; for a known id the state after saving is loaded from the first workspace with that id (its tabs, repository, worktree and panel widths; the selected agent is kept) and that id becomes active |
| AppStore.FoundWorkspace | src/stores/useAppStore.ts:217-224 | a workspace found after saving stands for one that was in the list with that id |
| AppStore.NoWorkspace | src/stores/useAppStore.ts:217-224 | saving keeps the ids, so an id missing after the save was missing before |
| AppStore.SwitchToActiveKeepsTabs | src/stores/useAppStore.ts:217-285 | switching to the already active workspace keeps the tab state as it was |
| AppStore.SaveHoldsTabs | src/stores/useAppStore.ts:248-266 | after saving, every workspace carrying the active id holds the current tabs |
| AppStore.LeaveSaves | src/stores/useAppStore.ts:217-229 | leaving the active workspace for another stores the tabs in the one left behind |
| AppStore.ReturnLoads | src/stores/useAppStore.ts:217-285 | switching to a workspace that holds some tabs loads exactly those tabs |
| AppStore.SaveThenReturn | src/stores/useAppStore.ts:217-285 | switching to another workspace and back restores the tab state the first one had |
| TerminalStore.SessionsFor | src/stores/useTerminalStore.ts:69-71 | an unknown workspace has no sessions |
| TerminalStore.AddSession | src/stores/useTerminalStore.ts:33-43 | the session is appended to that workspace's list only and becomes the active session |
| TerminalStore.RemoveSession | src/stores/useTerminalStore.ts:45-55 | that workspace loses exactly the sessions with that id and keeps the others in order; other workspaces are untouched; the active id is cleared only when it was the removed id |
| TerminalStore.SetActiveSession | src/stores/useTerminalStore.ts:57 | the active id is set and no session list changes |
| TerminalStore.UpdateSessionStatus | src/stores/useTerminalStore.ts:59-67 | only the status of the sessions with that id changes; the list keeps its length and order, and other workspaces and the active id are untouched |
| TerminalStore.HasRunningSession | src/stores/useTerminalStore.ts:73-76 | true exactly when some session of the workspace has the running status |
| TerminalStore.ExitingAllRunning | src/stores/useTerminalStore.ts:59-76 | marking as exited the id that every running session carries leaves the workspace with no running session |
| TerminalStore.AddRunningSession | src/stores/useTerminalStore.ts:33-76 | adding a running session makes the workspace report a running session |
| TerminalStore.RemoveUndoesAdd | src/stores/useTerminalStore.ts:33-55 | removing a session just added under a fresh id restores the workspace's list |
| Repos.RepoName | src-tauri/src/commands/repos.rs:23-26 | the name is the path's final component, which contains no separator, or the whole path when there is none |
| Repos.RepoNameOfJoin | src-tauri/src/commands/repos.rs:23-26 | a repository directory joined onto a parent is named by that directory |
| Repos.AddRepo | src-tauri/src/commands/repos.rs:9-48 | a missing path, a path git cannot open and a path already listed are errors (with their messages) that leave the list unchanged; otherwise the entry is appended at the end, and a failed store write returns its error but keeps the entry |
| Repos.RemoveRepo | src-tauri/src/commands/repos.rs:50-63 | every entry with that path is removed, the rest keep their order, and the store write's error is returned |
| Repos.LoadRepos | src-tauri/src/commands/repos.rs:81-90 | a stored list replaces the in-memory one; a missing key changes nothing; a store or decoding error is returned and changes nothing |
| Repos.AddKeepsUnique | src-tauri/src/commands/repos.rs:35-40 | adding keeps every path listed at most once |
| Repos.RemoveKeepsUnique | src-tauri/src/commands/repos.rs:57 | removing keeps every path listed at most once |
| Repos.RemoveAbsent | src-tauri/src/commands/repos.rs:57 | removing a path that is not listed changes nothing |
| Repos.RemoveUndoesAdd | src-tauri/src/commands/repos.rs:36-57 | removing a path just added restores the list from before |
| Repos.AddTwiceRefused | src-tauri/src/commands/repos.rs:36-38 | adding the same path a second time fails with "Repository already added" and changes nothing |
| WorkspaceLifecycle.PortSearch | src-tauri/src/commands/workspace_lifecycle.rs:346-353 | from a candidate base on, the result is the first base that is neither allocated nor refused by the probe, and every skipped base was one of those; the error means every base from there on is taken |
| WorkspaceLifecycle.AllocatePortRange | src-tauri/src/commands/workspace_lifecycle.rs:343-354 | the result is the smallest base 3000 + 10k below 65000 that is not allocated and passes the probe; it fails exactly when no such base exists |
| WorkspaceLifecycle.WorkspaceEnv | src-tauri/src/commands/workspace_lifecycle.rs:72-76 | the environment holds exactly the four HEROI_ variables, with the worktree path, the repository path, the name, and the port written in decimal |
| WorkspaceLifecycle.WorktreeAddArgs | src-tauri/src/commands/workspace_lifecycle.rs:48-58 | the arguments are `worktree add -b <branch> <path>`, followed by the base branch exactly when one is given |
| WorkspaceLifecycle.Register | src-tauri/src/commands/workspace_lifecycle.rs:91-99 | the workspace is appended at the end and its port marked allocated; the store write's error is returned but the change is kept |
| WorkspaceLifecycle.CreateWorkspace | src-tauri/src/commands/workspace_lifecycle.rs:16-100 | each failing check returns its own error and leaves the state unchanged: missing path, not a repository, no free port range, "Failed to create .worktrees directory: " with the I/O error, "Failed to run git: " with the spawn error, "git worktree add failed: " with git's stderr; a success appends one active, non-main workspace under repo/.worktrees/name, on the branch or the name, with a fresh allocated port and the four variables |
| WorkspaceLifecycle.CleanMainPath | src-tauri/src/commands/workspace_lifecycle.rs:117-120 | the result is a prefix of the path that does not end in a backslash; what is cut is a run of backslashes followed by a run of slashes, and the slash run is maximal, so a trailing `/` run is always removed whole |
| WorkspaceLifecycle.CleanMainPathDropsSlashes | src-tauri/src/commands/workspace_lifecycle.rs:117-120 | a directory followed by any number of slashes comes back as the directory alone |
| WorkspaceLifecycle.CreateWorkspaceForMain | src-tauri/src/commands/workspace_lifecycle.rs:102-163 | with an openable repository and a free port, one active main-worktree workspace is appended on the cleaned working directory (or the repository path) and the HEAD branch (or "main"), its port is allocated and its id is the corrected UUID of the clock reading |
| WorkspaceLifecycle.RemovalError | src-tauri/src/commands/workspace_lifecycle.rs:181-216 | the removal succeeds exactly when git ran, either git succeeded or the fallback directory removal did not fail, and the final leftover-directory removal did not fail; a git spawn failure, a failed fallback removal and a failed final removal each give their own message |
| WorkspaceLifecycle.DeleteWorkspace | src-tauri/src/commands/workspace_lifecycle.rs:165-239 | an absent id returns "Workspace '<id>' not found" and changes nothing; a non-main worktree whose removal fails returns that error and changes nothing; otherwise every entry with the id is dropped, the rest kept in order, and the port of the first match is freed, and the result is Ok exactly when the store write succeeds |
| WorkspaceLifecycle.GetWorkspaceEnv | src-tauri/src/commands/workspace_lifecycle.rs:241-255 | the environment of the first workspace with the id, or the not-found error exactly when there is none |
| WorkspaceLifecycle.SetStatus | src-tauri/src/commands/workspace_lifecycle.rs:265-309 | archiving and restoring (`archive_workspace` and `restore_workspace` are this with Archived and Active) set the status of the first workspace with the id only, and return not-found, changing nothing, when the id is absent |
| WorkspaceLifecycle.PortsOf | src-tauri/src/commands/workspace_lifecycle.rs:387-389 | the set holds exactly the port bases of the listed workspaces |
| WorkspaceLifecycle.LoadWorkspaceConfigs | src-tauri/src/commands/workspace_lifecycle.rs:376-393 | a stored list replaces the in-memory one and its ports join the allocated set; a missing key changes nothing; a store or decoding error changes nothing |
| WorkspaceLifecycle.AppendPreservesInv | src-tauri/src/commands/workspace_lifecycle.rs:91-92 | appending a workspace with an unallocated port and a fresh id keeps every port allocated and ports and ids distinct |
| WorkspaceLifecycle.CreatePreservesInv | src-tauri/src/commands/workspace_lifecycle.rs:16-100 | creating a workspace under a fresh id keeps ports tracked and ports and ids distinct |
| WorkspaceLifecycle.CreateForMainPreservesInv | src-tauri/src/commands/workspace_lifecycle.rs:102-163 | the same for the main-worktree workspace |
| WorkspaceLifecycle.DeletePreservesInv | src-tauri/src/commands/workspace_lifecycle.rs:165-239 | deleting keeps every remaining workspace's port allocated, because ports and ids are distinct |
| WorkspaceLifecycle.KeptPortsTracked | src-tauri/src/commands/workspace_lifecycle.rs:228-231 | after dropping the entries with an id, every kept workspace's port is still allocated although the first match's port was freed |
| WorkspaceLifecycle.SetStatusPreservesInv | src-tauri/src/commands/workspace_lifecycle.rs:265-309 | archiving and restoring keep the bookkeeping invariant |
| WorkspaceLifecycle.LoadTracksPorts | src-tauri/src/commands/workspace_lifecycle.rs:383-391 | after a load every loaded workspace's port is allocated, whatever was allocated before |
| WorkspaceLifecycle.DeleteUndoesCreate | src-tauri/src/commands/workspace_lifecycle.rs:16-239 | deleting a workspace just created, with the removal succeeding, gives back the workspaces and ports from before |
| WorkspaceLifecycle.RemoveAppended | src-tauri/src/commands/workspace_lifecycle.rs:91-231 | deleting the id of a workspace appended under a fresh id and port restores the list and the allocated set |
| WorkspaceLifecycle.RestoreUndoesArchive | src-tauri/src/commands/workspace_lifecycle.rs:265-309 | restoring after archiving a workspace that was active gives back the state from before |
| WorkspaceLifecycle.FirstIndexAfterStatus | src-tauri/src/commands/workspace_lifecycle.rs:273-279 | changing the status of the first match does not move the first match |
| WorkspaceLifecycle.ArchiveIdempotent | src-tauri/src/commands/workspace_lifecycle.rs:265-286 | archiving twice is archiving once |
| WorkspaceLifecycle.AllocatorSkipsHeldPorts | src-tauri/src/commands/workspace_lifecycle.rs:343-354 | when every workspace's port is tracked, the allocator never hands out a port a workspace holds |
| Timestamp.DaysInYear | src-tauri/src/commands/workspace_lifecycle.rs:433-463 | a year has 366 days exactly when the Gregorian leap rule holds for it, and 365 otherwise |
| Timestamp.MonthLengths | src-tauri/src/commands/workspace_lifecycle.rs:440-444 | twelve month lengths between 28 and 31 |
| Timestamp.MonthsFillYear | src-tauri/src/commands/workspace_lifecycle.rs:433-444 | the twelve month lengths add up to the year's length, in leap and common years |
| Timestamp.SplitYears | src-tauri/src/commands/workspace_lifecycle.rs:430-439 | the year loop ends in a year no earlier than it started, with a remainder shorter than that year, having subtracted exactly the days of the years it passed |
| Timestamp.SplitMonths | src-tauri/src/commands/workspace_lifecycle.rs:445-452 | the month loop ends with a remainder shorter than the month it stopped at, having subtracted exactly the lengths of the months it passed, and stops within the year when the remainder is shorter than the year |
| Timestamp.DateOf | src-tauri/src/commands/workspace_lifecycle.rs:423-453 | the date of a day count is a valid date from 1970 on: month 1 to 12 and day within the month's length under the leap rule |
| Timestamp.ClockOf | src-tauri/src/commands/workspace_lifecycle.rs:424-427 | hour below 24, minute and second below 60 |
| Timestamp.ToDateTime | src-tauri/src/commands/workspace_lifecycle.rs:421-453 | the calendar fields of any epoch seconds form a valid date and time of day |
| Timestamp.SplitYearsOf | src-tauri/src/commands/workspace_lifecycle.rs:430-439 | any offset inside a year is found by the year loop in that year |
| Timestamp.SplitMonthsOf | src-tauri/src/commands/workspace_lifecycle.rs:445-452 | any offset inside a month is found by the month loop in that month |
| Timestamp.DateOfDayNumber | src-tauri/src/commands/workspace_lifecycle.rs:430-453 | counting a valid date's days since 1 January 1970 and running the loops on them gives the date back |
| Timestamp.DayOfYearBound | src-tauri/src/commands/workspace_lifecycle.rs:433-444 | a valid date's offset in its year is less than the year's length |
| Timestamp.YearLoopOf | src-tauri/src/commands/workspace_lifecycle.rs:430-439 | the year loop on a date's day count stops at the date's year with the date's offset |
| Timestamp.MonthLoopOf | src-tauri/src/commands/workspace_lifecycle.rs:440-453 | the month loop on a date's offset stops at the date's month with the day before it |
| Timestamp.DayNumberOfDate | src-tauri/src/commands/workspace_lifecycle.rs:430-453 | the loops account for every day: counting the computed date's days gives the day count back |
| Timestamp.ClockOfSecondOfDay | src-tauri/src/commands/workspace_lifecycle.rs:424-427 | a valid time of day is the clock of its own second of the day |
| Timestamp.SecondOfDayOfClock | src-tauri/src/commands/workspace_lifecycle.rs:424-427 | the clock of a second of the day counts back to that second |
| Timestamp.ToDateTimeRoundTrip | src-tauri/src/commands/workspace_lifecycle.rs:421-453 | converting epoch seconds to calendar fields loses nothing: the fields count back to the seconds |
| Timestamp.FromDateTimeRoundTrip | src-tauri/src/commands/workspace_lifecycle.rs:421-453 | every valid date-time from 1970 on is what some epoch seconds convert to |
| Timestamp.SecondsOfDateTime | src-tauri/src/commands/workspace_lifecycle.rs:423-424 | the epoch seconds of a date-time divide into its day number and second of the day |
| Timestamp.Render | src-tauri/src/commands/workspace_lifecycle.rs:455-458 | the rendered fields sit where the layout puts them, separated by '-', 'T', ':' and ended by 'Z' |
| Timestamp.TwoDigits | src-tauri/src/commands/workspace_lifecycle.rs:456 | a number below 100 is printed as exactly two decimal digits that read back as the number |
| Timestamp.TwoDigitsIsZeroPad | src-tauri/src/commands/workspace_lifecycle.rs:456 | for numbers below 100 the two-digit form is the general zero padding to width 2 |
| Timestamp.DateTimeText | src-tauri/src/commands/workspace_lifecycle.rs:455-458 | the text is at least 20 characters and ends in the fixed `-`, `-`, `T`, `:`, `:`, `Z` separators at their places |
| Timestamp.Iso8601 | src-tauri/src/commands/workspace_lifecycle.rs:416-459 | the text for any clock reading has the layout YYYY-MM-DDTHH:MM:SSZ, with the year in at least four digits |
| Timestamp.ValidFitsLayout | src-tauri/src/commands/workspace_lifecycle.rs:455-458 | every field of a valid date-time fits its printed width, so the printing never widens a two-digit field |
| Timestamp.DateTimeTextFields | src-tauri/src/commands/workspace_lifecycle.rs:455-458 | every numeric field of the text reads back as the calendar field it prints |
| Timestamp.RenderReadsAs | src-tauri/src/commands/workspace_lifecycle.rs:455-458 | the layout of decimal fields reads back, field by field, as the numbers they spell |
| Timestamp.Iso8601ReadsBack | src-tauri/src/commands/workspace_lifecycle.rs:416-459 | the text for a clock reading spells a valid date and time of day that count back to the reading |
| Timestamp.Iso8601Length | src-tauri/src/commands/workspace_lifecycle.rs:455-458 | before the year 10000 the text is exactly 20 characters |
| Timestamp.EpochText | src-tauri/src/commands/workspace_lifecycle.rs:416-459 | second 0 is printed as 1970-01-01T00:00:00Z |
| Timestamp.EpochDate | src-tauri/src/commands/workspace_lifecycle.rs:423-453 | second 0 is midnight on 1 January 1970 |
| Timestamp.LeapExamples | src-tauri/src/commands/workspace_lifecycle.rs:461-463 | 1900 and 2100 are not leap years, 2000 and 2024 are, 2023 is not |
| Timestamp.IsLeap | src-tauri/src/commands/workspace_lifecycle.rs:461-463 | a leap year is divisible by 4; a year divisible by 4 and not by 100 is leap; a century year is leap exactly when divisible by 400 |
| Timestamp.LeapCycle | src-tauri/src/commands/workspace_lifecycle.rs:461-463 | the leap rule repeats every 400 years |
| Uuid.VariantByte | src-tauri/src/commands/workspace_lifecycle.rs:407 | bits 60 to 65 of the seed with bit 7 set lie between 0x80 and 0xBF |
| Uuid.HighByte | src-tauri/src/commands/workspace_lifecycle.rs:407 | bits 66 to 73 of the seed form a byte |
| Uuid.FieldsAsWritten | src-tauri/src/commands/workspace_lifecycle.rs:403-408 | every printed field fits its width, and the fourth holds the variant byte in its low byte |
| Uuid.FieldsCorrected | src-tauri/src/commands/workspace_lifecycle.rs:403-408 | every printed field fits its width, and the fourth holds the variant byte in its high byte |
| Uuid.Layout | src-tauri/src/commands/workspace_lifecycle.rs:403 | 36 characters with dashes at 8, 13, 18 and 23 and the version digit '4' at 14 |
| Uuid.LayoutReadsBack | src-tauri/src/commands/workspace_lifecycle.rs:403-408 | every other position holds a lowercase hex digit, and each group reads back as the field printed into it |
| Uuid.UuidAsWritten | src-tauri/src/commands/workspace_lifecycle.rs:395-410 | the printed id is 8-4-4-4-12 with version '4', and its fourth group reads as the variant byte plus 0x100 times bits 66 to 73 |
| Uuid.UuidV4 | src-tauri/src/commands/workspace_lifecycle.rs:395-410 | the id with the variant byte as the high byte of the fourth group |
| Uuid.UuidReadsBack | src-tauri/src/commands/workspace_lifecycle.rs:403-408 | the first, second, third and fifth groups read back as bits 0-31, 32-47, 48-59 and 74-121 of the seed |
| Uuid.VariantDigit | src-tauri/src/commands/workspace_lifecycle.rs:407 | the corrected id's fourth group starts with one of 8, 9, a, b |
| Uuid.VariantGroup | src-tauri/src/commands/workspace_lifecycle.rs:407 | four hex digits whose value has a variant byte as high byte start with one of 8, 9, a, b |
| Uuid.AsWrittenVariantMisplaced | src-tauri/src/commands/workspace_lifecycle.rs:407 | as written, every seed below 2^66 makes the fourth group start with "00", so the variant digit is never 8, 9, a or b |
| Uuid.AsWrittenDiffersInFourthGroupOnly | src-tauri/src/commands/workspace_lifecycle.rs:403-408 | the printed id and the corrected one agree outside the fourth group, and differ in it exactly when the variant byte differs from bits 66 to 73 |
| Uuid.LayoutOutsideFourthGroup | src-tauri/src/commands/workspace_lifecycle.rs:403 | two field sets differing only in the fourth field print alike outside the fourth group |
| Scripts.ResolvePlatformCommand | src-tauri/src/commands/scripts.rs:140-157 | on Windows the Windows command and arguments are used when present, each falling back to the plain one on its own; elsewhere the plain command and arguments |
| Scripts.WorkingDir | src-tauri/src/commands/scripts.rs:45-49 | the script's cwd joined onto the worktree path, or the worktree path itself when there is none |
| Scripts.ProcessId | src-tauri/src/commands/scripts.rs:65 | the id is the workspace id, a dash, and the pid in decimal, which reads back as the pid |
| Scripts.RunScript | src-tauri/src/commands/scripts.rs:34-76 | a missing working directory and a failed spawn are errors (with their messages) that change nothing; a spawn appends exactly one running entry with id "<workspace>-<pid>" and returns it |
| Scripts.StopProcess | src-tauri/src/commands/scripts.rs:78-101 | an unknown id returns "Process '<id>' not found" and changes nothing; a failed kill changes nothing; otherwise every entry with the id becomes exited and every other entry is unchanged |
| Scripts.Refresh | src-tauri/src/commands/scripts.rs:111-116 | a running entry whose pid is dead becomes exited; every other entry is kept, and so is the length |
| Scripts.ListRunningProcesses | src-tauri/src/commands/scripts.rs:103-129 | the statuses are refreshed in place; without a workspace the whole list is returned, with one exactly the entries of that workspace in stored order |
| Scripts.CleanupProcesses | src-tauri/src/commands/scripts.rs:131-138 | exactly the running entries are kept, in order, so failed entries are dropped along with exited ones |
| Scripts.RefreshOnlyExits | src-tauri/src/commands/scripts.rs:112-116 | a refresh only moves running entries to exited and never back to running |
| Scripts.RefreshIdempotent | src-tauri/src/commands/scripts.rs:112-116 | refreshing twice with the same probe is refreshing once |
| Scripts.ListedInOwnWorkspace | src-tauri/src/commands/scripts.rs:118-126 | every entry of the full listing is in its own workspace's listing |
| Scripts.CleanupIdempotent | src-tauri/src/commands/scripts.rs:135-136 | cleaning up twice is cleaning up once |
| Scripts.StopThenCleanupRemoves | src-tauri/src/commands/scripts.rs:94-136 | after stopping a process, clean-up removes every entry with its id |
| Scripts.RunThenStop | src-tauri/src/commands/scripts.rs:64-98 | a script just started can be stopped under the id it was given, which marks its entry exited |
| Checkpoints.StripCr | src-tauri/src/commands/checkpoints.rs:30-31 | a line ending in a carriage return loses it; any other line is kept |
| Checkpoints.Lines | src-tauri/src/commands/checkpoints.rs:30-31 | the lines are the pieces between newlines, each but the last without a trailing carriage return |
| Checkpoints.AsU32 | src-tauri/src/commands/checkpoints.rs:33 | a count below 2^32 is kept by the cast |
| Checkpoints.FileCountOfNames | src-tauri/src/commands/checkpoints.rs:24-33 | for git's name-only listing of n file names, one per line, the file count is n |
| Checkpoints.NonEmptyLinesOfNames | src-tauri/src/commands/checkpoints.rs:30-32 | that listing has exactly one non-empty line per file name |
| Checkpoints.LinesOfNames | src-tauri/src/commands/checkpoints.rs:30-31 | the lines of that listing are the names followed by one empty piece |
| Checkpoints.CommitMessage | src-tauri/src/commands/checkpoints.rs:36 | the message is "[checkpoint] " followed by exactly the label |
| Checkpoints.CheckpointId | src-tauri/src/commands/checkpoints.rs:58 | the id is "cp-" followed by the first eight characters of the ref, eleven characters in all |
| Checkpoints.CreateCheckpoint | src-tauri/src/commands/checkpoints.rs:8-71 | each git failure (listing, commit spawn, commit status, rev-parse) returns its error and changes nothing; otherwise the checkpoint with the trimmed HEAD as ref, "cp-" id, label, agent and file count is appended and returned |
| Checkpoints.ListCheckpoints | src-tauri/src/commands/checkpoints.rs:73-87 | the result is the stored checkpoint list filtered to the workspace: exactly its checkpoints, in stored order and with their multiplicity |
| Checkpoints.DeleteCheckpoint | src-tauri/src/commands/checkpoints.rs:109-118 | the checkpoint list becomes the old list with every checkpoint of that id filtered out, the others kept in order; nothing else changes |
| Checkpoints.DeleteUnknown | src-tauri/src/commands/checkpoints.rs:116 | deleting an unknown id changes nothing |
| Checkpoints.ListAfterAppend | src-tauri/src/commands/checkpoints.rs:68-85 | a checkpoint appended to the store ends its workspace's list; other workspaces' lists are unchanged |
| Checkpoints.ListAfterCreate | src-tauri/src/commands/checkpoints.rs:8-87 | a created checkpoint is listed last for its workspace and other workspaces' lists are unchanged |
| FileTypes.FromExtension | src-tauri/src/models/file.rs:24-40 | each kind is chosen exactly when its list holds the lower-cased extension, and Unknown exactly when no list does |
| FileTypes.ListsDisjoint | src-tauri/src/models/file.rs:26-37 | no extension is on two lists, so the order of the match arms does not matter |
| FileTypes.CaseInsensitive | src-tauri/src/models/file.rs:25 | an extension and its lower-case form get the same kind |
| FileTypes.NoExtensionUnknown | src-tauri/src/models/file.rs:38 | the empty extension is Unknown |
| FileTypes.KnownKinds | src-tauri/src/models/file.rs:26-37 | "TSX" and "Rs" are code, "txt" markdown, "svg" an image, "json5" JSON, "yml" config and "wasm" binary |
| FileTypes.LockUnknown | src-tauri/src/models/file.rs:38 | an extension on no list ("lock") is Unknown |
| Files.ItemError | src-tauri/src/commands/files.rs:16-27 | an unreadable entry stops the listing with "Failed to read entry"; a skipped name never fails; a listed name whose metadata cannot be read fails with "Failed to read metadata" |
| Files.ToEntry | src-tauri/src/commands/files.rs:28-48 | the entry keeps name and path; a directory gets size 0 and kind Unknown, a file its length and the kind of its extension |
| Files.FirstErrorShift | src-tauri/src/commands/files.rs:16-27 | behind an item that does not fail, the first failure among the later items is the first failure overall |
| Files.ListedCons | src-tauri/src/commands/files.rs:16-48 | an item that does not fail adds its entry in front when it is listed, and nothing when it is skipped |
| Files.Collect | src-tauri/src/commands/files.rs:16-49 | the loop fails exactly when some item fails, with the error of the first failing item; otherwise it yields the non-skipped items' entries, in order |
| Files.EntryLeTotalPreorder | src-tauri/src/commands/files.rs:52-56 | directories-first-then-lower-cased-name is a total preorder, so sorting by it is well defined |
| Files.EntryLe | src-tauri/src/commands/files.rs:52-56 | of a directory and a file, the directory comes first and not the file; two entries of the same kind whose lower-cased names agree may come in either order |
| Files.EntryTie | src-tauri/src/commands/files.rs:52-56 | two entries tie exactly when they are of the same kind and their lower-cased names agree |
| Files.ListDirectory | src-tauri/src/commands/files.rs:6-59 | a path that is not a directory and an unreadable directory are errors, an item failure is passed on; a success is a permutation of the collected entries, ordered with directories first and by lower-cased name within each group |
| Files.ListingKeepsTiesInReadOrder | src-tauri/src/commands/files.rs:52-56 | entries that tie in the listing order (same kind, names equal once lower-cased) keep the order in which `read_dir` gave them |
| Files.DirectoriesFirst | src-tauri/src/commands/files.rs:52-56 | in a listing no file precedes a directory, and within each group the lower-cased names do not decrease |
| Files.CollectIsUnskipped | src-tauri/src/commands/files.rs:16-49 | the collected entries have no skipped name, and every listed item's entry is among them |
| Files.ListingIsUnskipped | src-tauri/src/commands/files.rs:16-58 | the listing holds no hidden or ignored name, and holds the entry of every other item |
| Files.ReadFile | src-tauri/src/commands/files.rs:61-105 | a non-file and unreadable metadata are errors; binaries and images get empty content without a read; a previewable file over 1048576 bytes gets the "File too large to preview (N bytes)" message; anything else is read, and a failed read is an error |
| Files.UnreadFilesIgnoreContents | src-tauri/src/commands/files.rs:78-95 | for a binary, an image or a file over the limit, the answer succeeds and does not depend on what a read would return |
| UnifiedDiff.DigitRun | src/components/diff/UnifiedDiff.tsx:22 | `\d+` takes the longest run of leading digits: all digits, and stopped by a non-digit or the end |
| UnifiedDiff.Number | src/components/diff/UnifiedDiff.tsx:22 | a number is found exactly when the text starts with a digit; its digits followed by the rest give the text back |
| UnifiedDiff.NewSide | src/components/diff/UnifiedDiff.tsx:22 | the new-side part of the pattern yields digits when it matches |
| UnifiedDiff.HunkAtStart | src/components/diff/UnifiedDiff.tsx:22 | the whole pattern at the start of a text yields two digit strings when it matches |
| UnifiedDiff.HunkAt | src/components/diff/UnifiedDiff.tsx:22 | the pattern tried at a position yields two digit strings when it matches |
| UnifiedDiff.FirstSome | src/components/diff/UnifiedDiff.tsx:22 | a found value is the match at some position in range |
| UnifiedDiff.FirstSomeLeftmost | src/components/diff/UnifiedDiff.tsx:22 | nothing is found exactly when no position matches; otherwise the value is the match at the leftmost matching position |
| UnifiedDiff.HunkSearch | src/components/diff/UnifiedDiff.tsx:22 | the unanchored search yields two digit strings when the pattern matches anywhere in the line |
| UnifiedDiff.Classify | src/components/diff/UnifiedDiff.tsx:19-40 | "@@" lines are headers; otherwise "+" lines are added and "-" lines removed (so "+++" and "---" never reach the header test); " " lines are context; "diff " and "index " lines are headers; an empty line is dropped |
| UnifiedDiff.Step | src/components/diff/UnifiedDiff.tsx:19-40 | a dropped line emits nothing and keeps the counters; a header carries no numbers and resets both counters only when the hunk pattern matches; added lines carry and advance only the new counter, removed lines only the old one, context lines both; content is the line without its first character, except for headers |
| UnifiedDiff.RenderAll | src/components/diff/UnifiedDiff.tsx:13-44 | rendering keeps one raw line per parsed line |
| UnifiedDiff.RenderAllAppend | src/components/diff/UnifiedDiff.tsx:13-44 | rendering distributes over concatenation |
| UnifiedDiff.StepRenders | src/components/diff/UnifiedDiff.tsx:27-39 | a kept line's parsed form renders back to the raw line: the marker and the content |
| UnifiedDiff.ParseRenders | src/components/diff/UnifiedDiff.tsx:13-44 | parsing loses nothing but the dropped lines: the parsed lines render back to exactly the kept raw lines, in order |
| UnifiedDiff.ParseLines | src/components/diff/UnifiedDiff.tsx:14-41 | at most one parsed line per raw line; headers carry no line numbers, added lines only a new-side number, removed lines only an old-side number, context lines both |
| UnifiedDiff.ParseDiffLines | src/components/diff/UnifiedDiff.tsx:13-44 | the parsed lines of a diff text render back to exactly its kept newline-separated lines, in order |
| UnifiedDiff.ParseLength | src/components/diff/UnifiedDiff.tsx:13-44 | exactly one parsed line per kept raw line, and so at most one per newline-separated line |
| UnifiedDiff.CountersAdvance | src/components/diff/UnifiedDiff.tsx:28-37 | inside a hunk, the new counter advances by the number of added and context lines and the old counter by the number of removed and context lines |
| UnifiedDiff.FileLinesNotHeaders | src/components/diff/UnifiedDiff.tsx:28-38 | "+++ name" is classified as added and "--- name" as removed, because the +/- tests come first |
| UnifiedDiff.NumberOf | src/components/diff/UnifiedDiff.tsx:22 | digits followed by a non-digit are read as one number |
| UnifiedDiff.DigitRunOf | src/components/diff/UnifiedDiff.tsx:22 | the digit run of digits followed by a non-digit is exactly those digits |
| UnifiedDiff.SkipCountOf | src/components/diff/UnifiedDiff.tsx:22 | the optional `,count` part steps over a written count and over nothing when there is none |
| UnifiedDiff.NewSideOf | src/components/diff/UnifiedDiff.tsx:22 | the new side of a header as git writes it yields its start |
| UnifiedDiff.HeaderMatchesAtStart | src/components/diff/UnifiedDiff.tsx:22 | a hunk header as git writes it matches the pattern at its first character with its two starts |
| UnifiedDiff.HunkHeaderParses | src/components/diff/UnifiedDiff.tsx:22-26 | a hunk header as git writes it, with or without counts, yields its two start numbers |
| UnifiedDiff.HeaderResetsCounters | src/components/diff/UnifiedDiff.tsx:20-27 | after a hunk header as git writes it the counters hold its old and new starts, and the header line carries no numbers |
| DiffFileTree.FileStatus | src/components/diff/DiffFileTree.tsx:10-16 | added exactly when the text holds a `\n+` but no `\n-`, deleted exactly when it holds a `\n-` but no `\n+`, modified exactly when it holds both or neither |
| DiffFileTree.HeadersMakeModified | src/components/diff/DiffFileTree.tsx:10-16 | a patch that carries the `--- old` and `+++ new` header lines after a line break is always counted as modified, whatever its hunks hold |
| DiffFileTree.SingleLineModified | src/components/diff/DiffFileTree.tsx:10-16 | a text without a line break is counted as modified |
| DiffFileTree.FileName | src/components/diff/DiffFileTree.tsx:29-31 | the file name holds no `/`, and a path without `/` is its own name |
| DiffFileTree.Directory | src/components/diff/DiffFileTree.tsx:33-37 | a path without `/` has the empty directory; otherwise directory, `/` and file name give the path back |
| DiffFileTree.SplitAtLastSlash | src/components/diff/DiffFileTree.tsx:29-37 | the path splits at its last `/` into directory and name, and a path without `/` is all name |
| DiffFileTree.GroupIsFilter | src/components/diff/DiffFileTree.tsx:45-51 | the grouping loop makes one key per directory that occurs, each key once, and under each key exactly the diffs of that directory in input order |
| DiffFileTree.Group | src/components/diff/DiffFileTree.tsx:45-51 | the directory list never repeats a directory, names exactly the keys of the group map, and is no longer than the list of diffs |
| DiffFileTree.EachDiffInOneGroup | src/components/diff/DiffFileTree.tsx:45-51 | every diff lands in the group of its own directory and in no other |
| DiffFileTree.SortKeepsDistinct | src/components/diff/DiffFileTree.tsx:53 | sorting the directory keys keeps them free of repeats and keeps the same keys |
| DiffFileTree.SortedDirs | src/components/diff/DiffFileTree.tsx:45-53 | the directories come in ascending order, each once, and are exactly the directories of the diffs |
| DiffFileTree.SortedDirsIncrease | src/components/diff/DiffFileTree.tsx:53 | the sorted directories strictly increase |
| GitStatus.FirstSet | src-tauri/src/commands/git.rs:25-53 | an if/else-if chain yields the state of its first set flag, and unmodified when no flag is set |
| GitStatus.StagedState | src-tauri/src/commands/git.rs:25-37 | the staged state is never untracked or conflicted, and is unmodified exactly when no index flag is set |
| GitStatus.UnstagedState | src-tauri/src/commands/git.rs:39-53 | the unstaged state is never added, and is unmodified exactly when no worktree flag and no conflict flag is set |
| GitStatus.ChainsPickFirstSet | src-tauri/src/commands/git.rs:25-53 | both chains pick the first set flag in the order the source tests them |
| GitStatus.Collect | src-tauri/src/commands/git.rs:21-62 | one status per changed entry, in entry order, and every reported file has a staged or an unstaged change |
| GitStatus.ReportedIffSomeBit | src-tauri/src/commands/git.rs:55 | an entry is reported exactly when at least one of its status flags is set |
| GitStatus.GitStatusCmd | src-tauri/src/commands/git.rs:6-65 | an unopenable repository and a failed status query give their own error messages; otherwise the changed entries are reported |
| GitStatus.LineText | src-tauri/src/commands/git.rs:78-84 | a `+`, `-` or space line is printed with its origin character in front of its content; every other line is printed as its content alone |
| GitStatus.GitDiff | src-tauri/src/commands/git.rs:67-89 | an unopenable repository, a failed diff and a failed print give their own error messages; a patch is the printed lines in order |
| GitStatus.MarkedLinesCons | src-tauri/src/commands/git.rs:78-84 | the marked body lines peel off one line at a time |
| GitStatus.LineTextIsMarked | src-tauri/src/commands/git.rs:78-84 | a printed body line is its marker, its content and a line break |
| GitStatus.MarkedLineNoBreak | src-tauri/src/commands/git.rs:78-84 | a marked body line holds no line break |
| GitStatus.PatchTextIsJoin | src-tauri/src/commands/git.rs:77-88 | a patch of body lines is their marked forms joined by line breaks, with a final break |
| GitStatus.SplitPatchText | src-tauri/src/commands/git.rs:77-88 | splitting such a patch at line breaks gives back the marked lines and one final empty piece |
| GitStatus.MarkedLinesKept | src-tauri/src/commands/git.rs:77-88 | the diff view drops only the final empty piece of such a patch |
| GitStatus.BodyLinesParseBack | src-tauri/src/commands/git.rs:77-88 | the diff view's parser, handed the patch of body lines the backend prints, renders back exactly those lines |
| GitView.StateColor | src/components/git/GitFileItem.tsx:12-27 | the default colour is used exactly for unmodified and type-change states |
| GitView.SameColorIff | src/components/git/GitFileItem.tsx:12-27 | two states share a colour exactly when they are equal, both new files (added or untracked), or both without a colour of their own |
| GitView.StateLabel | src/components/git/GitFileItem.tsx:30-49 | the label is empty exactly for the unmodified state and one character otherwise |
| GitView.LabelsDistinct | src/components/git/GitFileItem.tsx:30-49 | different states have different labels |
| GitView.FileItem | src/components/git/GitFileItem.tsx:58-102 | the row shows the unstaged state when there is one and the staged state otherwise; the stage button appears exactly when there is an unstaged change and the unstage button exactly when there is a staged one |
| GitView.BadgeIffButton | src/components/git/GitFileItem.tsx:58-102 | a row shows a badge exactly when it offers a button, and shows the unmodified state only when both states are unmodified |
| GitView.ReportedFilesActionable | src/components/git/GitFileItem.tsx:58-102 | every file the status command reports gets a badge and at least one button |
| GitView.StatusList | src/components/git/GitStatusList.tsx:19-28 | the empty-state message appears exactly for an empty list; otherwise the staged section holds the files with a staged change and the changes section those with an unstaged change, in list order |
| GitView.SectionMembership | src/components/git/GitStatusList.tsx:19-20 | a file is in the staged section exactly when it has a staged change and in the changes section exactly when it has an unstaged one |
| GitView.SectionsKeepOrder | src/components/git/GitStatusList.tsx:19-20 | appending files extends each section by the appended files that belong to it |
| GitView.ReportedFilesListed | src/components/git/GitStatusList.tsx:19-64 | every file the status command reports appears in at least one section |
| WorktreeDialog.FilteredBranches | src/components/sidebar/CreateWorktreeDialog.tsx:59-63 | an empty search keeps every branch; otherwise exactly the branches whose lower-cased name contains the lower-cased search are kept |
| WorktreeDialog.EmptySearchKeepsAll | src/components/sidebar/CreateWorktreeDialog.tsx:59-63 | the empty-search shortcut agrees with filtering by the empty search |
| WorktreeDialog.SearchKeepsOrder | src/components/sidebar/CreateWorktreeDialog.tsx:59-63 | filtering a concatenation is the concatenation of the filtered parts, so the list order is kept |
| WorktreeDialog.LocalBranches | src/components/sidebar/CreateWorktreeDialog.tsx:65 | the local list is the order-preserving filter of the searched branches that are not remote |
| WorktreeDialog.RemoteBranches | src/components/sidebar/CreateWorktreeDialog.tsx:66 | the remote list is the order-preserving filter of the searched branches that are remote |
| WorktreeDialog.SplitPartitions | src/components/sidebar/CreateWorktreeDialog.tsx:65-66 | the two lists together are as long as the filtered list |
| WorktreeDialog.SplitRecoversBackendLoops | src/components/sidebar/CreateWorktreeDialog.tsx:65-66 | on the backend's branch list the split gives back exactly the backend's local and remote loops |
| WorktreeDialog.Dashes | src/components/sidebar/CreateWorktreeDialog.tsx:96 | the rewritten name holds no whitespace, and is empty exactly when the typed text is |
| WorktreeDialog.NoSpaceUnchanged | src/components/sidebar/CreateWorktreeDialog.tsx:96 | text without whitespace is left as it is |
| WorktreeDialog.DashesIdempotent | src/components/sidebar/CreateWorktreeDialog.tsx:96 | rewriting twice is rewriting once |
| WorktreeDialog.RunBecomesOneDash | src/components/sidebar/CreateWorktreeDialog.tsx:96 | a maximal whitespace run after a word becomes a single `-` |
| WorktreeDialog.TrimNoSpace | src/components/sidebar/CreateWorktreeDialog.tsx:70-77 | trimming text without whitespace leaves it as it is |
| WorktreeDialog.Open | src/components/sidebar/CreateWorktreeDialog.tsx:37-57 | opening clears the typed fields and the search; a loaded default branch becomes both default and base, a failed load leaves the default `main` and no base; a failed branch load leaves no branches |
| WorktreeDialog.TypeName | src/components/sidebar/CreateWorktreeDialog.tsx:96 | typing changes only the name, which never holds whitespace |
| WorktreeDialog.TypeBranch | src/components/sidebar/CreateWorktreeDialog.tsx:132-134 | typing changes only the custom branch, which never holds whitespace |
| WorktreeDialog.PickBase | src/components/sidebar/CreateWorktreeDialog.tsx:187-190 | picking a branch makes it the base, clears the search and changes nothing else |
| WorktreeDialog.Submit | src/components/sidebar/CreateWorktreeDialog.tsx:68-77 | nothing is submitted exactly when the trimmed name is empty; otherwise the trimmed name, the trimmed custom branch or none, and the base, else the default, else none |
| WorktreeDialog.SubmitsShownBase | src/components/sidebar/CreateWorktreeDialog.tsx:76-105 | the dialog submits the base branch it shows, and submits none only when it shows the dash |
| WorktreeDialog.TypedNameSubmitted | src/components/sidebar/CreateWorktreeDialog.tsx:70-96 | a typed name is submitted exactly as rewritten, and only an empty field is refused |
| WorktreeDialog.OpenedDialogBase | src/components/sidebar/CreateWorktreeDialog.tsx:47-77 | right after opening, a submit passes on the loaded default branch, or `main` when it could not be loaded |
| WorktreeDialog.SubmitThenCreate | src/components/sidebar/CreateWorktreeDialog.tsx:70-77 | a created worktree is named by the trimmed name, and its branch is the trimmed custom branch or else the name |
| Worktrees.LocalEntries | src-tauri/src/commands/worktrees.rs:22-36 | one local, non-remote entry per named branch, in iterator order, keeping its HEAD mark |
| Worktrees.RemoteEntries | src-tauri/src/commands/worktrees.rs:38-55 | one remote entry per named branch that is not a `/HEAD` reference, in iterator order, never marked as HEAD |
| Worktrees.ListBranches | src-tauri/src/commands/worktrees.rs:16-58 | only an unopenable repository is an error; a failed branch query lists nothing for its kind; the list is the local entries followed by the remote ones |
| Worktrees.LocalEntriesAreLocal | src-tauri/src/commands/worktrees.rs:22-36 | no local entry is marked remote |
| Worktrees.RemoteEntriesAreListed | src-tauri/src/commands/worktrees.rs:38-55 | every remote entry is marked remote, is not HEAD and does not end in `/HEAD` |
| Worktrees.LocalsBeforeRemotes | src-tauri/src/commands/worktrees.rs:16-58 | every local branch comes before every remote one, and no listed remote branch is a HEAD reference |
| Worktrees.DefaultBranch | src-tauri/src/commands/worktrees.rs:60-90 | only an unopenable repository is an error; otherwise origin/HEAD's target, else `origin/main`, else `origin/master`, else the current HEAD, else `main` |
| Worktrees.DefaultIsFirstSource | src-tauri/src/commands/worktrees.rs:65-89 | the default branch is the first source, in the order tried, that has a name |
| Worktrees.Parent | src-tauri/src/commands/worktrees.rs:134-135 | no parent exactly when the path is empty or all `/`; a parent is strictly shorter than its path; the parent `/` comes only from an absolute path; any other non-empty parent does not end in `/` and the path starts with it followed by `/` |
| Worktrees.ParentOfGitFile | src-tauri/src/commands/worktrees.rs:133-135 | the parent of `dir/.git` is `dir` |
| Worktrees.ParentOfChild | src-tauri/src/commands/worktrees.rs:134-135 | the parent of `dir/c` is `dir`, for any single component `c` other than `.` and any `dir` not ending in `/` |
| Worktrees.LinkedPath | src-tauri/src/commands/worktrees.rs:126-140 | without a `gitdir` file the path is the administrative directory; with one, it is the parent of the trimmed content (an unreadable file reading as ""), or the administrative directory when that has no parent |
| Worktrees.UnreadableGitdirGivesAdminPath | src-tauri/src/commands/worktrees.rs:130-137 | a `gitdir` file that cannot be read gives the administrative directory |
| Worktrees.GitdirGivesWorktreeDir | src-tauri/src/commands/worktrees.rs:126-137 | a `gitdir` file holding `dir/.git` and a line break gives the worktree directory `dir` |
| Worktrees.LinkedEntries | src-tauri/src/commands/worktrees.rs:119-153 | one entry per linked worktree that has a name and is found, in order, never marked main |
| Worktrees.ListWorktrees | src-tauri/src/commands/worktrees.rs:92-156 | only an unopenable repository is an error; the list starts with the main worktree at its cleaned working directory (or the repository path) with the HEAD branch, followed by the linked entries |
| Worktrees.MainWorktreeFirst | src-tauri/src/commands/worktrees.rs:111-149 | the main worktree is the first entry and the only one marked main |
| Worktrees.WorktreePathShape | src-tauri/src/commands/worktrees.rs:171-178 | a relative name lies in the repository's `.worktrees` directory; an absolute name replaces the whole path |
| Worktrees.GitArgs | src-tauri/src/commands/worktrees.rs:180-194 | the git run is `worktree add -b <branch> <path>`, the branch defaulting to the name, with the base branch appended when given |
| Worktrees.CreateWorktree | src-tauri/src/commands/worktrees.rs:164-209 | a failed directory creation, a failed spawn and an unsuccessful git run give their own error messages; success exactly when git succeeds, with the name, the path, the branch and not main |
| Worktrees.CreatedMatchesArgs | src-tauri/src/commands/worktrees.rs:180-208 | the created worktree reports the branch and path git was asked to create |
| Paths.JoinPath | src-tauri/src/commands/worktrees.rs:172-178 | joining an absolute path gives that path; joining a relative one keeps the base as a prefix and the path as a suffix, with exactly one `/` between them when the base is non-empty and does not already end in one, and nothing else added |
| Paths.PiecesAppend | src-tauri/src/commands/repos.rs:23-26 | the normal components of two concatenated piece lists are the components of each in turn |
| Paths.FileName | src-tauri/src/commands/repos.rs:23-26 | the file name exists exactly when the path has a normal `/`-separated piece and the last one is not `..`, and then it is that last piece: not empty, not `.`, without `/` |
| Paths.NameExtension | src-tauri/src/commands/files.rs:30-34 | there is no extension exactly when the name is `..`, has no `.`, or has its only `.` first; otherwise the extension is the text after the last `.` |
| Paths.SplitAppend | src-tauri/src/commands/worktrees.rs:178 | splitting at an inserted separator splits both sides independently |
| Paths.FileNameOfJoin | src-tauri/src/commands/worktrees.rs:178 | a plain name joined onto a directory is the file name of the result |
| Sorting.LexLeTotal | src/components/diff/DiffFileTree.tsx:53 | any two strings are ordered one way or the other |
| Sorting.LexLeTransitive | src/components/diff/DiffFileTree.tsx:53 | the string order is transitive |
| Sorting.LexLeAntisymmetric | src/components/diff/DiffFileTree.tsx:53 | two strings ordered both ways are equal |
| Sorting.Insert | src-tauri/src/commands/files.rs:52-56 | inserting adds exactly the one element |
| Sorting.InsertSorted | src-tauri/src/commands/files.rs:52-56 | inserting into a sorted list under a total preorder keeps it sorted |
| Sorting.Sort | src-tauri/src/commands/files.rs:52-56 | sorting is a permutation of its input |
| Sorting.SortSorted | src-tauri/src/commands/files.rs:52-56 | under a total preorder the sorted list is in order |
| Sorting.InsertKeepsTies | src-tauri/src/commands/files.rs:52-56 | inserting an element puts it ahead of the elements it ties with and keeps the order among the others |
| Sorting.SortStable | src-tauri/src/commands/files.rs:52-56 | sorting is stable: the elements that tie with any given one come out in their input order |

## Left out

- The real pty and xterm.js: output bytes, escape sequences, DOM containers, fitting, focusing and the resize observer (`XtermTerminal.tsx:104-111` and `233-247`). The model keeps only which session is visible and active, and a pty handle number per session.
- Callback concurrency: pty data and exit callbacks are events applied one at a time.
- `getAgentArgs`: the agent's argument list is opaque; the model records only the agent id a session was spawned for.
- `usePty.ts`, an older variant of the same kill and spawn logic, is not part of this model.
- The app store's plain setters (`setRepos`, `addRepo`, `setWorktrees`, `selectRepo`, `selectWorktree`, `setAgents`, `setSelectedAgentId`, the panel widths and panel choice, `setWorkspaces`, `setActiveWorkspaceId`): each replaces one field and carries no logic beyond that.
- The settings store, the notes files, `load_heroi_config`, `save_heroi_config`, `list_workspace_configs`, `list_repos` and `file_exists`: these are reads and writes with no in-memory logic. A store read or write appears in the model only as its reported outcome.
- `restore_checkpoint` and `diff_checkpoint` in `checkpoints.rs` and `remove_worktree` in `worktrees.rs` are sequences of git runs whose results are passed through unchanged, so there is nothing beyond the I/O to model.
- `git_diff_file`, `git_stage_file` and `git_unstage_file` in `git.rs` (lines 92-190) are git2 calls whose errors are passed through with a prefix. The diff printer `git_diff_file` uses is the one GitStatus.LineText models. The only choices the commands make are which call to issue: the staged diff when the unstaged one changes no file, an index add or remove by whether the file exists on disk, and a reset or an index remove by whether the file is in HEAD. Those choices depend only on the repository, so there is nothing beyond the I/O to model.
- `kill_process`, `is_process_alive`, the TCP probe of `is_port_range_available` and the system clock are parameters: a kill result, a liveness predicate, a port predicate, and seconds or nanoseconds since the epoch.
- The "destroy all sessions" event: `switchWorkspace` sends it, but nothing listens for it, so it has no effect in the model.
- Checkpoints.CreateCheckpoint: requires that a successful `rev-parse` prints at least eight characters after trimming. The source slices `&git_ref[..8]` and panics on a shorter ref, and a panic is not a `Result` the model can return. Checkpoints.CheckpointId carries the same requirement.
- Checkpoints.Lines: models Rust's `str::lines` for the name-only output. It splits at `\n` and drops one `\r` before each break. It keeps a final empty piece that `lines` would not yield, which the file count ignores anyway because it counts only non-empty lines.
- Strings.Lower: lowercases ASCII letters only. Rust's `to_lowercase` and JavaScript's `toLowerCase` also fold non-ASCII letters. So FileTypes.FromExtension, the listing order and the branch search are exact only for ASCII names.
- Sorting.LexLe: compares strings by character code. JavaScript's default `sort()` compares UTF-16 code units, which agrees for characters of the Basic Multilingual Plane.
- Sorting.Sort: sorts by insertion, which is stable like Rust's `sort_by` and JavaScript's `sort` (Sorting.SortStable). Stability matters for the directory listing, where two names that differ only in case tie (`files.rs:52-56`): Files.ListingKeepsTiesInReadOrder states that tied entries keep their `read_dir` order. The model does not say what that order is, since `read_dir` is a parameter.
- TerminalSessions.CloseTabLeavesSessions and the `CloseTab` signal: `destroySession` is not exported from `XtermTerminal.tsx` (line 200), while `AgentTabBar.tsx:4` imports it, so the tab bar as written does not build. The model takes the close handler of `AgentTabBar.tsx:46-50` as if the import resolved. Under that reading closing a tab destroys no session unless a worktree path equals the tab id. The model does not decide how the build failure would be repaired.
- TerminalSessions.SpawnInSession and TerminalSessions.SpawnIn: only a throw from `spawn` itself is modelled, which leaves no pty and the session exited. A throw from a later step of the `try` block (`XtermTerminal.tsx:155-189`: a subscription or `focus`) would leave the new pty recorded with status "exited" and only some subscriptions. The registry invariant excludes that state, and the model does not represent it.
- Paths.JoinPath and Paths.FileName: model Unix paths only, with `/` as the one separator. Windows `\` separators and drive or UNC prefixes are not modelled. Repos.RepoName, Scripts.WorkingDir and Worktrees.WorktreePath rely on them, so they are exact only on Unix-style paths.
- WorkspaceLifecycle.CreateWorkspace and WorkspaceLifecycle.CreateWorkspaceForMain: both build the workspace id with the corrected Uuid.UuidV4, not with the id the source prints (Uuid.UuidAsWritten). The two differ only in the fourth group, where the variant byte and bits 66-73 of the seed trade places (Uuid.AsWrittenDiffersInFourthGroupOnly). For seed 0 the source prints `0080` and the model `8000`. So for a given clock reading the model's id is not the source's id; everywhere else ids are only compared for equality.
- UnifiedDiff.Number: reads a digit run as an unbounded natural number. JavaScript's `parseInt` loses precision beyond 2^53.
- Worktrees.Parent: models `Path::parent` for `/`-separated paths without `.` components. `components()` drops a `.` anywhere, so `Path::new("/a/b/.").parent()` is `/a` while the model gives `/a/b`. A `gitdir` file names an absolute path without such components.
- Lossy UTF-8 conversions (`to_string_lossy`, `from_utf8_lossy`) are modelled as the identity on strings.
- WorktreeDialog.Open: the dialog's two loads answer asynchronously and in either order. The model takes the state once both have answered.
- WorktreeDialog.Submit and Worktrees.WorktreePath: a name typed as an absolute path replaces the whole worktree path, because `Path::join` does so. The model states this and leaves it allowed, as the source does.
- Timestamp.DateTimeText: the layout lemmas need each field to fit its printed width. That holds for every valid date-time, as Timestamp.ValidFitsLayout shows. A year of five digits or more widens the text beyond 20 characters, so Timestamp.Iso8601Length is stated only before the year 10000.
- Terminal rendering: the tab bar's drawing and the terminal's container layout.
- Provider environment layering and formatting file sizes (floating point) are outside the core.

## Findings

| source | as written | input that shows it | evidently intended | confidence | as-written member | corrected member |
|---|---|---|---|---|---|---|
| src-tauri/src/commands/workspace_lifecycle.rs:407 | `as` binds tighter than `<<`, which binds tighter than `\|`. So the variant byte `((seed >> 60) & 0x3F) \| 0x80` becomes the LOW byte of the fourth group, and bits 66-73 of the seed become its high byte. | any seed below 2^66, e.g. 0: the fourth group is `0080`, whose first digit is `0` | the variant byte as the high byte, so that the fourth group starts with 8, 9, a or b | medium; not executed | Uuid.UuidAsWritten, Uuid.AsWrittenVariantMisplaced | Uuid.UuidV4, Uuid.VariantDigit |

The rest of the model (`WorkspaceLifecycle.CreateWorkspace` and
`WorkspaceLifecycle.CreateWorkspaceForMain`) uses the corrected `Uuid.UuidV4`.
The id it builds therefore differs from the printed one in the fourth group,
where two bytes swap (`Uuid.AsWrittenDiffersInFourthGroupOnly`; for seed 0,
`0080` as printed and `8000` corrected). The other four groups agree. The
rest of the model compares ids only for equality.

=== FILE: app_store.dfy ===
/** The front end's application store: repositories, the selected repository
    and worktree, the selected agent, settings, per-worktree agent tabs and
    workspaces. Every action is a pure transition on the state record. */
module AppStore {

  import opened Wrappers
  import opened Models
  import Seqs

  datatype Ide = VsCode | Cursor | Zed

  datatype AgentArgsConfig = AgentArgsConfig(flags: map<string, bool>, extraArgs: string)

  datatype Settings = Settings(
    defaultAgentId: string,
    gitPollInterval: int,
    defaultIde: Ide,
    agentArgs: map<string, AgentArgsConfig>
  )

  /** `Partial<Settings>`: a field is present or absent. */
  datatype SettingsPatch = SettingsPatch(
    defaultAgentId: Option<string>,
    gitPollInterval: Option<int>,
    defaultIde: Option<Ide>,
    agentArgs: Option<map<string, AgentArgsConfig>>
  )

  datatype Tab = Tab(id: string, agentId: string, labelText: string, worktreePath: string)

  datatype Status = ActiveStatus | ArchivedStatus

  /** The front end's workspace: the backend record plus the saved UI state. */
  datatype Workspace = Workspace(
    id: string,
    name: string,
    repoPath: string,
    worktreePath: string,
    branch: string,
    isMainWorktree: bool,
    portBase: U16,
    status: Status,
    createdAt: string,
    envVars: map<string, string>,
    worktreeTabs: map<string, seq<Tab>>,
    activeTabId: map<string, string>,
    selectedRepo: Option<string>,
    selectedWorktreePath: Option<string>,
    leftPanelWidth: int,
    rightPanelWidth: int
  )

  datatype State = State(
    repos: seq<RepoEntry>,
    selectedRepo: Option<string>,
    selectedWorktree: Option<WorktreeInfo>,
    selectedAgentId: string,
    settings: Settings,
    leftPanelWidth: int,
    rightPanelWidth: int,
    worktreeTabs: map<string, seq<Tab>>,
    activeTabId: map<string, string>,
    workspaces: seq<Workspace>,
    activeWorkspaceId: Option<string>
  )

  const DefaultLeftPanelWidth := 260
  const DefaultRightPanelWidth := 300

  // ---------------------------------------------------------------------------
  // Repositories and settings
  // ---------------------------------------------------------------------------

  function PathIsNot(path: string): RepoEntry -> bool {
    (r: RepoEntry) => r.path != path
  }

  /** `removeRepo(path)`: drop every entry with that path and deselect it if it
      was selected. */
  function RemoveRepo(s: State, path: string): (r: State)
    ensures r.repos == Seqs.Filter(s.repos, PathIsNot(path))
    ensures forall i :: 0 <= i < |r.repos| ==> r.repos[i].path != path && r.repos[i] in s.repos
    ensures forall i :: 0 <= i < |s.repos| && s.repos[i].path != path ==> s.repos[i] in r.repos
    ensures r.selectedRepo == if s.selectedRepo == Some(path) then None else s.selectedRepo
    ensures r.(repos := s.repos, selectedRepo := s.selectedRepo) == s
  {
    s.(repos := Seqs.Filter(s.repos, PathIsNot(path)),
       selectedRepo := if s.selectedRepo == Some(path) then None else s.selectedRepo)
  }

  /** Removing a repository that is not listed leaves the list as it was. */
  lemma RemoveAbsentRepo(s: State, path: string)
    requires forall i :: 0 <= i < |s.repos| ==> s.repos[i].path != path
    ensures RemoveRepo(s, path).repos == s.repos
  {
    Seqs.FilterAll(s.repos, PathIsNot(path));
  }

  /** `setSettings`: replace the settings and select their default agent. */
  function SetSettings(s: State, settings: Settings): (r: State)
    ensures r.settings == settings && r.selectedAgentId == settings.defaultAgentId
    ensures r.(settings := s.settings, selectedAgentId := s.selectedAgentId) == s
  {
    s.(settings := settings, selectedAgentId := settings.defaultAgentId)
  }

  /** The object spread `{ ...settings, ...patch }`. */
  function Merge(settings: Settings, patch: SettingsPatch): Settings {
    Settings(patch.defaultAgentId.GetOr(settings.defaultAgentId),
             patch.gitPollInterval.GetOr(settings.gitPollInterval),
             patch.defaultIde.GetOr(settings.defaultIde),
             patch.agentArgs.GetOr(settings.agentArgs))
  }

  /** `updateSettings(partial)`: a supplied field wins, an absent one is kept;
      the selected agent follows `defaultAgentId` only when it is supplied. */
  function UpdateSettings(s: State, patch: SettingsPatch): (r: State)
    ensures patch.defaultAgentId.Some? ==>
              r.settings.defaultAgentId == patch.defaultAgentId.value
              && r.selectedAgentId == patch.defaultAgentId.value
    ensures patch.defaultAgentId.None? ==>
              r.settings.defaultAgentId == s.settings.defaultAgentId
              && r.selectedAgentId == s.selectedAgentId
    ensures patch.gitPollInterval.Some? ==> r.settings.gitPollInterval == patch.gitPollInterval.value
    ensures patch.gitPollInterval.None? ==> r.settings.gitPollInterval == s.settings.gitPollInterval
    ensures patch.defaultIde.Some? ==> r.settings.defaultIde == patch.defaultIde.value
    ensures patch.defaultIde.None? ==> r.settings.defaultIde == s.settings.defaultIde
    ensures patch.agentArgs.Some? ==> r.settings.agentArgs == patch.agentArgs.value
    ensures patch.agentArgs.None? ==> r.settings.agentArgs == s.settings.agentArgs
    ensures r.(settings := s.settings, selectedAgentId := s.selectedAgentId) == s
  {
    s.(settings := Merge(s.settings, patch),
       selectedAgentId := patch.defaultAgentId.GetOr(s.selectedAgentId))
  }

  /** An empty patch changes nothing, and applying a patch twice is applying it
      once. */
  lemma UpdateSettingsLaws(s: State, patch: SettingsPatch)
    ensures UpdateSettings(s, SettingsPatch(None, None, None, None)) == s
    ensures UpdateSettings(UpdateSettings(s, patch), patch) == UpdateSettings(s, patch)
  {
  }

  /** Patching with every field supplied is `setSettings`. */
  lemma FullPatchIsSetSettings(s: State, settings: Settings)
    ensures UpdateSettings(s, SettingsPatch(Some(settings.defaultAgentId), Some(settings.gitPollInterval),
                                            Some(settings.defaultIde), Some(settings.agentArgs)))
            == SetSettings(s, settings)
  {
  }

  // ---------------------------------------------------------------------------
  // Agent tabs
  // ---------------------------------------------------------------------------

  /** `getTabsForWorktree`: the worktree's tabs, or none. */
  function TabsFor(tabs: map<string, seq<Tab>>, worktreePath: string): (r: seq<Tab>)
    ensures worktreePath !in tabs ==> r == []
  {
    if worktreePath in tabs then tabs[worktreePath] else []
  }

  function HasId(id: string): Tab -> bool {
    (t: Tab) => t.id == id
  }

  function IdIsNot(id: string): Tab -> bool {
    (t: Tab) => t.id != id
  }

  /** `addTab(worktreePath, agentId, label)` with `id` the fresh UUID: append the
      tab to that worktree's list, make it the worktree's active tab and select
      its agent. Returns the new state and the tab. */
  function AddTab(s: State, worktreePath: string, agentId: string, labelText: string, id: string): (r: (State, Tab))
    ensures r.1 == Tab(id, agentId, labelText, worktreePath)
    ensures r.0.worktreeTabs.Keys == s.worktreeTabs.Keys + {worktreePath}
    ensures r.0.worktreeTabs[worktreePath] == TabsFor(s.worktreeTabs, worktreePath) + [r.1]
    ensures forall p :: p in s.worktreeTabs && p != worktreePath ==> r.0.worktreeTabs[p] == s.worktreeTabs[p]
    ensures r.0.activeTabId == s.activeTabId[worktreePath := id]
    ensures r.0.selectedAgentId == agentId
    ensures r.0.(worktreeTabs := s.worktreeTabs, activeTabId := s.activeTabId, selectedAgentId := s.selectedAgentId) == s
  {
    var tab := Tab(id, agentId, labelText, worktreePath);
    (s.(worktreeTabs := s.worktreeTabs[worktreePath := TabsFor(s.worktreeTabs, worktreePath) + [tab]],
        activeTabId := s.activeTabId[worktreePath := id],
        selectedAgentId := agentId),
     tab)
  }

  /** The active tab after removal: unchanged unless the removed tab was
      active, in which case the last remaining tab, or no entry at all. */
  function ActiveAfterRemoval(active: map<string, string>, worktreePath: string, tabId: string, remaining: seq<Tab>): (r: map<string, string>)
    ensures !(worktreePath in active && active[worktreePath] == tabId) ==> r == active
    ensures worktreePath in active && active[worktreePath] == tabId && |remaining| > 0 ==>
              r == active[worktreePath := remaining[|remaining| - 1].id]
    ensures worktreePath in active && active[worktreePath] == tabId && |remaining| == 0 ==>
              r == active - {worktreePath}
  {
    if worktreePath in active && active[worktreePath] == tabId then
      if |remaining| > 0 then active[worktreePath := remaining[|remaining| - 1].id]
      else active - {worktreePath}
    else active
  }

  /** `removeTab(worktreePath, tabId)`: only this worktree's list changes, and
      it loses exactly the tabs with that id, keeping the others in order; the
      active id follows `ActiveAfterRemoval`, and the selected agent becomes
      the agent of the tab now active, if any. */
  function RemoveTab(s: State, worktreePath: string, tabId: string): (r: State)
    ensures r.worktreeTabs == s.worktreeTabs[worktreePath := Seqs.Filter(TabsFor(s.worktreeTabs, worktreePath), IdIsNot(tabId))]
    ensures forall i :: 0 <= i < |r.worktreeTabs[worktreePath]| ==> r.worktreeTabs[worktreePath][i].id != tabId
    ensures r.activeTabId == ActiveAfterRemoval(s.activeTabId, worktreePath, tabId, r.worktreeTabs[worktreePath])
    ensures r.selectedAgentId == if ActiveTabFor(r, worktreePath).Some? then ActiveTabFor(r, worktreePath).value.agentId
                                 else s.selectedAgentId
    ensures r.(worktreeTabs := s.worktreeTabs, activeTabId := s.activeTabId, selectedAgentId := s.selectedAgentId) == s
  {
    var tabs := Seqs.Filter(TabsFor(s.worktreeTabs, worktreePath), IdIsNot(tabId));
    assert forall i :: 0 <= i < |tabs| ==> IdIsNot(tabId)(tabs[i]);
    var newActive := ActiveAfterRemoval(s.activeTabId, worktreePath, tabId, tabs);
    var activeTab := if worktreePath in newActive then Seqs.Find(tabs, HasId(newActive[worktreePath])) else None;
    s.(worktreeTabs := s.worktreeTabs[worktreePath := tabs],
       activeTabId := newActive,
       selectedAgentId := if activeTab.Some? then activeTab.value.agentId else s.selectedAgentId)
  }

  /** When the removed tab was active and others remain, the agent of the last
      remaining tab is selected. */
  lemma RemoveActiveTabSelectsLast(s: State, worktreePath: string, tabId: string)
    requires worktreePath in s.activeTabId && s.activeTabId[worktreePath] == tabId
    requires |Seqs.Filter(TabsFor(s.worktreeTabs, worktreePath), IdIsNot(tabId))| > 0
    ensures var tabs := RemoveTab(s, worktreePath, tabId).worktreeTabs[worktreePath];
            var last := tabs[|tabs| - 1];
            RemoveTab(s, worktreePath, tabId).activeTabId[worktreePath] == last.id
            && exists i :: 0 <= i < |tabs| && tabs[i].id == last.id
                           && RemoveTab(s, worktreePath, tabId).selectedAgentId == tabs[i].agentId
  {
    var tabs := Seqs.Filter(TabsFor(s.worktreeTabs, worktreePath), IdIsNot(tabId));
    var last := tabs[|tabs| - 1];
    assert HasId(last.id)(tabs[|tabs| - 1]);
  }

  /** `setActiveTab(worktreePath, tabId)`: the id is recorded even when no such
      tab exists; the selected agent changes only when it does. */
  function SetActiveTab(s: State, worktreePath: string, tabId: string): (r: State)
    ensures r.activeTabId == s.activeTabId[worktreePath := tabId]
    ensures (forall i :: 0 <= i < |TabsFor(s.worktreeTabs, worktreePath)| ==>
               TabsFor(s.worktreeTabs, worktreePath)[i].id != tabId)
            ==> r.selectedAgentId == s.selectedAgentId
    ensures r.selectedAgentId != s.selectedAgentId ==>
              exists i :: 0 <= i < |TabsFor(s.worktreeTabs, worktreePath)|
                          && TabsFor(s.worktreeTabs, worktreePath)[i].id == tabId
                          && TabsFor(s.worktreeTabs, worktreePath)[i].agentId == r.selectedAgentId
    ensures Seqs.Find(TabsFor(s.worktreeTabs, worktreePath), HasId(tabId)).Some? ==>
              r.selectedAgentId == Seqs.Find(TabsFor(s.worktreeTabs, worktreePath), HasId(tabId)).value.agentId
    ensures r.(activeTabId := s.activeTabId, selectedAgentId := s.selectedAgentId) == s
  {
    var tab := Seqs.Find(TabsFor(s.worktreeTabs, worktreePath), HasId(tabId));
    s.(activeTabId := s.activeTabId[worktreePath := tabId],
       selectedAgentId := if tab.Some? then tab.value.agentId else s.selectedAgentId)
  }

  /** `getActiveTabForWorktree`: the first of the worktree's tabs carrying the
      recorded active id. */
  function ActiveTabFor(s: State, worktreePath: string): (r: Option<Tab>)
    ensures r.Some? ==> worktreePath in s.activeTabId && r.value.id == s.activeTabId[worktreePath]
                        && r.value in TabsFor(s.worktreeTabs, worktreePath)
    ensures r.None? && worktreePath in s.activeTabId ==>
              forall i :: 0 <= i < |TabsFor(s.worktreeTabs, worktreePath)| ==>
                TabsFor(s.worktreeTabs, worktreePath)[i].id != s.activeTabId[worktreePath]
  {
    if worktreePath !in s.activeTabId then None
    else
      var r := Seqs.Find(TabsFor(s.worktreeTabs, worktreePath), HasId(s.activeTabId[worktreePath]));
      assert r.Some? ==> HasId(s.activeTabId[worktreePath])(r.value);
      r
  }

  /** After `setActiveTab` the worktree's active tab is the first tab with
      that id, when there is one, and the selected agent is that tab's agent;
      with no such tab there is no active tab and the selection stays. */
  lemma SetActiveTabThenActive(s: State, worktreePath: string, tabId: string)
    ensures var r := SetActiveTab(s, worktreePath, tabId);
            && (ActiveTabFor(r, worktreePath).Some? <==>
                  exists i :: 0 <= i < |TabsFor(s.worktreeTabs, worktreePath)| && TabsFor(s.worktreeTabs, worktreePath)[i].id == tabId)
            && (ActiveTabFor(r, worktreePath).Some? ==> r.selectedAgentId == ActiveTabFor(r, worktreePath).value.agentId)
            && (ActiveTabFor(r, worktreePath).None? ==> r.selectedAgentId == s.selectedAgentId)
  {
  }

  /** A tab just added with a fresh id is the worktree's active tab. */
  lemma AddedTabIsActive(s: State, worktreePath: string, agentId: string, labelText: string, id: string)
    requires forall i :: 0 <= i < |TabsFor(s.worktreeTabs, worktreePath)| ==> TabsFor(s.worktreeTabs, worktreePath)[i].id != id
    ensures ActiveTabFor(AddTab(s, worktreePath, agentId, labelText, id).0, worktreePath)
            == Some(Tab(id, agentId, labelText, worktreePath))
  {
    var r := AddTab(s, worktreePath, agentId, labelText, id);
    var tabs := r.0.worktreeTabs[worktreePath];
    var found := Seqs.Find(tabs, HasId(id));
    assert HasId(id)(tabs[|tabs| - 1]);
    assert forall i :: 0 <= i < |tabs| - 1 ==> !HasId(id)(tabs[i]);
  }

  /** Removing a tab just added with a fresh id gives back the worktree's
      previous tab list. */
  lemma {:induction false} RemoveUndoesAdd(s: State, worktreePath: string, agentId: string, labelText: string, id: string)
    requires forall i :: 0 <= i < |TabsFor(s.worktreeTabs, worktreePath)| ==> TabsFor(s.worktreeTabs, worktreePath)[i].id != id
    ensures RemoveTab(AddTab(s, worktreePath, agentId, labelText, id).0, worktreePath, id).worktreeTabs[worktreePath]
            == TabsFor(s.worktreeTabs, worktreePath)
  {
    var old_tabs := TabsFor(s.worktreeTabs, worktreePath);
    var tab := Tab(id, agentId, labelText, worktreePath);
    Seqs.FilterAppend(old_tabs, [tab], IdIsNot(id));
    Seqs.FilterAll(old_tabs, IdIsNot(id));
    assert Seqs.Filter([tab], IdIsNot(id)) == [];
  }

  // ---------------------------------------------------------------------------
  // Workspaces
  // ---------------------------------------------------------------------------

  /** `workspaceFromConfig`: the backend record with empty tab state, the
      workspace's own repository and worktree selected, and default widths. */
  function WorkspaceFromConfig(c: WorkspaceConfig): (w: Workspace)
    ensures w.id == c.id && w.name == c.name && w.portBase == c.portBase
    ensures w.repoPath == c.repoPath && w.worktreePath == c.worktreePath
    ensures w.branch == c.branch && w.isMainWorktree == c.isMainWorktree
    ensures w.createdAt == c.createdAt && w.envVars == c.envVars
    ensures (w.status == ActiveStatus) <==> (c.status == Active)
    ensures w.worktreeTabs == map[] && w.activeTabId == map[]
    ensures w.selectedRepo == Some(c.repoPath) && w.selectedWorktreePath == Some(c.worktreePath)
  {
    Workspace(c.id, c.name, c.repoPath, c.worktreePath, c.branch, c.isMainWorktree, c.portBase,
              if c.status == Active then ActiveStatus else ArchivedStatus,
              c.createdAt, c.envVars, map[], map[], Some(c.repoPath), Some(c.worktreePath),
              DefaultLeftPanelWidth, DefaultRightPanelWidth)
  }

  /** `addWorkspaceFromConfig`: append the converted workspace and make it
      active. */
  function AddWorkspaceFromConfig(s: State, c: WorkspaceConfig): (r: (State, Workspace))
    ensures r.1 == WorkspaceFromConfig(c)
    ensures r.0.workspaces == s.workspaces + [r.1]
    ensures r.0.activeWorkspaceId == Some(c.id)
    ensures r.0.(workspaces := s.workspaces, activeWorkspaceId := s.activeWorkspaceId) == s
  {
    var w := WorkspaceFromConfig(c);
    (s.(workspaces := s.workspaces + [w], activeWorkspaceId := Some(c.id)), w)
  }

  /** A JavaScript truthy `string | null`: present and non-empty. */
  predicate Truthy(id: Option<string>) {
    id.Some? && id.value != ""
  }

  function WorkspaceIdIs(id: string): Workspace -> bool {
    (w: Workspace) => w.id == id
  }

  function WorkspaceIdIsNot(id: string): Workspace -> bool {
    (w: Workspace) => w.id != id
  }

  /** `deleteWorkspace(id)`: drop every workspace with that id; an active one
      hands over to the first remaining workspace, or to none. */
  function DeleteWorkspace(s: State, id: string): (r: State)
    ensures r.workspaces == Seqs.Filter(s.workspaces, WorkspaceIdIsNot(id))
    ensures forall i :: 0 <= i < |r.workspaces| ==> r.workspaces[i].id != id
    ensures forall i :: 0 <= i < |s.workspaces| && s.workspaces[i].id != id ==> s.workspaces[i] in r.workspaces
    ensures s.activeWorkspaceId != Some(id) ==> r.activeWorkspaceId == s.activeWorkspaceId
    ensures s.activeWorkspaceId == Some(id) && |r.workspaces| > 0 ==> r.activeWorkspaceId == Some(r.workspaces[0].id)
    ensures s.activeWorkspaceId == Some(id) && |r.workspaces| == 0 ==> r.activeWorkspaceId.None?
    ensures r.(workspaces := s.workspaces, activeWorkspaceId := s.activeWorkspaceId) == s
  {
    var remaining := Seqs.Filter(s.workspaces, WorkspaceIdIsNot(id));
    s.(workspaces := remaining,
       activeWorkspaceId := if s.activeWorkspaceId == Some(id) then
                              (if |remaining| > 0 then Some(remaining[0].id) else None)
                            else s.activeWorkspaceId)
  }

  /** After deleting the active workspace the new active id is never the
      deleted one. */
  lemma DeletedIsNotActive(s: State, id: string)
    ensures DeleteWorkspace(s, id).activeWorkspaceId != Some(id)
  {
    var r := DeleteWorkspace(s, id);
    if |r.workspaces| > 0 {
      assert r.workspaces[0].id != id;
    }
  }

  function Rename(name: string): Workspace -> Workspace {
    (w: Workspace) => w.(name := name)
  }

  /** `renameWorkspace(id, name)`: only the name of matching workspaces
      changes. */
  function RenameWorkspace(s: State, id: string, name: string): (r: State)
    ensures |r.workspaces| == |s.workspaces|
    ensures forall i :: 0 <= i < |s.workspaces| ==>
              r.workspaces[i].(name := s.workspaces[i].name) == s.workspaces[i]
              && r.workspaces[i].name == (if s.workspaces[i].id == id then name else s.workspaces[i].name)
    ensures r.(workspaces := s.workspaces) == s
  {
    s.(workspaces := Seqs.UpdateWhere(s.workspaces, WorkspaceIdIs(id), Rename(name)))
  }

  /** The workspace record with the store's current UI state saved into it. */
  function Snapshot(s: State, w: Workspace): Workspace {
    w.(worktreeTabs := s.worktreeTabs,
       activeTabId := s.activeTabId,
       selectedRepo := s.selectedRepo,
       selectedWorktreePath := if s.selectedWorktree.Some? then Some(s.selectedWorktree.value.path) else None,
       leftPanelWidth := s.leftPanelWidth,
       rightPanelWidth := s.rightPanelWidth)
  }

  function SnapshotInto(s: State): Workspace -> Workspace {
    (w: Workspace) => Snapshot(s, w)
  }

  /** `saveCurrentWorkspace`: with a truthy active id, copy the UI state into
      every workspace carrying that id. */
  function SaveCurrentWorkspace(s: State): (r: State)
    ensures !Truthy(s.activeWorkspaceId) ==> r == s
    ensures |r.workspaces| == |s.workspaces|
    ensures forall i :: 0 <= i < |s.workspaces| ==>
              r.workspaces[i] == if Truthy(s.activeWorkspaceId) && s.workspaces[i].id == s.activeWorkspaceId.value
                                 then Snapshot(s, s.workspaces[i]) else s.workspaces[i]
    ensures r.(workspaces := s.workspaces) == s
  {
    if !Truthy(s.activeWorkspaceId) then s
    else s.(workspaces := Seqs.UpdateWhere(s.workspaces, WorkspaceIdIs(s.activeWorkspaceId.value), SnapshotInto(s)))
  }

  /** `loadWorkspaceState(w)`: restore the saved UI state and select the
      worktree the workspace is bound to. */
  function LoadWorkspaceState(s: State, w: Workspace): (r: State)
    ensures r.worktreeTabs == w.worktreeTabs && r.activeTabId == w.activeTabId
    ensures r.selectedRepo == Some(w.repoPath)
    ensures r.selectedWorktree == Some(WorktreeInfo(if w.isMainWorktree then "main" else w.name,
                                                    w.worktreePath, Some(w.branch), w.isMainWorktree))
    ensures r.leftPanelWidth == w.leftPanelWidth && r.rightPanelWidth == w.rightPanelWidth
    ensures r.repos == s.repos && r.workspaces == s.workspaces && r.activeWorkspaceId == s.activeWorkspaceId
    ensures r.selectedAgentId == s.selectedAgentId && r.settings == s.settings
  {
    s.(worktreeTabs := w.worktreeTabs,
       activeTabId := w.activeTabId,
       selectedRepo := Some(w.repoPath),
       selectedWorktree := Some(WorktreeInfo(if w.isMainWorktree then "main" else w.name,
                                             w.worktreePath, Some(w.branch), w.isMainWorktree)),
       leftPanelWidth := w.leftPanelWidth,
       rightPanelWidth := w.rightPanelWidth)
  }

  /** `switchWorkspace(id)`: save the current workspace if one is active, then,
      if `id` names a workspace, load it and make it active. The destroy-all
      event it dispatches has no listener and so no effect here. */
  function SwitchWorkspace(s: State, id: string): (r: State)
    ensures (forall i :: 0 <= i < |s.workspaces| ==> s.workspaces[i].id != id) ==> r == SaveCurrentWorkspace(s)
    ensures (exists i :: 0 <= i < |s.workspaces| && s.workspaces[i].id == id) ==>
              r.activeWorkspaceId == Some(id)
              && exists k :: 0 <= k < |s.workspaces| && s.workspaces[k].id == id
                             && r.worktreeTabs == SaveCurrentWorkspace(s).workspaces[k].worktreeTabs
                             && r.activeTabId == SaveCurrentWorkspace(s).workspaces[k].activeTabId
    ensures forall k :: 0 <= k < |s.workspaces| && s.workspaces[k].id == id
                        && (forall j :: 0 <= j < k ==> s.workspaces[j].id != id) ==>
              r == LoadWorkspaceState(SaveCurrentWorkspace(s), SaveCurrentWorkspace(s).workspaces[k])
                     .(activeWorkspaceId := Some(id))
    ensures r.workspaces == SaveCurrentWorkspace(s).workspaces
    ensures r.repos == s.repos && r.selectedAgentId == s.selectedAgentId && r.settings == s.settings
  {
    var saved := SaveCurrentWorkspace(s);
    var found := Seqs.Find(saved.workspaces, WorkspaceIdIs(id));
    if found.Some? then
      FoundWorkspace(s, id, found.value);
      LoadWorkspaceState(saved, found.value).(activeWorkspaceId := Some(id))
    else
      NoWorkspace(s, id);
      saved
  }

  /** A workspace found in the saved list is the saved form of one with that
      id. */
  lemma FoundWorkspace(s: State, id: string, w: Workspace)
    requires Seqs.Find(SaveCurrentWorkspace(s).workspaces, WorkspaceIdIs(id)) == Some(w)
    ensures exists k :: 0 <= k < |s.workspaces| && s.workspaces[k].id == id
                        && SaveCurrentWorkspace(s).workspaces[k] == w
  {
    var saved := SaveCurrentWorkspace(s).workspaces;
    var k :| 0 <= k < |saved| && saved[k] == w && WorkspaceIdIs(id)(saved[k]);
    assert saved[k].id == s.workspaces[k].id;
  }

  /** Saving keeps the ids, so a missing id is missing from the saved list. */
  lemma NoWorkspace(s: State, id: string)
    requires Seqs.Find(SaveCurrentWorkspace(s).workspaces, WorkspaceIdIs(id)).None?
    ensures forall i :: 0 <= i < |s.workspaces| ==> s.workspaces[i].id != id
  {
    var saved := SaveCurrentWorkspace(s).workspaces;
    forall i | 0 <= i < |s.workspaces|
      ensures s.workspaces[i].id != id
    {
      assert !WorkspaceIdIs(id)(saved[i]);
    }
  }

  /** Switching back to the workspace that is already active reloads exactly
      the tab state it had. */
  lemma SwitchToActiveKeepsTabs(s: State)
    requires Truthy(s.activeWorkspaceId)
    requires exists i :: 0 <= i < |s.workspaces| && s.workspaces[i].id == s.activeWorkspaceId.value
    ensures var r := SwitchWorkspace(s, s.activeWorkspaceId.value);
            && r.worktreeTabs == s.worktreeTabs && r.activeTabId == s.activeTabId
            && r.activeWorkspaceId == s.activeWorkspaceId
  {
  }

  /** Every workspace carrying `id` holds these tabs. */
  predicate HoldsTabs(ws: seq<Workspace>, id: string, tabs: map<string, seq<Tab>>, active: map<string, string>) {
    forall k :: 0 <= k < |ws| && ws[k].id == id ==> ws[k].worktreeTabs == tabs && ws[k].activeTabId == active
  }

  /** Saving puts the tabs into every workspace carrying the active id, and
      keeps every id. */
  lemma SaveHoldsTabs(s: State)
    requires Truthy(s.activeWorkspaceId)
    ensures HoldsTabs(SaveCurrentWorkspace(s).workspaces, s.activeWorkspaceId.value, s.worktreeTabs, s.activeTabId)
  {
  }

  /** Leaving the active workspace for another saves the tabs into it. */
  lemma LeaveSaves(s: State, other: string)
    requires Truthy(s.activeWorkspaceId) && other != s.activeWorkspaceId.value
    requires exists i :: 0 <= i < |s.workspaces| && s.workspaces[i].id == s.activeWorkspaceId.value
    requires exists i :: 0 <= i < |s.workspaces| && s.workspaces[i].id == other
    ensures var s1 := SwitchWorkspace(s, other);
            && s1.activeWorkspaceId == Some(other)
            && (exists i :: 0 <= i < |s1.workspaces| && s1.workspaces[i].id == s.activeWorkspaceId.value)
            && HoldsTabs(s1.workspaces, s.activeWorkspaceId.value, s.worktreeTabs, s.activeTabId)
  {
    var id := s.activeWorkspaceId.value;
    var saved := SaveCurrentWorkspace(s).workspaces;
    SaveHoldsTabs(s);
    var i :| 0 <= i < |s.workspaces| && s.workspaces[i].id == id;
    assert saved[i].id == id;
  }

  /** Switching back to a workspace other than the active one loads the tabs
      it holds. */
  lemma ReturnLoads(s: State, id: string, tabs: map<string, seq<Tab>>, active: map<string, string>)
    requires s.activeWorkspaceId != Some(id)
    requires exists i :: 0 <= i < |s.workspaces| && s.workspaces[i].id == id
    requires HoldsTabs(s.workspaces, id, tabs, active)
    ensures var back := SwitchWorkspace(s, id);
            back.worktreeTabs == tabs && back.activeTabId == active && back.activeWorkspaceId == Some(id)
  {
    var back := SwitchWorkspace(s, id);
    var k :| 0 <= k < |s.workspaces| && s.workspaces[k].id == id
             && back.worktreeTabs == SaveCurrentWorkspace(s).workspaces[k].worktreeTabs
             && back.activeTabId == SaveCurrentWorkspace(s).workspaces[k].activeTabId;
    // the save touches only the active workspace, so slot k is as it was
    assert SaveCurrentWorkspace(s).workspaces[k] == s.workspaces[k];
  }

  /** Switch to another workspace and back: the tab state of the workspace
      left behind is what it had when it was left. */
  lemma SaveThenReturn(s: State, other: string)
    requires Truthy(s.activeWorkspaceId) && other != s.activeWorkspaceId.value
    requires exists i :: 0 <= i < |s.workspaces| && s.workspaces[i].id == s.activeWorkspaceId.value
    requires exists i :: 0 <= i < |s.workspaces| && s.workspaces[i].id == other
    ensures var back := SwitchWorkspace(SwitchWorkspace(s, other), s.activeWorkspaceId.value);
            back.worktreeTabs == s.worktreeTabs && back.activeTabId == s.activeTabId
            && back.activeWorkspaceId == s.activeWorkspaceId
  {
    LeaveSaves(s, other);
    ReturnLoads(SwitchWorkspace(s, other), s.activeWorkspaceId.value, s.worktreeTabs, s.activeTabId);
  }
}

=== FILE: checkpoints.dfy ===
/** Checkpoints (src-tauri/src/commands/checkpoints.rs): a checkpoint is a
    commit of everything staged in a worktree, recorded in memory with the
    number of files it touched. The git runs are parameters. */
module Checkpoints {

  import opened Wrappers
  import opened Strings
  import opened Models
  import Seqs
  import Timestamp

  /** The new state of a command together with what it returns. */
  datatype Outcome<T> = Outcome(data: AppData, result: Result<T>)

  /** A `\r` right before a line break belongs to the break. */
  function StripCr(line: string): (r: string)
    ensures line != "" && line[|line| - 1] == '\r' ==> r == line[..|line| - 1]
    ensures (line == "" || line[|line| - 1] != '\r') ==> r == line
  {
    if line != "" && line[|line| - 1] == '\r' then line[..|line| - 1] else line
  }

  /** Rust `str::lines`, up to a final empty line: the pieces between `\n`,
      each but the last without a `\r` before its break. */
  function Lines(s: string): (r: seq<string>)
    ensures |r| == |Split(s, '\n')|
    ensures forall k :: 0 <= k < |r| - 1 ==> r[k] == StripCr(Split(s, '\n')[k])
    ensures r[|r| - 1] == Split(s, '\n')[|r| - 1]
  {
    var pieces := Split(s, '\n');
    seq(|pieces|, k requires 0 <= k < |pieces| => if k < |pieces| - 1 then StripCr(pieces[k]) else pieces[k])
  }

  function NonEmpty(line: string): bool {
    line != ""
  }

  /** `lines().filter(|l| !l.is_empty()).count() as u32`. */
  function FileCount(nameOnlyOutput: string): U32 {
    AsU32(|Seqs.Filter(Lines(nameOnlyOutput), NonEmpty)|)
  }

  /** Rust `as u32` on a count: the low 32 bits. */
  function AsU32(n: nat): (r: U32)
    ensures n < 0x1_0000_0000 ==> r == n
  {
    n % 0x1_0000_0000
  }

  /** git's `--name-only` output for a list of file names, one per line with
      a final line break, counts as that many files. */
  lemma FileCountOfNames(names: seq<string>)
    requires |names| < 0x1_0000_0000
    requires forall k :: 0 <= k < |names| ==> '\n' !in names[k] && StripCr(names[k]) != ""
    ensures FileCount(Join(names + [""], '\n')) == |names|
  {
    NonEmptyLinesOfNames(names);
  }

  lemma NonEmptyLinesOfNames(names: seq<string>)
    requires forall k :: 0 <= k < |names| ==> '\n' !in names[k] && StripCr(names[k]) != ""
    ensures |Seqs.Filter(Lines(Join(names + [""], '\n')), NonEmpty)| == |names|
  {
    var output := Join(names + [""], '\n');
    var lines := Lines(output);
    LinesOfNames(names);
    var front := lines[..|names|];
    assert lines == front + [""];
    Seqs.FilterAppend(front, [""], NonEmpty);
    Seqs.FilterAll(front, NonEmpty);
    assert Seqs.Filter([""], NonEmpty) == [];
    assert |Seqs.Filter(lines, NonEmpty)| == |names|;
  }

  /** The lines of newline-terminated names are the names (without a `\r`
      before the break) and a final empty line. */
  lemma LinesOfNames(names: seq<string>)
    requires forall k :: 0 <= k < |names| ==> '\n' !in names[k] && StripCr(names[k]) != ""
    ensures var lines := Lines(Join(names + [""], '\n'));
            && |lines| == |names| + 1 && lines[|names|] == ""
            && forall k :: 0 <= k < |names| ==> lines[k] == StripCr(names[k]) && NonEmpty(lines[k])
  {
    var parts := names + [""];
    forall k | 0 <= k < |parts| ensures '\n' !in parts[k] {
      if k < |names| { assert parts[k] == names[k]; }
    }
    SplitJoin(parts, '\n');
  }

  /** `format!("[checkpoint] {}", label)`. */
  function CommitMessage(labelText: string): (r: string)
    ensures StartsWith(r, "[checkpoint] ") && r[13..] == labelText
  {
    "[checkpoint] " + labelText
  }

  /** `format!("cp-{}", &git_ref[..8])`; the slice needs eight characters
      (a shorter ref panics). */
  function CheckpointId(gitRef: string): (r: string)
    requires |gitRef| >= 8
    ensures |r| == 11 && StartsWith(r, "cp-") && r[3..] == gitRef[..8]
  {
    "cp-" + gitRef[..8]
  }

  /** The outcomes `create_checkpoint` depends on: the `--name-only` listing
      (or the error starting git), the commit run, and the `rev-parse HEAD`
      output (or its error). */
  datatype CheckpointIo = CheckpointIo(
    nameOnly: Result<string>,
    commit: CommandOutcome,
    revParse: Result<string>,
    nowSecs: nat
  )

  /** Whether the HEAD output is long enough for the id; the source panics
      otherwise. */
  predicate RefLongEnough(io: CheckpointIo) {
    io.revParse.Ok? ==> |TrimRust(io.revParse.value)| >= 8
  }

  /** `create_checkpoint`: the git failures in order leave the state as it
      was; on success the checkpoint is appended. */
  function CreateCheckpoint(data: AppData, workspaceId: string, labelText: string, agentId: Option<string>,
                            io: CheckpointIo): (o: Outcome<Checkpoint>)
    requires RefLongEnough(io)
    ensures io.nameOnly.Err? ==> o == Outcome(data, Err("Failed to run git: " + io.nameOnly.error))
    ensures io.nameOnly.Ok? && io.commit.SpawnFailed? ==>
              o == Outcome(data, Err("Failed to create checkpoint commit: " + io.commit.error))
    ensures io.nameOnly.Ok? && io.commit.Finished? && !io.commit.success ==>
              o == Outcome(data, Err("Checkpoint commit failed: " + io.commit.stderr))
    ensures io.nameOnly.Ok? && io.commit.Finished? && io.commit.success && io.revParse.Err? ==>
              o == Outcome(data, Err("Failed to get HEAD: " + io.revParse.error))
    ensures o.result.Ok? <==> io.nameOnly.Ok? && io.commit.Finished? && io.commit.success && io.revParse.Ok?
    ensures o.result.Ok? ==>
              && var cp := o.result.value;
              && o.data == data.(checkpoints := data.checkpoints + [cp])
              && cp.gitRef == TrimRust(io.revParse.value) && cp.id == CheckpointId(cp.gitRef)
              && cp.workspaceId == workspaceId && cp.labelText == labelText && cp.agentId == agentId
              && cp.fileCount == FileCount(io.nameOnly.value)
              && cp.createdAt == Timestamp.Iso8601(io.nowSecs)
  {
    match io.nameOnly
    case Err(e) => Outcome(data, Err("Failed to run git: " + e))
    case Ok(listing) =>
      match io.commit
      case SpawnFailed(e) => Outcome(data, Err("Failed to create checkpoint commit: " + e))
      case Finished(success, stderr) =>
        if !success then Outcome(data, Err("Checkpoint commit failed: " + stderr))
        else match io.revParse
          case Err(e) => Outcome(data, Err("Failed to get HEAD: " + e))
          case Ok(out) =>
            var gitRef := TrimRust(out);
            var cp := Checkpoint(CheckpointId(gitRef), workspaceId, labelText, gitRef,
                                 Timestamp.Iso8601(io.nowSecs), FileCount(listing), agentId);
            Outcome(data.(checkpoints := data.checkpoints + [cp]), Ok(cp))
  }

  function InWorkspace(workspaceId: string): Checkpoint -> bool {
    (c: Checkpoint) => c.workspaceId == workspaceId
  }

  /** `list_checkpoints`: the workspace's checkpoints in the order they were
      made. */
  function ListCheckpoints(data: AppData, workspaceId: string): (r: seq<Checkpoint>)
    ensures r == Seqs.Filter(data.checkpoints, InWorkspace(workspaceId))
    ensures forall i :: 0 <= i < |r| ==> r[i].workspaceId == workspaceId && r[i] in data.checkpoints
    ensures forall i :: 0 <= i < |data.checkpoints| && data.checkpoints[i].workspaceId == workspaceId
              ==> data.checkpoints[i] in r
  {
    var r := Seqs.Filter(data.checkpoints, InWorkspace(workspaceId));
    assert forall i :: 0 <= i < |r| ==> InWorkspace(workspaceId)(r[i]);
    r
  }

  function IdIsNot(id: string): Checkpoint -> bool {
    (c: Checkpoint) => c.id != id
  }

  /** `delete_checkpoint`: every checkpoint with the id goes, the rest stay in
      order; an unknown id changes nothing. */
  function DeleteCheckpoint(data: AppData, checkpointId: string): (r: AppData)
    ensures r.(checkpoints := data.checkpoints) == data
    ensures r.checkpoints == Seqs.Filter(data.checkpoints, IdIsNot(checkpointId))
    ensures forall i :: 0 <= i < |r.checkpoints| ==> r.checkpoints[i].id != checkpointId && r.checkpoints[i] in data.checkpoints
    ensures forall i :: 0 <= i < |data.checkpoints| && data.checkpoints[i].id != checkpointId
              ==> data.checkpoints[i] in r.checkpoints
  {
    var kept := Seqs.Filter(data.checkpoints, IdIsNot(checkpointId));
    assert forall i :: 0 <= i < |kept| ==> IdIsNot(checkpointId)(kept[i]);
    data.(checkpoints := kept)
  }

  /** Deleting an id no checkpoint has changes nothing. */
  lemma DeleteUnknown(data: AppData, checkpointId: string)
    requires forall i :: 0 <= i < |data.checkpoints| ==> data.checkpoints[i].id != checkpointId
    ensures DeleteCheckpoint(data, checkpointId) == data
  {
    Seqs.FilterAll(data.checkpoints, IdIsNot(checkpointId));
  }

  /** A checkpoint appended to the list ends its workspace's list; other
      workspaces' lists do not change. */
  lemma ListAfterAppend(data: AppData, cp: Checkpoint, other: string)
    ensures ListCheckpoints(data.(checkpoints := data.checkpoints + [cp]), cp.workspaceId)
            == ListCheckpoints(data, cp.workspaceId) + [cp]
    ensures other != cp.workspaceId ==>
              ListCheckpoints(data.(checkpoints := data.checkpoints + [cp]), other) == ListCheckpoints(data, other)
  {
    Seqs.FilterAppend(data.checkpoints, [cp], InWorkspace(cp.workspaceId));
    Seqs.FilterAppend(data.checkpoints, [cp], InWorkspace(other));
    assert Seqs.Filter([cp], InWorkspace(cp.workspaceId)) == [cp];
    if other != cp.workspaceId {
      assert Seqs.Filter([cp], InWorkspace(other)) == [];
    }
  }

  /** A new checkpoint ends its workspace's list; other workspaces' lists do
      not change. */
  lemma ListAfterCreate(data: AppData, workspaceId: string, labelText: string, agentId: Option<string>,
                        io: CheckpointIo, other: string)
    requires RefLongEnough(io)
    requires CreateCheckpoint(data, workspaceId, labelText, agentId, io).result.Ok?
    ensures var o := CreateCheckpoint(data, workspaceId, labelText, agentId, io);
            && ListCheckpoints(o.data, workspaceId) == ListCheckpoints(data, workspaceId) + [o.result.value]
            && (other != workspaceId ==> ListCheckpoints(o.data, other) == ListCheckpoints(data, other))
  {
    var o := CreateCheckpoint(data, workspaceId, labelText, agentId, io);
    ListAfterAppend(data, o.result.value, other);
  }
}

=== FILE: diff_file_tree.dfy ===
/** The changed-files tree of the diff viewer (src/components/diff/DiffFileTree.tsx):
    a per-file status guessed from the patch text, the split of a path into
    directory and file name, and the grouping of the diffs by directory with
    the directories listed in sorted order. */
module DiffFileTree {

  import opened Strings
  import opened Models
  import Seqs
  import Sorting

  // ---------------------------------------------------------------------------
  // Status of a file from its patch text
  // ---------------------------------------------------------------------------

  datatype ChangeKind = FileAdded | FileDeleted | FileModified

  /** `getFileStatus`: added when some line starts with `+` and none with
      `-` (the first line aside), deleted for the reverse, modified when both
      or neither occur. */
  function FileStatus(diffText: string): (r: ChangeKind)
    ensures r == FileAdded <==> Contains(diffText, "\n+") && !Contains(diffText, "\n-")
    ensures r == FileDeleted <==> !Contains(diffText, "\n+") && Contains(diffText, "\n-")
    ensures r == FileModified <==> (Contains(diffText, "\n+") <==> Contains(diffText, "\n-"))
  {
    var hasAdded := Contains(diffText, "\n+");
    var hasRemoved := Contains(diffText, "\n-");
    if hasAdded && !hasRemoved then FileAdded
    else if !hasAdded && hasRemoved then FileDeleted
    else FileModified
  }

  lemma ContainsPiece(a: string, sub: string, b: string)
    ensures Contains(a + sub + b, sub)
  {
    assert (a + sub + b)[|a|..|a| + |sub|] == sub;
    assert OccursAt(a + sub + b, sub, |a|);
  }

  /** A patch that carries git's two file header lines, `--- old` and
      `+++ new`, after some line break always counts as modified, whatever
      its hunks hold: the header lines alone supply both a `\n-` and a
      `\n+`. */
  lemma HeadersMakeModified(before: string, oldName: string, after: string)
    ensures FileStatus(before + "\n--- " + oldName + "\n+++ " + after) == FileModified
  {
    var text := before + "\n--- " + oldName + "\n+++ " + after;
    assert text == before + "\n-" + ("-- " + oldName + "\n+++ " + after);
    ContainsPiece(before, "\n-", "-- " + oldName + "\n+++ " + after);
    assert text == (before + "\n--- " + oldName) + "\n+" + ("++ " + after);
    ContainsPiece(before + "\n--- " + oldName, "\n+", "++ " + after);
  }

  /** Without a line break, no `\n`-led pair occurs. */
  lemma NoBreakNoPair(text: string, c: char)
    requires '\n' !in text
    ensures !Contains(text, ['\n', c])
  {
    forall i: nat | i <= |text| ensures !OccursAt(text, ['\n', c], i) {
      if i + 2 <= |text| {
        assert text[i] in text;
        assert text[i..i + 2][0] == text[i];
      }
    }
  }

  /** A text of one line, with no line break, counts as modified. */
  lemma SingleLineModified(text: string)
    requires '\n' !in text
    ensures FileStatus(text) == FileModified
  {
    NoBreakNoPair(text, '+');
    NoBreakNoPair(text, '-');
  }

  // ---------------------------------------------------------------------------
  // Directory and file name
  // ---------------------------------------------------------------------------

  /** `getFileName`: the last `/`-separated piece. */
  function FileName(filePath: string): (r: string)
    ensures '/' !in r
    ensures '/' !in filePath ==> r == filePath
  {
    var parts := Split(filePath, '/');
    assert '/' !in filePath ==> parts == [filePath] by {
      if '/' !in filePath {
        SplitNoSep(filePath, '/');
      }
    }
    parts[|parts| - 1]
  }

  /** `getDirectory`: every piece but the last, joined again; "" for a path
      without `/`. Together with `FileName` it takes the path apart at its
      last `/`. */
  function Directory(filePath: string): (r: string)
    ensures '/' !in filePath ==> r == ""
    ensures '/' in filePath ==> r + "/" + FileName(filePath) == filePath
  {
    var parts := Split(filePath, '/');
    JoinSplit(filePath, '/');
    if |parts| <= 1 then
      assert '/' !in filePath by {
        if |parts| == 1 {
          assert Join(parts, '/') == parts[0];
        }
      }
      ""
    else
      var front := parts[..|parts| - 1];
      assert parts == front + [parts[|parts| - 1]];
      JoinSnoc(front, parts[|parts| - 1], '/');
      Join(front, '/')
  }

  /** The name is the text after the last `/` and the directory the text
      before it; a path without `/` is all name. */
  lemma SplitAtLastSlash(filePath: string)
    ensures var dir, name := Directory(filePath), FileName(filePath);
            && '/' !in name
            && ('/' in filePath ==> filePath == dir + "/" + name && |dir| + 1 + |name| == |filePath|
                                    && filePath[|dir|] == '/')
            && ('/' !in filePath ==> dir == "" && name == filePath)
  {
    var dir, name := Directory(filePath), FileName(filePath);
    if '/' in filePath {
      assert filePath == dir + "/" + name;
      assert filePath[|dir|] == (dir + "/" + name)[|dir|];
    }
  }

  // ---------------------------------------------------------------------------
  // Grouping by directory
  // ---------------------------------------------------------------------------

  function DirOf(d: DiffOutput): string {
    Directory(d.filePath)
  }

  function InDir(dir: string): DiffOutput -> bool {
    (d: DiffOutput) => DirOf(d) == dir
  }

  /** The `grouped` map after the loop, with its keys in insertion order (the
      order a JavaScript `Map` yields them). */
  datatype Grouping = Grouping(dirs: seq<string>, groups: map<string, seq<DiffOutput>>)

  /** One iteration of the grouping loop: the diff joins the list of its
      directory, which is created (and its key recorded) on first sight. */
  function AddDiff(g: Grouping, d: DiffOutput): Grouping {
    var dir := DirOf(d);
    if dir in g.groups then Grouping(g.dirs, g.groups[dir := g.groups[dir] + [d]])
    else Grouping(g.dirs + [dir], g.groups[dir := [d]])
  }

  /** The grouping loop over `diffs`, one diff at a time in input order.
      The directory list never repeats a directory, names exactly the keys
      of the group map, and is no longer than the input. */
  function Group(diffs: seq<DiffOutput>): (r: Grouping)
    ensures Distinct(r.dirs) && forall k :: k in r.groups <==> k in r.dirs
    ensures |r.dirs| <= |diffs|
    decreases |diffs|
  {
    if |diffs| == 0 then Grouping([], map[])
    else
      var g := Group(diffs[..|diffs| - 1]);
      AddDiffKeys(g, diffs[|diffs| - 1]);
      AddDiff(g, diffs[|diffs| - 1])
  }

  predicate Distinct(s: seq<string>) {
    forall i, j :: 0 <= i < j < |s| ==> s[i] != s[j]
  }

  /** Some diff of `diffs` lies in directory `k`. */
  ghost predicate Occurs(diffs: seq<DiffOutput>, k: string) {
    exists i :: 0 <= i < |diffs| && DirOf(diffs[i]) == k
  }

  /** What the loop builds: one key per directory that occurs, each listed
      once, and under each key exactly the diffs of that directory in input
      order. */
  ghost predicate GroupsDiffs(diffs: seq<DiffOutput>, g: Grouping) {
    && Distinct(g.dirs)
    && (forall k :: k in g.groups <==> k in g.dirs)
    && (forall k :: k in g.groups <==> Occurs(diffs, k))
    && (forall k :: k in g.groups ==> g.groups[k] == Seqs.Filter(diffs, InDir(k)))
  }

  lemma AddDiffKeys(g: Grouping, d: DiffOutput)
    requires Distinct(g.dirs) && forall k :: k in g.groups <==> k in g.dirs
    ensures var r := AddDiff(g, d);
            && Distinct(r.dirs) && (forall k :: k in r.groups <==> k in r.dirs)
            && forall k :: k in r.groups <==> k in g.groups || k == DirOf(d)
  {
  }

  lemma AddDiffOccurs(pre: seq<DiffOutput>, d: DiffOutput, k: string)
    ensures Occurs(pre + [d], k) <==> Occurs(pre, k) || DirOf(d) == k
  {
    var diffs := pre + [d];
    if Occurs(pre, k) {
      var i :| 0 <= i < |pre| && DirOf(pre[i]) == k;
      assert diffs[i] == pre[i];
    }
    if DirOf(d) == k {
      assert diffs[|pre|] == d;
    }
    if Occurs(diffs, k) {
      var i :| 0 <= i < |diffs| && DirOf(diffs[i]) == k;
      if i < |pre| {
        assert pre[i] == diffs[i];
      }
    }
  }

  lemma AddDiffFilter(pre: seq<DiffOutput>, g: Grouping, d: DiffOutput, k: string)
    requires forall k :: k in g.groups <==> Occurs(pre, k)
    requires forall k :: k in g.groups ==> g.groups[k] == Seqs.Filter(pre, InDir(k))
    requires k in AddDiff(g, d).groups
    ensures AddDiff(g, d).groups[k] == Seqs.Filter(pre + [d], InDir(k))
  {
    var p := InDir(k);
    Seqs.FilterAppend(pre, [d], p);
    assert Seqs.Filter([d], p) == if DirOf(d) == k then [d] else [];
    if k !in g.groups {
      assert !Occurs(pre, k);
      forall i | 0 <= i < |pre| ensures !p(pre[i]) {
        assert DirOf(pre[i]) != k;
      }
      Seqs.FilterNone(pre, p);
    }
  }

  lemma {:induction false} GroupIsFilter(diffs: seq<DiffOutput>)
    ensures GroupsDiffs(diffs, Group(diffs))
    decreases |diffs|
  {
    if |diffs| > 0 {
      var pre := diffs[..|diffs| - 1];
      var d := diffs[|diffs| - 1];
      GroupIsFilter(pre);
      var g := Group(pre);
      assert diffs == pre + [d];
      AddDiffKeys(g, d);
      forall k ensures k in AddDiff(g, d).groups <==> Occurs(diffs, k) {
        AddDiffOccurs(pre, d, k);
      }
      forall k | k in AddDiff(g, d).groups ensures AddDiff(g, d).groups[k] == Seqs.Filter(diffs, InDir(k)) {
        AddDiffFilter(pre, g, d, k);
      }
    }
  }

  /** Every diff lands in exactly one group, the one of its own directory. */
  lemma EachDiffInOneGroup(diffs: seq<DiffOutput>, i: nat, k: string)
    requires i < |diffs|
    ensures var g := Group(diffs);
            && DirOf(diffs[i]) in g.groups && diffs[i] in g.groups[DirOf(diffs[i])]
            && (k in g.groups && diffs[i] in g.groups[k] ==> k == DirOf(diffs[i]))
  {
    GroupIsFilter(diffs);
    var g := Group(diffs);
    var d := diffs[i];
    assert Occurs(diffs, DirOf(d));
    assert InDir(DirOf(d))(d);
    assert d in Seqs.Filter(diffs, InDir(DirOf(d)));
    if k in g.groups {
      InFilterPasses(diffs, InDir(k), d);
    }
  }

  lemma InFilterPasses(s: seq<DiffOutput>, p: DiffOutput -> bool, x: DiffOutput)
    ensures x in Seqs.Filter(s, p) ==> p(x)
  {
    var r := Seqs.Filter(s, p);
    if x in r {
      var j :| 0 <= j < |r| && r[j] == x;
    }
  }

  // ---------------------------------------------------------------------------
  // Sorted directories
  // ---------------------------------------------------------------------------

  lemma StringOrder()
    ensures Sorting.Total(Sorting.LexLe) && Sorting.Transitive(Sorting.LexLe)
  {
    forall a: string, b: string ensures Sorting.LexLe(a, b) || Sorting.LexLe(b, a) {
      Sorting.LexLeTotal(a, b);
    }
    forall a: string, b: string, c: string | Sorting.LexLe(a, b) && Sorting.LexLe(b, c)
      ensures Sorting.LexLe(a, c)
    {
      Sorting.LexLeTransitive(a, b, c);
    }
  }

  lemma {:induction false} DistinctCounts(s: seq<string>)
    requires Distinct(s)
    ensures forall x :: multiset(s)[x] <= 1
    decreases |s|
  {
    if |s| > 0 {
      assert s == [s[0]] + s[1..];
      assert Distinct(s[1..]) by {
        forall i, j | 0 <= i < j < |s[1..]| ensures s[1..][i] != s[1..][j] {
          assert s[1..][i] == s[i + 1] && s[1..][j] == s[j + 1];
        }
      }
      DistinctCounts(s[1..]);
      forall j | 0 <= j < |s[1..]| ensures s[1..][j] != s[0] {
        assert s[1..][j] == s[j + 1];
      }
      assert s[0] !in s[1..];
    }
  }

  lemma CountsDistinct(s: seq<string>)
    requires forall x :: multiset(s)[x] <= 1
    ensures Distinct(s)
  {
    forall i, j | 0 <= i < j < |s| ensures s[i] != s[j] {
      assert s == s[..j] + s[j..];
      assert s[i] in s[..j];
      assert s[j] == s[j..][0];
      assert multiset(s)[s[i]] == multiset(s[..j])[s[i]] + multiset(s[j..])[s[i]];
      assert multiset(s[j..])[s[j]] >= 1;
    }
  }

  /** Sorting a list free of repeats keeps it free of repeats, with the same
      elements. */
  lemma SortKeepsDistinct(dirs: seq<string>)
    requires Distinct(dirs)
    ensures Distinct(Sorting.Sort(dirs, Sorting.LexLe))
    ensures forall k :: k in Sorting.Sort(dirs, Sorting.LexLe) <==> k in dirs
  {
    var r := Sorting.Sort(dirs, Sorting.LexLe);
    DistinctCounts(dirs);
    CountsDistinct(r);
    assert forall k :: k in r <==> k in multiset(r);
    assert forall k :: k in dirs <==> k in multiset(dirs);
  }

  /** `sortedDirs`: the directories in ascending order, each once, and exactly
      the directories that occur among the diffs. */
  function SortedDirs(diffs: seq<DiffOutput>): (r: seq<string>)
    ensures Seqs.Pairwise(r, Sorting.LexLe)
    ensures Distinct(r)
    ensures forall k :: k in r <==> k in Group(diffs).groups
    ensures forall k :: k in r <==> exists i :: 0 <= i < |diffs| && DirOf(diffs[i]) == k
  {
    var dirs := Group(diffs).dirs;
    GroupIsFilter(diffs);
    StringOrder();
    Sorting.SortSorted(dirs, Sorting.LexLe);
    SortKeepsDistinct(dirs);
    Sorting.Sort(dirs, Sorting.LexLe)
  }

  /** Sorted and free of repeats, the list is strictly increasing. */
  lemma SortedDirsIncrease(diffs: seq<DiffOutput>, i: nat, j: nat)
    requires i < j < |SortedDirs(diffs)|
    ensures var r := SortedDirs(diffs);
            && Sorting.LexLe(r[i], r[j]) && !Sorting.LexLe(r[j], r[i])
  {
    var r := SortedDirs(diffs);
    if Sorting.LexLe(r[j], r[i]) {
      Sorting.LexLeAntisymmetric(r[i], r[j]);
    }
  }
}

=== FILE: file_types.dfy ===
/** The file kinds the file browser distinguishes (src-tauri/src/models/file.rs):
    an extension, compared without regard to case, picks one of six kinds,
    and anything else is `Unknown`. */
module FileTypes {

  import opened Strings

  datatype FileType = Code | Markdown | Image | Json | Config | Binary | Unknown

  predicate IsCodeExtension(e: string) {
    e in {
      "rs", "ts", "tsx", "js", "jsx", "py", "go", "java", "c", "cpp", "h",
      "cs", "rb", "php", "swift", "kt", "scala", "html", "css", "scss",
      "less", "vue", "svelte", "sh", "bash", "zsh", "fish", "ps1", "bat",
      "sql", "graphql", "proto", "lua", "r", "dart", "zig", "nim", "ex",
      "exs", "erl", "hs", "ml", "clj", "lisp", "el"
    }
  }

  predicate IsMarkdownExtension(e: string) {
    e in {"md", "mdx", "rst", "txt", "adoc"}
  }

  predicate IsImageExtension(e: string) {
    e in {"png", "jpg", "jpeg", "gif", "svg", "webp", "ico", "bmp"}
  }

  predicate IsJsonExtension(e: string) {
    e in {"json", "jsonc", "json5"}
  }

  predicate IsConfigExtension(e: string) {
    e in {
      "toml", "yaml", "yml", "ini", "cfg", "conf", "env", "editorconfig",
      "gitignore", "dockerignore", "prettierrc", "eslintrc"
    }
  }

  predicate IsBinaryExtension(e: string) {
    e in {
      "exe", "dll", "so", "dylib", "wasm", "o", "a", "lib", "bin", "zip",
      "tar", "gz", "7z", "rar"
    }
  }

  /** Some kind claims the (lower-case) extension. */
  predicate IsKnownExtension(e: string) {
    IsCodeExtension(e) || IsMarkdownExtension(e) || IsImageExtension(e)
    || IsJsonExtension(e) || IsConfigExtension(e) || IsBinaryExtension(e)
  }

  /** `FileType::from_extension`: the kind whose list holds the lower-cased
      extension. The lists do not overlap, so each kind is chosen exactly
      when its own list holds the extension, whatever the order of the arms. */
  function FromExtension(ext: string): (t: FileType)
    ensures t == Code <==> IsCodeExtension(Lower(ext))
    ensures t == Markdown <==> IsMarkdownExtension(Lower(ext))
    ensures t == Image <==> IsImageExtension(Lower(ext))
    ensures t == Json <==> IsJsonExtension(Lower(ext))
    ensures t == Config <==> IsConfigExtension(Lower(ext))
    ensures t == Binary <==> IsBinaryExtension(Lower(ext))
    ensures t == Unknown <==> !IsKnownExtension(Lower(ext))
  {
    var e := Lower(ext);
    ListsDisjoint(e);
    if IsCodeExtension(e) then Code
    else if IsMarkdownExtension(e) then Markdown
    else if IsImageExtension(e) then Image
    else if IsJsonExtension(e) then Json
    else if IsConfigExtension(e) then Config
    else if IsBinaryExtension(e) then Binary
    else Unknown
  }

  /** No extension belongs to two kinds. */
  lemma ListsDisjoint(e: string)
    ensures IsCodeExtension(e) ==> !IsMarkdownExtension(e) && !IsImageExtension(e) && !IsJsonExtension(e)
                                   && !IsConfigExtension(e) && !IsBinaryExtension(e)
    ensures IsMarkdownExtension(e) ==> !IsImageExtension(e) && !IsJsonExtension(e)
                                       && !IsConfigExtension(e) && !IsBinaryExtension(e)
    ensures IsImageExtension(e) ==> !IsJsonExtension(e) && !IsConfigExtension(e) && !IsBinaryExtension(e)
    ensures IsJsonExtension(e) ==> !IsConfigExtension(e) && !IsBinaryExtension(e)
    ensures IsConfigExtension(e) ==> !IsBinaryExtension(e)
  {
  }

  /** Case does not matter: an extension and its lowercase get the same kind. */
  lemma CaseInsensitive(ext: string)
    ensures FromExtension(ext) == FromExtension(Lower(ext))
  {
    LowerIdempotent(ext);
  }

  /** The empty extension (a name without one) is `Unknown`. */
  lemma NoExtensionUnknown()
    ensures FromExtension("") == Unknown
  {
    assert Lower("") == "";
  }

  /** A few mappings the browser depends on, upper case included. */
  lemma KnownKinds()
    ensures FromExtension("TSX") == Code && FromExtension("Rs") == Code
    ensures FromExtension("txt") == Markdown && FromExtension("svg") == Image
    ensures FromExtension("json5") == Json && FromExtension("yml") == Config
    ensures FromExtension("wasm") == Binary
  {
    assert Lower("TSX") == "tsx" && IsCodeExtension("tsx");
    assert Lower("Rs") == "rs" && IsCodeExtension("rs");
    assert Lower("txt") == "txt" && IsMarkdownExtension("txt");
    assert Lower("svg") == "svg" && IsImageExtension("svg");
    assert Lower("json5") == "json5" && IsJsonExtension("json5");
    assert Lower("yml") == "yml" && IsConfigExtension("yml");
    assert Lower("wasm") == "wasm" && IsBinaryExtension("wasm");
  }

  /** A lock file's extension is on no list. */
  lemma LockUnknown()
    ensures FromExtension("lock") == Unknown
  {
    assert Lower("lock") == "lock";
  }

  /** The kinds whose contents the preview never reads. */
  predicate NotPreviewed(t: FileType) {
    t == Binary || t == Image
  }
}

=== FILE: files.dfy ===
/** The file browser's two backend commands (src-tauri/src/commands/files.rs):
    listing a directory, sorted with directories first and then by name
    without regard to case, and reading a file for preview. The file system
    is a parameter: the directory's raw entries and the metadata and
    contents a read would return. */
module Files {

  import opened Wrappers
  import opened Strings
  import opened Models
  import opened FileTypes
  import Paths
  import Seqs
  import Sorting

  datatype DirEntry = DirEntry(name: string, path: string, isDir: bool, size: U64, fileType: FileType)

  datatype FileContent = FileContent(path: string, content: string, fileType: FileType, size: U64)

  /** What the metadata of an entry says. */
  datatype Metadata = Metadata(isDir: bool, len: U64)

  /** One item of `read_dir`: its name and path, and what asking for its
      metadata returns. */
  datatype RawEntry = RawEntry(name: string, path: string, metadata: Result<Metadata>)

  /** Hidden names and the usual build and dependency directories. */
  predicate IsSkipped(name: string) {
    StartsWith(name, ".") || name == "node_modules" || name == "target" || name == "__pycache__"
  }

  /** The error an item stops the listing with, if any. A skipped entry's
      metadata is never asked for, so it cannot fail. */
  function ItemError(item: Result<RawEntry>): (r: Option<string>)
    ensures item.Err? ==> r == Some("Failed to read entry: " + item.error)
    ensures item.Ok? && IsSkipped(item.value.name) ==> r.None?
    ensures item.Ok? && !IsSkipped(item.value.name) ==>
              r == if item.value.metadata.Err? then Some("Failed to read metadata: " + item.value.metadata.error) else None
  {
    match item
    case Err(e) => Some("Failed to read entry: " + e)
    case Ok(raw) =>
      if IsSkipped(raw.name) then None
      else match raw.metadata
        case Err(e) => Some("Failed to read metadata: " + e)
        case Ok(_) => None
  }

  function HasError(item: Result<RawEntry>): bool {
    ItemError(item).Some?
  }

  /** An item that ends up in the listing. */
  function IsListed(item: Result<RawEntry>): bool {
    item.Ok? && !IsSkipped(item.value.name)
  }

  /** The entry the listing shows for a raw entry: directories have size 0
      and no kind; files have their length and the kind of their extension. */
  function ToEntry(raw: RawEntry, m: Metadata): (e: DirEntry)
    ensures e.name == raw.name && e.path == raw.path && e.isDir == m.isDir
    ensures e.size == if m.isDir then 0 else m.len
    ensures e.fileType == if m.isDir then Unknown else FromExtension(Paths.ExtensionOrEmpty(raw.name))
  {
    if m.isDir then DirEntry(raw.name, raw.path, true, 0, Unknown)
    else DirEntry(raw.name, raw.path, false, m.len, FromExtension(Paths.ExtensionOrEmpty(raw.name)))
  }

  /** Item `k` is the first one that fails. */
  predicate FirstErrorAt(items: seq<Result<RawEntry>>, k: nat) {
    k < |items| && HasError(items[k]) && forall j :: 0 <= j < k ==> !HasError(items[j])
  }

  /** The entry of an item whose metadata was read. */
  function EntryOf(item: Result<RawEntry>): DirEntry
    requires item.Ok? && item.value.metadata.Ok?
  {
    ToEntry(item.value, item.value.metadata.value)
  }

  /** `entries` are the items that are not skipped, converted, in order. */
  predicate ListedAs(items: seq<Result<RawEntry>>, entries: seq<DirEntry>) {
    var listed := Seqs.Filter(items, IsListed);
    && |entries| == |listed|
    && forall k :: 0 <= k < |listed| ==>
         listed[k].Ok? && listed[k].value.metadata.Ok? && entries[k] == EntryOf(listed[k])
  }

  /** A first failure among the later items is the first failure overall
      when the head item does not fail. */
  lemma FirstErrorShift(items: seq<Result<RawEntry>>, k: nat)
    requires |items| > 0 && !HasError(items[0]) && FirstErrorAt(items[1..], k)
    ensures FirstErrorAt(items, k + 1) && items[k + 1] == items[1..][k]
  {
    forall j | 0 <= j < k + 1 ensures !HasError(items[j]) {
      if j > 0 { assert items[j] == items[1..][j - 1]; }
    }
  }

  /** Putting an item that does not fail in front of the later items adds
      its entry in front when it is listed, and nothing otherwise. */
  lemma ListedCons(items: seq<Result<RawEntry>>, entries: seq<DirEntry>)
    requires |items| > 0 && !HasError(items[0]) && ListedAs(items[1..], entries)
    ensures IsListed(items[0]) ==> ListedAs(items, [EntryOf(items[0])] + entries)
    ensures !IsListed(items[0]) ==> ListedAs(items, entries)
  {
    var later := Seqs.Filter(items[1..], IsListed);
    if IsListed(items[0]) {
      var listed, added := Seqs.Filter(items, IsListed), [EntryOf(items[0])] + entries;
      assert listed == [items[0]] + later;
      forall k | 0 < k < |listed| ensures listed[k] == later[k - 1] && added[k] == entries[k - 1] { }
    } else {
      assert Seqs.Filter(items, IsListed) == later;
    }
  }

  /** The loop of `list_directory`: stop at the first item that fails,
      otherwise convert the items that are not skipped, in order. */
  function Collect(items: seq<Result<RawEntry>>): (r: Result<seq<DirEntry>>)
    ensures r.Err? <==> exists k :: 0 <= k < |items| && HasError(items[k])
    ensures r.Err? ==> exists k: nat :: FirstErrorAt(items, k) && r.error == ItemError(items[k]).value
    ensures r.Ok? ==> ListedAs(items, r.value)
    decreases |items|
  {
    if |items| == 0 then Ok([])
    else
      var item := items[0];
      if HasError(item) then
        assert FirstErrorAt(items, 0);
        Err(ItemError(item).value)
      else
        var rest := Collect(items[1..]);
        if rest.Err? then
          var k: nat :| FirstErrorAt(items[1..], k) && rest.error == ItemError(items[1..][k]).value;
          FirstErrorShift(items, k);
          Err(rest.error)
        else
          ListedCons(items, rest.value);
          assert forall k :: 1 <= k < |items| ==> items[k] == items[1..][k - 1];
          if !IsListed(item) then rest
          else Ok([EntryOf(item)] + rest.value)
  }

  /** The listing order, `b.is_dir.cmp(&a.is_dir)` then the lower-cased
      names: `a` may come before `b`. */
  function EntryLe(a: DirEntry, b: DirEntry): (r: bool)
    ensures a.isDir != b.isDir ==> (r <==> a.isDir)
    ensures a.isDir == b.isDir && Lower(a.name) == Lower(b.name) ==> r
  {
    Sorting.LexLeTotal(Lower(a.name), Lower(a.name));
    (a.isDir && !b.isDir) || (a.isDir == b.isDir && Sorting.LexLe(Lower(a.name), Lower(b.name)))
  }

  /** Two entries tie under the listing order exactly when they are of the
      same kind and their names agree once lower-cased. */
  lemma EntryTie(a: DirEntry, b: DirEntry)
    ensures EntryLe(a, b) && EntryLe(b, a) <==> a.isDir == b.isDir && Lower(a.name) == Lower(b.name)
  {
    if EntryLe(a, b) && EntryLe(b, a) {
      Sorting.LexLeAntisymmetric(Lower(a.name), Lower(b.name));
    }
  }

  /** The listing order is a total preorder, so sorting by it is sound. */
  lemma EntryLeTotalPreorder()
    ensures Sorting.Total(EntryLe) && Sorting.Transitive(EntryLe)
  {
    forall a: DirEntry, b: DirEntry ensures EntryLe(a, b) || EntryLe(b, a) {
      Sorting.LexLeTotal(Lower(a.name), Lower(b.name));
    }
    forall a: DirEntry, b: DirEntry, c: DirEntry | EntryLe(a, b) && EntryLe(b, c) ensures EntryLe(a, c) {
      if a.isDir == b.isDir && b.isDir == c.isDir {
        Sorting.LexLeTransitive(Lower(a.name), Lower(b.name), Lower(c.name));
      }
    }
  }

  /** `list_directory`. `isDir` is what the path is; `listing` is the result
      of opening the directory. The entries come out sorted by `EntryLe` and
      are exactly the collected ones. */
  function ListDirectory(dirPath: string, isDir: bool, listing: Result<seq<Result<RawEntry>>>): (r: Result<seq<DirEntry>>)
    ensures !isDir ==> r == Err("Not a directory: " + dirPath)
    ensures isDir && listing.Err? ==> r == Err("Failed to read directory: " + listing.error)
    ensures isDir && listing.Ok? && Collect(listing.value).Err? ==> r == Collect(listing.value)
    ensures r.Ok? <==> isDir && listing.Ok? && Collect(listing.value).Ok?
    ensures r.Ok? ==> multiset(r.value) == multiset(Collect(listing.value).value)
    ensures r.Ok? ==> Seqs.Pairwise(r.value, EntryLe)
  {
    if !isDir then Err("Not a directory: " + dirPath)
    else match listing
      case Err(e) => Err("Failed to read directory: " + e)
      case Ok(items) =>
        match Collect(items)
        case Err(e) => Err(e)
        case Ok(entries) =>
          EntryLeTotalPreorder();
          Sorting.SortSorted(entries, EntryLe);
          Ok(Sorting.Sort(entries, EntryLe))
  }

  /** In a sorted listing every directory comes before every file, and
      entries of the same sort are in order of their lower-cased names. */
  lemma DirectoriesFirst(dirPath: string, listing: Result<seq<Result<RawEntry>>>, i: nat, j: nat)
    requires ListDirectory(dirPath, true, listing).Ok?
    requires i < j < |ListDirectory(dirPath, true, listing).value|
    ensures var es := ListDirectory(dirPath, true, listing).value;
            && (es[j].isDir ==> es[i].isDir)
            && (es[i].isDir == es[j].isDir ==> Sorting.LexLe(Lower(es[i].name), Lower(es[j].name)))
  {
    var es := ListDirectory(dirPath, true, listing).value;
    assert EntryLe(es[i], es[j]);
  }

  /** Entries that tie in the listing order (both directories or both files,
      with names equal once lower-cased) keep the order `read_dir` gave them,
      as Rust's stable `sort_by` does. */
  lemma ListingKeepsTiesInReadOrder(dirPath: string, listing: Result<seq<Result<RawEntry>>>, z: DirEntry)
    requires ListDirectory(dirPath, true, listing).Ok?
    ensures Seqs.Filter(ListDirectory(dirPath, true, listing).value, Sorting.TiesWith(z, EntryLe))
            == Seqs.Filter(Collect(listing.value).value, Sorting.TiesWith(z, EntryLe))
  {
    EntryLeTotalPreorder();
    Sorting.SortStable(Collect(listing.value).value, EntryLe, z);
  }

  /** The collected entries are exactly the converted items that are not
      skipped. */
  lemma CollectIsUnskipped(items: seq<Result<RawEntry>>)
    requires Collect(items).Ok?
    ensures var collected := Collect(items).value;
            && (forall e :: e in collected ==> !IsSkipped(e.name))
            && (forall k :: 0 <= k < |items| && IsListed(items[k]) ==>
                  items[k].value.metadata.Ok? && EntryOf(items[k]) in collected)
  {
    var collected := Collect(items).value;
    var listed := Seqs.Filter(items, IsListed);
    forall e | e in collected ensures !IsSkipped(e.name) {
      var k :| 0 <= k < |collected| && collected[k] == e;
      assert IsListed(listed[k]);
    }
    forall k | 0 <= k < |items| && IsListed(items[k])
      ensures items[k].value.metadata.Ok? && EntryOf(items[k]) in collected
    {
      assert items[k] in listed;
      var m :| 0 <= m < |listed| && listed[m] == items[k];
      assert collected[m] == EntryOf(items[k]);
    }
  }

  /** The listing holds exactly the entries that are not skipped: every
      shown entry comes from an item with its name, and every item that is
      not skipped is shown. */
  lemma ListingIsUnskipped(dirPath: string, items: seq<Result<RawEntry>>)
    requires ListDirectory(dirPath, true, Ok(items)).Ok?
    ensures var es := ListDirectory(dirPath, true, Ok(items)).value;
            && (forall e :: e in es ==> !IsSkipped(e.name))
            && (forall k :: 0 <= k < |items| && IsListed(items[k]) ==>
                  items[k].value.metadata.Ok? && EntryOf(items[k]) in es)
  {
    var es := ListDirectory(dirPath, true, Ok(items)).value;
    var collected := Collect(items).value;
    CollectIsUnskipped(items);
    assert multiset(es) == multiset(collected);
    forall e | e in es ensures e in collected {
      assert e in multiset(collected);
    }
    forall e | e in collected ensures e in es {
      assert e in multiset(es);
    }
  }

  /** Files larger than this are not read for preview. */
  const PreviewLimit: nat := 1_048_576

  /** Whether `read_file` reads the contents: a kind it can show and a size
      within the limit. */
  predicate ReadsContents(fileType: FileType, size: U64) {
    !NotPreviewed(fileType) && size <= PreviewLimit
  }

  /** `read_file`. `isFile` is what the path is, `metadata` the file's length
      or the error getting it, `read` the contents or the error reading
      them. */
  function ReadFile(filePath: string, isFile: bool, metadata: Result<U64>, read: Result<string>): (r: Result<FileContent>)
    ensures !isFile ==> r == Err("Not a file: " + filePath)
    ensures isFile && metadata.Err? ==> r == Err("Failed to read metadata: " + metadata.error)
    ensures r.Err? <==> !isFile || metadata.Err?
                        || (ReadsContents(FromExtension(Paths.ExtensionOrEmpty(filePath)), metadata.value) && read.Err?)
    ensures isFile && metadata.Ok? && r.Err? && read.Err? ==> r.error == "Failed to read file: " + read.error
    ensures r.Ok? ==> r.value.path == filePath && r.value.size == metadata.value
                      && r.value.fileType == FromExtension(Paths.ExtensionOrEmpty(filePath))
    ensures r.Ok? && NotPreviewed(r.value.fileType) ==> r.value.content == ""
    ensures r.Ok? && !NotPreviewed(r.value.fileType) && r.value.size > PreviewLimit ==>
              r.value.content == "File too large to preview (" + NatToString(r.value.size) + " bytes)"
    ensures r.Ok? && ReadsContents(r.value.fileType, r.value.size) ==> r.value.content == read.value
  {
    if !isFile then Err("Not a file: " + filePath)
    else match metadata
      case Err(e) => Err("Failed to read metadata: " + e)
      case Ok(size) =>
        var fileType := FromExtension(Paths.ExtensionOrEmpty(filePath));
        if NotPreviewed(fileType) then Ok(FileContent(filePath, "", fileType, size))
        else if size > PreviewLimit then
          Ok(FileContent(filePath, "File too large to preview (" + NatToString(size) + " bytes)", fileType, size))
        else match read
          case Err(e) => Err("Failed to read file: " + e)
          case Ok(content) => Ok(FileContent(filePath, content, fileType, size))
  }

  /** A file whose kind is not shown or that is too large is never read: the
      answer does not depend on what reading it would return. */
  lemma UnreadFilesIgnoreContents(filePath: string, size: U64, read1: Result<string>, read2: Result<string>)
    requires !ReadsContents(FromExtension(Paths.ExtensionOrEmpty(filePath)), size)
    ensures ReadFile(filePath, true, Ok(size), read1) == ReadFile(filePath, true, Ok(size), read2)
    ensures ReadFile(filePath, true, Ok(size), read1).Ok?
  {
  }
}

=== FILE: git_status.dfy ===
/** The git commands that read the working tree (src-tauri/src/commands/git.rs):
    the status of each changed file, split into its index (staged) and
    working-tree (unstaged) state, and the patch text of the changes. What
    libgit2 reports is a parameter. */
module GitStatus {

  import opened Wrappers
  import opened Strings
  import opened Models
  import Seqs
  import UnifiedDiff

  /** The status bits libgit2 sets for one path. */
  datatype StatusFlags = StatusFlags(
    indexNew: bool, indexModified: bool, indexDeleted: bool, indexRenamed: bool, indexTypechange: bool,
    wtNew: bool, wtModified: bool, wtDeleted: bool, wtRenamed: bool, wtTypechange: bool,
    conflicted: bool
  )

  /** One status entry: its path (None when it is not valid UTF-8) and bits. */
  datatype StatusEntry = StatusEntry(path: Option<string>, flags: StatusFlags)

  /** The state of the first candidate whose flag is set, or `Unmodified`. */
  function FirstSet(candidates: seq<(bool, FileState)>): (r: FileState)
    ensures (forall k :: 0 <= k < |candidates| ==> !candidates[k].0) ==> r == Unmodified
    ensures (exists k :: 0 <= k < |candidates| && candidates[k].0) ==>
              exists k :: 0 <= k < |candidates| && candidates[k].0 && r == candidates[k].1
                          && forall j :: 0 <= j < k ==> !candidates[j].0
    decreases |candidates|
  {
    if |candidates| == 0 then Unmodified
    else if candidates[0].0 then candidates[0].1
    else
      var r := FirstSet(candidates[1..]);
      assert forall j :: 1 <= j < |candidates| ==> candidates[j] == candidates[1..][j - 1];
      r
  }

  /** The index side, new before modified before deleted before renamed
      before type change. */
  function StagedCandidates(f: StatusFlags): seq<(bool, FileState)> {
    [(f.indexNew, Added), (f.indexModified, Modified), (f.indexDeleted, Deleted),
     (f.indexRenamed, Renamed), (f.indexTypechange, Typechange)]
  }

  /** The working-tree side, with conflicts last. */
  function UnstagedCandidates(f: StatusFlags): seq<(bool, FileState)> {
    [(f.wtNew, Untracked), (f.wtModified, Modified), (f.wtDeleted, Deleted),
     (f.wtRenamed, Renamed), (f.wtTypechange, Typechange), (f.conflicted, Conflicted)]
  }

  /** The `staged` chain of `git_status`. */
  function StagedState(f: StatusFlags): (r: FileState)
    ensures r != Untracked && r != Conflicted
    ensures r == Unmodified <==> !(f.indexNew || f.indexModified || f.indexDeleted || f.indexRenamed || f.indexTypechange)
  {
    if f.indexNew then Added
    else if f.indexModified then Modified
    else if f.indexDeleted then Deleted
    else if f.indexRenamed then Renamed
    else if f.indexTypechange then Typechange
    else Unmodified
  }

  /** The `unstaged` chain of `git_status`. */
  function UnstagedState(f: StatusFlags): (r: FileState)
    ensures r != Added
    ensures r == Unmodified <==> !(f.wtNew || f.wtModified || f.wtDeleted || f.wtRenamed || f.wtTypechange || f.conflicted)
  {
    if f.wtNew then Untracked
    else if f.wtModified then Modified
    else if f.wtDeleted then Deleted
    else if f.wtRenamed then Renamed
    else if f.wtTypechange then Typechange
    else if f.conflicted then Conflicted
    else Unmodified
  }

  lemma FirstSetCons(c: (bool, FileState), rest: seq<(bool, FileState)>)
    ensures FirstSet([c] + rest) == if c.0 then c.1 else FirstSet(rest)
  {
    assert ([c] + rest)[1..] == rest;
  }

  /** Each chain picks the state of the first set flag in its priority
      order. */
  lemma ChainsPickFirstSet(f: StatusFlags)
    ensures StagedState(f) == FirstSet(StagedCandidates(f))
    ensures UnstagedState(f) == FirstSet(UnstagedCandidates(f))
  {
    FirstSetCons((f.indexTypechange, Typechange), []);
    FirstSetCons((f.indexRenamed, Renamed), [(f.indexTypechange, Typechange)]);
    FirstSetCons((f.indexDeleted, Deleted), [(f.indexRenamed, Renamed), (f.indexTypechange, Typechange)]);
    FirstSetCons((f.indexModified, Modified),
                 [(f.indexDeleted, Deleted), (f.indexRenamed, Renamed), (f.indexTypechange, Typechange)]);
    FirstSetCons((f.indexNew, Added),
                 [(f.indexModified, Modified), (f.indexDeleted, Deleted), (f.indexRenamed, Renamed),
                  (f.indexTypechange, Typechange)]);
    FirstSetCons((f.conflicted, Conflicted), []);
    FirstSetCons((f.wtTypechange, Typechange), [(f.conflicted, Conflicted)]);
    FirstSetCons((f.wtRenamed, Renamed), [(f.wtTypechange, Typechange), (f.conflicted, Conflicted)]);
    FirstSetCons((f.wtDeleted, Deleted),
                 [(f.wtRenamed, Renamed), (f.wtTypechange, Typechange), (f.conflicted, Conflicted)]);
    FirstSetCons((f.wtModified, Modified),
                 [(f.wtDeleted, Deleted), (f.wtRenamed, Renamed), (f.wtTypechange, Typechange), (f.conflicted, Conflicted)]);
    FirstSetCons((f.wtNew, Untracked),
                 [(f.wtModified, Modified), (f.wtDeleted, Deleted), (f.wtRenamed, Renamed),
                  (f.wtTypechange, Typechange), (f.conflicted, Conflicted)]);
  }

  function ToStatus(e: StatusEntry): GitFileStatus {
    GitFileStatus(e.path.GetOr(""), StagedState(e.flags), UnstagedState(e.flags))
  }

  /** Whether `git_status` reports the entry. */
  function IsChanged(e: StatusEntry): bool {
    StagedState(e.flags) != Unmodified || UnstagedState(e.flags) != Unmodified
  }

  /** The loop of `git_status`: the changed entries, in the order libgit2
      lists them. */
  function Collect(entries: seq<StatusEntry>): (r: seq<GitFileStatus>)
    ensures |r| == |Seqs.Filter(entries, IsChanged)|
    ensures forall k :: 0 <= k < |r| ==> r[k] == ToStatus(Seqs.Filter(entries, IsChanged)[k])
    ensures forall k :: 0 <= k < |r| ==> r[k].staged != Unmodified || r[k].unstaged != Unmodified
    decreases |entries|
  {
    if |entries| == 0 then []
    else if IsChanged(entries[0]) then [ToStatus(entries[0])] + Collect(entries[1..])
    else Collect(entries[1..])
  }

  /** `git_status`: `openError` is the failure to open the repository,
      `statuses` the status listing or its failure. */
  function GitStatusCmd(openError: Option<string>, statuses: Result<seq<StatusEntry>>): (r: Result<seq<GitFileStatus>>)
    ensures openError.Some? ==> r == Err("Failed to open repo: " + openError.value)
    ensures openError.None? && statuses.Err? ==> r == Err("Failed to get status: " + statuses.error)
    ensures openError.None? && statuses.Ok? ==> r == Ok(Collect(statuses.value))
  {
    if openError.Some? then Err("Failed to open repo: " + openError.value)
    else match statuses
      case Err(e) => Err("Failed to get status: " + e)
      case Ok(entries) => Ok(Collect(entries))
  }

  /** An entry with no bit set is left out, and one with any bit set is
      reported. */
  lemma ReportedIffSomeBit(e: StatusEntry)
    ensures IsChanged(e) <==> var f := e.flags;
              f.indexNew || f.indexModified || f.indexDeleted || f.indexRenamed || f.indexTypechange
              || f.wtNew || f.wtModified || f.wtDeleted || f.wtRenamed || f.wtTypechange || f.conflicted
  {
  }

  // ---------------------------------------------------------------------------
  // Patch text
  // ---------------------------------------------------------------------------

  /** One line the patch printer hands to the callback: its origin character
      and its content (with its line break). */
  datatype PrintedLine = PrintedLine(origin: char, content: string)

  predicate IsBodyOrigin(c: char) {
    c == '+' || c == '-' || c == ' '
  }

  /** What the callback appends for one line: the origin for added, removed
      and context lines, then the content. */
  function LineText(l: PrintedLine): (r: string)
    ensures IsBodyOrigin(l.origin) ==> |r| == |l.content| + 1 && r[0] == l.origin && r[1..] == l.content
    ensures !IsBodyOrigin(l.origin) ==> r == l.content
  {
    if IsBodyOrigin(l.origin) then [l.origin] + l.content else l.content
  }

  /** The text `git_diff` builds from the printed lines. */
  function PatchText(lines: seq<PrintedLine>): string
    decreases |lines|
  {
    if |lines| == 0 then "" else LineText(lines[0]) + PatchText(lines[1..])
  }

  /** `git_diff`: the errors opening the repository and computing or printing
      the diff, in that order; otherwise the patch text. */
  function GitDiff(openError: Option<string>, diff: Result<seq<PrintedLine>>, printError: Option<string>): (r: Result<string>)
    ensures openError.Some? ==> r == Err("Failed to open repo: " + openError.value)
    ensures openError.None? && diff.Err? ==> r == Err("Failed to get diff: " + diff.error)
    ensures openError.None? && diff.Ok? && printError.Some? ==> r == Err("Failed to print diff: " + printError.value)
    ensures r.Ok? ==> r.value == PatchText(diff.value)
  {
    if openError.Some? then Err("Failed to open repo: " + openError.value)
    else match diff
      case Err(e) => Err("Failed to get diff: " + e)
      case Ok(lines) => if printError.Some? then Err("Failed to print diff: " + printError.value) else Ok(PatchText(lines))
  }

  /** A hunk body line: a body origin and one line of content ending in its
      line break. */
  predicate IsBodyLine(l: PrintedLine) {
    IsBodyOrigin(l.origin) && |l.content| >= 1 && l.content[|l.content| - 1] == '\n'
    && '\n' !in l.content[..|l.content| - 1]
  }

  /** The marked line as it appears in the text, without its line break. */
  function MarkedLine(l: PrintedLine): string
    requires IsBodyLine(l)
  {
    [l.origin] + l.content[..|l.content| - 1]
  }

  function MarkedLines(lines: seq<PrintedLine>): (r: seq<string>)
    requires forall k :: 0 <= k < |lines| ==> IsBodyLine(lines[k])
    ensures |r| == |lines|
    ensures forall k :: 0 <= k < |r| ==> r[k] == MarkedLine(lines[k])
  {
    seq(|lines|, k requires 0 <= k < |lines| => MarkedLine(lines[k]))
  }

  /** The text of body lines is their marked lines, one per line break. */
  lemma {:induction false} PatchTextIsJoin(lines: seq<PrintedLine>)
    requires forall k :: 0 <= k < |lines| ==> IsBodyLine(lines[k])
    ensures PatchText(lines) == Join(MarkedLines(lines) + [""], '\n')
    decreases |lines|
  {
    if |lines| > 0 {
      PatchTextIsJoin(lines[1..]);
      var m, rest := MarkedLine(lines[0]), MarkedLines(lines[1..]) + [""];
      LineTextIsMarked(lines[0]);
      MarkedLinesCons(lines);
      assert MarkedLines(lines) + [""] == [m] + rest;
      JoinCons(m, rest, '\n');
    }
  }

  lemma MarkedLinesCons(lines: seq<PrintedLine>)
    requires |lines| > 0 && forall k :: 0 <= k < |lines| ==> IsBodyLine(lines[k])
    ensures MarkedLines(lines) == [MarkedLine(lines[0])] + MarkedLines(lines[1..])
  {
    var r, t := MarkedLines(lines), MarkedLines(lines[1..]);
    forall k | 1 <= k < |lines| ensures r[k] == t[k - 1] {
      assert lines[1..][k - 1] == lines[k];
    }
  }

  /** A body line's text is its marked line and a line break. */
  lemma LineTextIsMarked(l: PrintedLine)
    requires IsBodyLine(l)
    ensures LineText(l) == MarkedLine(l) + "\n"
  {
    var c := l.content;
    assert c == c[..|c| - 1] + "\n";
  }

  /** A marked line holds no line break. */
  lemma MarkedLineNoBreak(l: PrintedLine)
    requires IsBodyLine(l)
    ensures '\n' !in MarkedLine(l)
  {
    var c := l.content[..|l.content| - 1];
    assert MarkedLine(l) == [l.origin] + c;
  }

  /** The text of body lines splits into their marked lines and a final
      empty line. */
  lemma SplitPatchText(lines: seq<PrintedLine>)
    requires forall k :: 0 <= k < |lines| ==> IsBodyLine(lines[k])
    ensures Split(PatchText(lines), '\n') == MarkedLines(lines) + [""]
  {
    var marked := MarkedLines(lines);
    var parts := marked + [""];
    PatchTextIsJoin(lines);
    forall k | 0 <= k < |parts| ensures '\n' !in parts[k] {
      if k < |marked| {
        MarkedLineNoBreak(lines[k]);
      }
    }
    SplitJoin(parts, '\n');
  }

  /** The diff view keeps every marked line and drops the final empty one. */
  lemma MarkedLinesKept(lines: seq<PrintedLine>)
    requires forall k :: 0 <= k < |lines| ==> IsBodyLine(lines[k])
    ensures Seqs.Filter(MarkedLines(lines) + [""], UnifiedDiff.IsKept) == MarkedLines(lines)
  {
    var marked := MarkedLines(lines);
    forall k | 0 <= k < |marked| ensures UnifiedDiff.IsKept(marked[k]) {
      assert marked[k][..1] == [lines[k].origin];
    }
    Seqs.FilterAppend(marked, [""], UnifiedDiff.IsKept);
    Seqs.FilterAll(marked, UnifiedDiff.IsKept);
    assert Seqs.Filter([""], UnifiedDiff.IsKept) == [];
  }

  /** Printing body lines and parsing the text with the diff view's parser
      gives back every line, marker and content, in order. */
  lemma BodyLinesParseBack(lines: seq<PrintedLine>)
    requires forall k :: 0 <= k < |lines| ==> IsBodyLine(lines[k])
    ensures UnifiedDiff.RenderAll(UnifiedDiff.ParseDiffLines(PatchText(lines))) == MarkedLines(lines)
  {
    SplitPatchText(lines);
    UnifiedDiff.ParseRenders(UnifiedDiff.Counters(0, 0), MarkedLines(lines) + [""]);
    MarkedLinesKept(lines);
  }
}

=== FILE: git_view.dfy ===
/** The git panel's file list (src/components/git/GitFileItem.tsx and
    src/components/git/GitStatusList.tsx): the letter and colour shown for a
    file's state, which of its two states is shown, which buttons it offers,
    and the split of the status list into a staged and a changes section. */
module GitView {

  import opened Models
  import Seqs
  import GitStatus

  // ---------------------------------------------------------------------------
  // One file
  // ---------------------------------------------------------------------------

  const DefaultColor := "text-zinc-400"

  /** `stateColor`: the text colour class for a state; the states without an
      arm share the default. */
  function StateColor(state: FileState): (r: string)
    ensures state == Unmodified || state == Typechange <==> r == DefaultColor
  {
    match state
    case Added => "text-green-400"
    case Untracked => "text-green-400"
    case Modified => "text-yellow-400"
    case Deleted => "text-red-400"
    case Renamed => "text-blue-400"
    case Conflicted => "text-orange-400"
    case _ => DefaultColor
  }

  /** Two states look alike exactly when both are new files (added or
      untracked) or both have no colour of their own (unmodified or type
      change). */
  lemma SameColorIff(a: FileState, b: FileState)
    ensures StateColor(a) == StateColor(b) <==>
              a == b || ({a, b} <= {Added, Untracked}) || ({a, b} <= {Unmodified, Typechange})
  {
  }

  /** `stateLabel`: the one-letter badge of a state. */
  function StateLabel(state: FileState): (r: string)
    ensures state == Unmodified <==> r == ""
    ensures state != Unmodified ==> |r| == 1
  {
    match state
    case Added => "A"
    case Modified => "M"
    case Deleted => "D"
    case Renamed => "R"
    case Untracked => "?"
    case Conflicted => "!"
    case Typechange => "T"
    case Unmodified => ""
  }

  /** No two states share a badge, so the badge tells the state. */
  lemma LabelsDistinct(a: FileState, b: FileState)
    ensures StateLabel(a) == StateLabel(b) ==> a == b
  {
  }

  predicate HasStaged(f: GitFileStatus) {
    f.staged != Unmodified
  }

  predicate HasUnstaged(f: GitFileStatus) {
    f.unstaged != Unmodified
  }

  /** What a file row shows: the state it displays, that state's badge and
      colour, and whether the stage and unstage buttons are there. */
  datatype ItemView = ItemView(shown: FileState, badge: string, color: string, stageButton: bool, unstageButton: bool)

  /** `GitFileItem`: the working-tree state wins when there is one; the
      stage button offers to stage unstaged changes, the unstage button to
      unstage staged ones. */
  function FileItem(f: GitFileStatus): (v: ItemView)
    ensures HasUnstaged(f) ==> v.shown == f.unstaged
    ensures !HasUnstaged(f) ==> v.shown == f.staged
    ensures v.badge == StateLabel(v.shown) && v.color == StateColor(v.shown)
    ensures v.stageButton <==> HasUnstaged(f)
    ensures v.unstageButton <==> HasStaged(f)
  {
    var shown := if HasUnstaged(f) then f.unstaged else f.staged;
    ItemView(shown, StateLabel(shown), StateColor(shown), HasUnstaged(f), HasStaged(f))
  }

  /** A row shows a badge exactly when it offers a button, and it shows the
      unmodified state only when both states are unmodified. */
  lemma BadgeIffButton(f: GitFileStatus)
    ensures var v := FileItem(f);
            && (v.badge != "" <==> v.stageButton || v.unstageButton)
            && (v.shown == Unmodified <==> !HasStaged(f) && !HasUnstaged(f))
  {
  }

  /** Every file `git_status` reports gets a badge and at least one button. */
  lemma ReportedFilesActionable(entries: seq<GitStatus.StatusEntry>, k: nat)
    requires k < |GitStatus.Collect(entries)|
    ensures var v := FileItem(GitStatus.Collect(entries)[k]);
            && v.badge != "" && (v.stageButton || v.unstageButton)
  {
  }

  // ---------------------------------------------------------------------------
  // The list
  // ---------------------------------------------------------------------------

  /** What `GitStatusList` renders: the empty-state message, or the staged
      and changes sections (a section with no files has no header). */
  datatype ListView = NoChanges | Sections(staged: seq<GitFileStatus>, changes: seq<GitFileStatus>)

  function StagedFilter(): GitFileStatus -> bool {
    (f: GitFileStatus) => HasStaged(f)
  }

  function UnstagedFilter(): GitFileStatus -> bool {
    (f: GitFileStatus) => HasUnstaged(f)
  }

  /** `GitStatusList`. */
  function StatusList(files: seq<GitFileStatus>): (v: ListView)
    ensures v.NoChanges? <==> |files| == 0
    ensures v.Sections? ==> v.staged == Seqs.Filter(files, StagedFilter())
                            && v.changes == Seqs.Filter(files, UnstagedFilter())
  {
    if |files| == 0 then NoChanges
    else Sections(Seqs.Filter(files, StagedFilter()), Seqs.Filter(files, UnstagedFilter()))
  }

  /** A file is in the staged section iff its staged state is not unmodified,
      and in the changes section iff its unstaged state is not; a file with
      both is in both. */
  lemma SectionMembership(files: seq<GitFileStatus>, k: nat)
    requires k < |files|
    ensures var v := StatusList(files);
            && (files[k] in v.staged <== HasStaged(files[k]))
            && (files[k] in v.changes <== HasUnstaged(files[k]))
            && (forall f :: f in v.staged ==> HasStaged(f))
            && (forall f :: f in v.changes ==> HasUnstaged(f))
  {
    var v := StatusList(files);
    assert StagedFilter()(files[k]) == HasStaged(files[k]);
    assert UnstagedFilter()(files[k]) == HasUnstaged(files[k]);
    forall f | f in v.staged ensures HasStaged(f) {
      var j :| 0 <= j < |v.staged| && v.staged[j] == f;
      assert StagedFilter()(v.staged[j]);
    }
    forall f | f in v.changes ensures HasUnstaged(f) {
      var j :| 0 <= j < |v.changes| && v.changes[j] == f;
      assert UnstagedFilter()(v.changes[j]);
    }
  }

  /** The sections keep the files in list order: filtering the files
      after more are appended extends each section by the new files that
      belong to it. */
  lemma SectionsKeepOrder(files: seq<GitFileStatus>, more: seq<GitFileStatus>)
    requires |files| > 0
    ensures var v, w := StatusList(files), StatusList(files + more);
            && w.staged == v.staged + Seqs.Filter(more, StagedFilter())
            && w.changes == v.changes + Seqs.Filter(more, UnstagedFilter())
  {
    Seqs.FilterAppend(files, more, StagedFilter());
    Seqs.FilterAppend(files, more, UnstagedFilter());
  }

  /** Every file `git_status` reports shows up in at least one section. */
  lemma ReportedFilesListed(entries: seq<GitStatus.StatusEntry>, k: nat)
    requires k < |GitStatus.Collect(entries)|
    ensures var files := GitStatus.Collect(entries);
            var v := StatusList(files);
            v.Sections? && (files[k] in v.staged || files[k] in v.changes)
  {
    SectionMembership(GitStatus.Collect(entries), k);
  }
}

=== FILE: models.dfy ===
/** The records the backend keeps in memory and sends to the front end
    (`src-tauri/src/models`), shared by the backend registries and the
    front-end stores. */
module Models {

  import opened Wrappers

  /** Rust `u16`. */
  type U16 = n: nat | n < 0x1_0000

  /** Rust `u32`. */
  type U32 = n: nat | n < 0x1_0000_0000

  /** Rust `u64`. */
  type U64 = n: nat | n < 0x1_0000_0000_0000_0000

  datatype WorkspaceStatus = Active | Archived

  datatype WorkspaceConfig = WorkspaceConfig(
    id: string,
    name: string,
    repoPath: string,
    worktreePath: string,
    branch: string,
    isMainWorktree: bool,
    envVars: map<string, string>,
    portBase: U16,
    status: WorkspaceStatus,
    createdAt: string
  )

  datatype RepoEntry = RepoEntry(path: string, name: string)

  datatype WorktreeInfo = WorktreeInfo(name: string, path: string, branch: Option<string>, isMain: bool)

  datatype Checkpoint = Checkpoint(
    id: string,
    workspaceId: string,
    labelText: string,
    gitRef: string,
    createdAt: string,
    fileCount: U32,
    agentId: Option<string>
  )

  datatype ScriptDef = ScriptDef(
    name: string,
    command: string,
    args: seq<string>,
    commandWindows: Option<string>,
    argsWindows: Option<seq<string>>,
    cwd: Option<string>
  )

  datatype ProcessStatus = Running | Exited | Failed

  datatype RunningProcess = RunningProcess(
    id: string,
    workspaceId: string,
    scriptName: string,
    pid: U32,
    status: ProcessStatus
  )

  /** git's view of one file in the index or in the working tree. */
  datatype FileState = Unmodified | Added | Modified | Deleted | Renamed | Typechange | Untracked | Conflicted

  datatype GitFileStatus = GitFileStatus(path: string, staged: FileState, unstaged: FileState)

  /** One file's patch text. */
  datatype DiffOutput = DiffOutput(filePath: string, diffText: string)

  datatype BranchInfo = BranchInfo(name: string, isRemote: bool, isHead: bool)

  /** The backend's state behind its mutex (`AppData` in src-tauri/src/state.rs):
      every command takes the lock, so commands apply one at a time. */
  datatype AppData = AppData(
    repos: seq<RepoEntry>,
    workspaces: seq<WorkspaceConfig>,
    allocatedPorts: set<U16>,
    runningProcesses: seq<RunningProcess>,
    checkpoints: seq<Checkpoint>
  )

  const EmptyAppData := AppData([], [], {}, [], [])

  /** What a spawned external command (`Command::output`) reports: it could not
      be started, or it ran and exited with or without success. */
  datatype CommandOutcome = SpawnFailed(error: string) | Finished(success: bool, stderr: string)
}

=== FILE: paths.dfy ===
/** The parts of Rust's `std::path::Path` the backend relies on, for Unix-style
    paths: `join`, `file_name` and `extension`. */
module Paths {

  import opened Wrappers
  import opened Strings

  /** `Path::new(base).join(p)`: an absolute `p` replaces the base; otherwise a
      `/` is inserted unless the base is empty or already ends in one. */
  function JoinPath(base: string, p: string): (r: string)
    ensures StartsWith(p, "/") ==> r == p
    ensures !StartsWith(p, "/") ==> StartsWith(r, base) && EndsWith(r, p)
    ensures !StartsWith(p, "/") ==>
              |r| == |base| + |p| || (|r| == |base| + 1 + |p| && r[|base|] == '/')
    ensures !StartsWith(p, "/") && |base| > 0 ==> r[|r| - |p| - 1] == '/'
  {
    if StartsWith(p, "/") then p
    else if |base| == 0 || base[|base| - 1] == '/' then base + p
    else base + "/" + p
  }

  /** A component that `components()` keeps as a normal name. */
  predicate IsNormalPiece(piece: string) {
    piece != "" && piece != "."
  }

  /** The `/`-separated pieces of a path with empty and `.` pieces dropped,
      which is what `components()` yields apart from the root. */
  function Pieces(parts: seq<string>): (r: seq<string>)
    ensures forall k :: 0 <= k < |r| ==> IsNormalPiece(r[k]) && r[k] in parts
    ensures |r| <= |parts|
  {
    if |parts| == 0 then []
    else if IsNormalPiece(parts[0]) then [parts[0]] + Pieces(parts[1..])
    else Pieces(parts[1..])
  }

  lemma {:induction false} PiecesAppend(a: seq<string>, b: seq<string>)
    ensures Pieces(a + b) == Pieces(a) + Pieces(b)
  {
    if |a| > 0 {
      assert (a + b)[1..] == a[1..] + b;
      PiecesAppend(a[1..], b);
    } else {
      assert a + b == b;
    }
  }

  /** `Path::file_name`: the last normal component, or None when the path ends
      in `..`, is a root, or is empty. */
  function FileName(path: string): (r: Option<string>)
    ensures r.Some? ==> r.value != "" && r.value != "." && r.value != ".." && '/' !in r.value
    ensures var pieces := Pieces(Split(path, '/'));
            && (r.Some? <==> |pieces| > 0 && pieces[|pieces| - 1] != "..")
            && (r.Some? ==> r.value == pieces[|pieces| - 1])
  {
    var pieces := Pieces(Split(path, '/'));
    if |pieces| == 0 || pieces[|pieces| - 1] == ".." then None
    else Some(pieces[|pieces| - 1])
  }

  /** The extension of a single file name, following `rsplit_file_at_dot`: the
      text after the last `.`, unless the name is `..`, has no `.`, or its only
      `.` is the first character. */
  function NameExtension(name: string): (r: Option<string>)
    ensures r.Some? ==> '.' !in r.value && EndsWith(name, "." + r.value)
    ensures r.None? <==> name == ".." || '.' !in name
                         || (name[0] == '.' && forall j :: 0 < j < |name| ==> name[j] != '.')
  {
    if name == ".." then None
    else match LastIndexOf(name, '.')
      case None => None
      case Some(i) =>
        if i == 0 then None
        else
          assert name[i..] == "." + name[i + 1..];
          Some(name[i + 1..])
  }

  /** `Path::extension`, with `unwrap_or_default` applied as the callers do. */
  function ExtensionOrEmpty(path: string): string {
    match FileName(path)
    case None => ""
    case Some(name) => NameExtension(name).GetOr("")
  }

  /** Splitting at an inserted separator splits both sides independently. */
  lemma SplitAppend(a: string, b: string, sep: char)
    ensures Split(a + [sep] + b, sep) == Split(a, sep) + Split(b, sep)
  {
    var x, y := Split(a, sep), Split(b, sep);
    JoinSplit(a, sep);
    JoinSplit(b, sep);
    JoinAppend(x, y, sep);
    SplitJoin(x + y, sep);
  }

  /** A plain name joined onto a relative directory is its file name. */
  lemma FileNameOfJoin(dir: string, name: string)
    requires name != "" && name != "." && name != ".." && '/' !in name
    ensures FileName(JoinPath(dir, name)) == Some(name)
  {
    var joined := JoinPath(dir, name);
    assert name[0] != '/';
    SplitNoSep(name, '/');
    if |dir| == 0 {
      assert joined == name;
    } else if dir[|dir| - 1] == '/' {
      var d := dir[..|dir| - 1];
      assert joined == d + ['/'] + name;
      SplitAppend(d, name, '/');
      PiecesAppend(Split(d, '/'), [name]);
    } else {
      assert joined == dir + ['/'] + name;
      SplitAppend(dir, name, '/');
      PiecesAppend(Split(dir, '/'), [name]);
    }
  }
}

=== FILE: repos.dfy ===
/** The backend's list of repositories (src-tauri/src/commands/repos.rs):
    adding checks the path and refuses duplicates, removing drops every entry
    with the path, loading replaces the list from the store. */
module Repos {

  import opened Wrappers
  import opened Models
  import Paths
  import Seqs

  /** The new state of a command together with what it returns. */
  datatype Outcome<T> = Outcome(data: AppData, result: Result<T>)

  /** The entry's name: the last component of the path, or the whole path
      when it has none. */
  function RepoName(path: string): (name: string)
    ensures Paths.FileName(path).None? ==> name == path
    ensures Paths.FileName(path).Some? ==> name == Paths.FileName(path).value && '/' !in name
  {
    Paths.FileName(path).GetOr(path)
  }

  /** A repository directory's name is the name it was created under. */
  lemma RepoNameOfJoin(parent: string, dirName: string)
    requires dirName != "" && dirName != "." && dirName != ".." && '/' !in dirName
    ensures RepoName(Paths.JoinPath(parent, dirName)) == dirName
  {
    Paths.FileNameOfJoin(parent, dirName);
  }

  predicate HasPath(repos: seq<RepoEntry>, path: string) {
    exists i :: 0 <= i < |repos| && repos[i].path == path
  }

  /** No two entries share a path. */
  predicate UniquePaths(repos: seq<RepoEntry>) {
    forall i, j :: 0 <= i < j < |repos| ==> repos[i].path != repos[j].path
  }

  /** `add_repo`: a missing path, a path git cannot open and a path already
      listed are errors that change nothing; otherwise the entry is appended.
      A failing store write keeps the entry and returns its error. */
  function AddRepo(data: AppData, path: string, exists_: bool, openError: Option<string>,
                   persistError: Option<string>): (o: Outcome<RepoEntry>)
    ensures !exists_ ==> o == Outcome(data, Err("Path does not exist"))
    ensures exists_ && openError.Some? ==> o == Outcome(data, Err("Not a valid git repository: " + openError.value))
    ensures exists_ && openError.None? && HasPath(data.repos, path) ==> o == Outcome(data, Err("Repository already added"))
    ensures exists_ && openError.None? && !HasPath(data.repos, path) ==>
              && o.data == data.(repos := data.repos + [RepoEntry(path, RepoName(path))])
              && o.result == if persistError.Some? then Err(persistError.value) else Ok(RepoEntry(path, RepoName(path)))
  {
    if !exists_ then Outcome(data, Err("Path does not exist"))
    else if openError.Some? then Outcome(data, Err("Not a valid git repository: " + openError.value))
    else
      var entry := RepoEntry(path, RepoName(path));
      if HasPath(data.repos, path) then Outcome(data, Err("Repository already added"))
      else
        var d := data.(repos := data.repos + [entry]);
        Outcome(d, if persistError.Some? then Err(persistError.value) else Ok(entry))
  }

  function PathIsNot(path: string): RepoEntry -> bool {
    (r: RepoEntry) => r.path != path
  }

  /** `remove_repo`: keep the entries with other paths, in order. */
  function RemoveRepo(data: AppData, path: string, persistError: Option<string>): (o: Outcome<()>)
    ensures o.data == data.(repos := Seqs.Filter(data.repos, PathIsNot(path)))
    ensures !HasPath(o.data.repos, path)
    ensures o.result == if persistError.Some? then Err(persistError.value) else Ok(())
  {
    var kept := Seqs.Filter(data.repos, PathIsNot(path));
    assert forall i :: 0 <= i < |kept| ==> PathIsNot(path)(kept[i]);
    Outcome(data.(repos := kept), if persistError.Some? then Err(persistError.value) else Ok(()))
  }

  /** What the store holds under `repos`. */
  datatype Stored = Missing | Malformed(error: string) | Loaded(repos: seq<RepoEntry>)

  /** `load_repos`: the stored list replaces the in-memory one; a missing key
      changes nothing. */
  function LoadRepos(data: AppData, storeError: Option<string>, stored: Stored): (o: Outcome<()>)
    ensures storeError.Some? ==> o == Outcome(data, Err(storeError.value))
    ensures storeError.None? && stored.Missing? ==> o == Outcome(data, Ok(()))
    ensures storeError.None? && stored.Malformed? ==> o == Outcome(data, Err(stored.error))
    ensures storeError.None? && stored.Loaded? ==> o == Outcome(data.(repos := stored.repos), Ok(()))
  {
    if storeError.Some? then Outcome(data, Err(storeError.value))
    else match stored
      case Missing => Outcome(data, Ok(()))
      case Malformed(e) => Outcome(data, Err(e))
      case Loaded(repos) => Outcome(data.(repos := repos), Ok(()))
  }

  /** Adding keeps the paths unique. */
  lemma AddKeepsUnique(data: AppData, path: string, exists_: bool, openError: Option<string>, persistError: Option<string>)
    requires UniquePaths(data.repos)
    ensures UniquePaths(AddRepo(data, path, exists_, openError, persistError).data.repos)
  {
    var repos := AddRepo(data, path, exists_, openError, persistError).data.repos;
    if repos != data.repos {
      forall i, j | 0 <= i < j < |repos| ensures repos[i].path != repos[j].path {
        if j == |data.repos| {
          assert repos[i] == data.repos[i];
        } else {
          assert repos[i] == data.repos[i] && repos[j] == data.repos[j];
        }
      }
    }
  }

  /** Removing keeps the paths unique. */
  lemma RemoveKeepsUnique(data: AppData, path: string, persistError: Option<string>)
    requires UniquePaths(data.repos)
    ensures UniquePaths(RemoveRepo(data, path, persistError).data.repos)
  {
    Seqs.FilterPairwise(data.repos, PathIsNot(path), DifferentPaths);
  }

  predicate DifferentPaths(a: RepoEntry, b: RepoEntry) {
    a.path != b.path
  }

  /** Removing a path that is not listed changes nothing. */
  lemma RemoveAbsent(data: AppData, path: string)
    requires !HasPath(data.repos, path)
    ensures RemoveRepo(data, path, None).data == data
  {
    Seqs.FilterAll(data.repos, PathIsNot(path));
  }

  /** Removing a path just added gives back the list from before. */
  lemma RemoveUndoesAdd(data: AppData, path: string)
    requires !HasPath(data.repos, path)
    ensures RemoveRepo(AddRepo(data, path, true, None, None).data, path, None).data == data
  {
    var entry := RepoEntry(path, RepoName(path));
    Seqs.FilterAppend(data.repos, [entry], PathIsNot(path));
    Seqs.FilterAll(data.repos, PathIsNot(path));
    assert Seqs.Filter([entry], PathIsNot(path)) == [];
  }

  /** Adding a path twice fails the second time and leaves one entry. */
  lemma AddTwiceRefused(data: AppData, path: string)
    requires !HasPath(data.repos, path)
    ensures var once := AddRepo(data, path, true, None, None).data;
            AddRepo(once, path, true, None, None) == Outcome(once, Err("Repository already added"))
  {
    var once := AddRepo(data, path, true, None, None).data;
    assert once.repos[|data.repos|].path == path;
  }
}

=== FILE: scripts.dfy ===
/** The registry of script processes (src-tauri/src/commands/scripts.rs):
    running a script appends an entry, stopping marks entries exited, listing
    refreshes statuses from a liveness probe, clean-up drops what is not
    running. Spawning, killing and probing processes are parameters. */
module Scripts {

  import opened Wrappers
  import opened Strings
  import opened Models
  import Paths
  import Seqs

  /** `resolve_platform_command`: on Windows the overrides win when present;
      elsewhere the plain command and arguments. */
  function ResolvePlatformCommand(script: ScriptDef, windows: bool): (r: (string, seq<string>))
    ensures !windows ==> r == (script.command, script.args)
    ensures windows ==> r.0 == (if script.commandWindows.Some? then script.commandWindows.value else script.command)
    ensures windows ==> r.1 == (if script.argsWindows.Some? then script.argsWindows.value else script.args)
  {
    if windows then (script.commandWindows.GetOr(script.command), script.argsWindows.GetOr(script.args))
    else (script.command, script.args)
  }

  /** The directory a script runs in: its `cwd` under the worktree, or the
      worktree itself. */
  function WorkingDir(script: ScriptDef, worktreePath: string): (r: string)
    ensures script.cwd.None? ==> r == worktreePath
    ensures script.cwd.Some? ==> r == Paths.JoinPath(worktreePath, script.cwd.value)
  {
    if script.cwd.Some? then Paths.JoinPath(worktreePath, script.cwd.value) else worktreePath
  }

  /** `"{workspace_id}-{pid}"`. */
  function ProcessId(workspaceId: string, pid: U32): (r: string)
    ensures |r| > |workspaceId| + 1 && r[..|workspaceId|] == workspaceId && r[|workspaceId|] == '-'
    ensures AllDigits(r[|workspaceId| + 1..]) && DecimalValue(r[|workspaceId| + 1..]) == pid
  {
    var r := workspaceId + "-" + NatToString(pid);
    assert r[|workspaceId| + 1..] == NatToString(pid);
    NatToStringValue(pid);
    r
  }

  /** The new state of a command together with what it returns. */
  datatype Outcome<T> = Outcome(data: AppData, result: Result<T>)

  /** `run_script`: a missing working directory or a failed spawn is an error
      and changes nothing; otherwise exactly one running entry is appended.
      `spawned` is the child's pid or the spawn error. */
  function RunScript(data: AppData, workspaceId: string, script: ScriptDef, worktreePath: string,
                     windows: bool, dirExists: bool, spawned: Result<U32>): (o: Outcome<RunningProcess>)
    ensures !dirExists ==> o == Outcome(data, Err("Working directory does not exist: " + WorkingDir(script, worktreePath)))
    ensures dirExists && spawned.Err? ==>
              o == Outcome(data, Err("Failed to spawn '" + ResolvePlatformCommand(script, windows).0 + "': " + spawned.error))
    ensures dirExists && spawned.Ok? ==>
              && o.result.Ok?
              && var p := o.result.value;
              && o.data == data.(runningProcesses := data.runningProcesses + [p])
              && p.id == ProcessId(workspaceId, spawned.value) && p.pid == spawned.value
              && p.workspaceId == workspaceId && p.scriptName == script.name && p.status == Running
  {
    var (cmd, _) := ResolvePlatformCommand(script, windows);
    if !dirExists then Outcome(data, Err("Working directory does not exist: " + WorkingDir(script, worktreePath)))
    else match spawned
      case Err(e) => Outcome(data, Err("Failed to spawn '" + cmd + "': " + e))
      case Ok(pid) =>
        var p := RunningProcess(ProcessId(workspaceId, pid), workspaceId, script.name, pid, Running);
        Outcome(data.(runningProcesses := data.runningProcesses + [p]), Ok(p))
  }

  function IdIs(id: string): RunningProcess -> bool {
    (p: RunningProcess) => p.id == id
  }

  function MarkExited(p: RunningProcess): RunningProcess {
    p.(status := Exited)
  }

  /** `stop_process`: the first entry with the id names the pid to kill; after
      the kill every entry with the id is exited. `killError` is the Windows
      `taskkill` spawn failure (the Unix signal never fails). */
  function StopProcess(data: AppData, processId: string, killError: Option<string>): (o: Outcome<()>)
    ensures o.data.(runningProcesses := data.runningProcesses) == data
    ensures |o.data.runningProcesses| == |data.runningProcesses|
    ensures (forall i :: 0 <= i < |data.runningProcesses| ==> data.runningProcesses[i].id != processId)
            ==> o == Outcome(data, Err("Process '" + processId + "' not found"))
    ensures (exists i :: 0 <= i < |data.runningProcesses| && data.runningProcesses[i].id == processId) && killError.Some?
            ==> o.data == data && o.result.Err?
    ensures o.result.Ok? <==> (exists i :: 0 <= i < |data.runningProcesses| && data.runningProcesses[i].id == processId)
                              && killError.None?
    ensures o.result.Ok? ==> forall i :: 0 <= i < |data.runningProcesses| ==>
              var before := data.runningProcesses[i];
              var after := o.data.runningProcesses[i];
              if before.id == processId then after == before.(status := Exited) else after == before
  {
    match Seqs.Find(data.runningProcesses, IdIs(processId))
    case None => Outcome(data, Err("Process '" + processId + "' not found"))
    case Some(p) =>
      if killError.Some? then Outcome(data, Err("Failed to kill process " + NatToString(p.pid) + ": " + killError.value))
      else Outcome(data.(runningProcesses := Seqs.UpdateWhere(data.runningProcesses, IdIs(processId), MarkExited)), Ok(()))
  }

  /** The refresh step of `list_running_processes`: a running entry whose pid
      is dead becomes exited; nothing else changes. */
  function Refresh(ps: seq<RunningProcess>, alive: U32 -> bool): (r: seq<RunningProcess>)
    ensures |r| == |ps|
    ensures forall i :: 0 <= i < |ps| ==>
              r[i] == if ps[i].status == Running && !alive(ps[i].pid) then ps[i].(status := Exited) else ps[i]
  {
    seq(|ps|, i requires 0 <= i < |ps| =>
      if ps[i].status == Running && !alive(ps[i].pid) then ps[i].(status := Exited) else ps[i])
  }

  function InWorkspace(workspaceId: string): RunningProcess -> bool {
    (p: RunningProcess) => p.workspaceId == workspaceId
  }

  /** `list_running_processes`: refresh the statuses in place, then return the
      entries of the workspace, or all of them. */
  function ListRunningProcesses(data: AppData, workspaceId: Option<string>, alive: U32 -> bool): (o: Outcome<seq<RunningProcess>>)
    ensures o.data == data.(runningProcesses := Refresh(data.runningProcesses, alive))
    ensures o.result.Ok?
    ensures workspaceId.None? ==> o.result.value == o.data.runningProcesses
    ensures workspaceId.Some? ==> o.result.value == Seqs.Filter(o.data.runningProcesses, InWorkspace(workspaceId.value))
  {
    var refreshed := Refresh(data.runningProcesses, alive);
    var d := data.(runningProcesses := refreshed);
    match workspaceId
    case None => Outcome(d, Ok(refreshed))
    case Some(wid) => Outcome(d, Ok(Seqs.Filter(refreshed, InWorkspace(wid))))
  }

  function IsRunning(p: RunningProcess): bool {
    p.status == Running
  }

  /** `cleanup_processes`: keep the running entries, in order; exited and
      failed ones go. */
  function CleanupProcesses(data: AppData): (r: AppData)
    ensures r.(runningProcesses := data.runningProcesses) == data
    ensures forall i :: 0 <= i < |r.runningProcesses| ==> r.runningProcesses[i].status == Running
    ensures forall i :: 0 <= i < |data.runningProcesses| && data.runningProcesses[i].status == Running
              ==> data.runningProcesses[i] in r.runningProcesses
    ensures r.runningProcesses == Seqs.Filter(data.runningProcesses, IsRunning)
  {
    var kept := Seqs.Filter(data.runningProcesses, IsRunning);
    assert forall i :: 0 <= i < |kept| ==> IsRunning(kept[i]);
    data.(runningProcesses := kept)
  }

  /** A refresh never turns an entry back to running, and it only touches
      running entries. */
  lemma RefreshOnlyExits(ps: seq<RunningProcess>, alive: U32 -> bool)
    ensures var r := Refresh(ps, alive);
            forall i :: 0 <= i < |ps| ==>
              (r[i].status == Running ==> ps[i].status == Running)
              && (r[i] != ps[i] ==> ps[i].status == Running && r[i].status == Exited && r[i].(status := Running) == ps[i])
  {
  }

  /** Listing twice with the same probe refreshes nothing the second time. */
  lemma RefreshIdempotent(ps: seq<RunningProcess>, alive: U32 -> bool)
    ensures Refresh(Refresh(ps, alive), alive) == Refresh(ps, alive)
  {
  }

  /** Listing with no workspace and listing every workspace's share together
      cover the same entries: each entry is in its own workspace's list. */
  lemma ListedInOwnWorkspace(data: AppData, alive: U32 -> bool, i: nat)
    requires i < |data.runningProcesses|
    ensures var all := ListRunningProcesses(data, None, alive).result.value;
            var mine := ListRunningProcesses(data, Some(data.runningProcesses[i].workspaceId), alive).result.value;
            all[i] in mine
  {
    var all := Refresh(data.runningProcesses, alive);
    assert InWorkspace(data.runningProcesses[i].workspaceId)(all[i]);
  }

  /** Clean-up is idempotent. */
  lemma CleanupIdempotent(data: AppData)
    ensures CleanupProcesses(CleanupProcesses(data)) == CleanupProcesses(data)
  {
    var once := CleanupProcesses(data);
    Seqs.FilterAll(once.runningProcesses, IsRunning);
  }

  /** Stopping a process and then cleaning up removes every entry with its
      id. */
  lemma StopThenCleanupRemoves(data: AppData, processId: string)
    ensures var stopped := StopProcess(data, processId, None).data;
            forall i :: 0 <= i < |CleanupProcesses(stopped).runningProcesses| ==>
              CleanupProcesses(stopped).runningProcesses[i].id != processId
  {
    var stopped := StopProcess(data, processId, None).data;
    var kept := CleanupProcesses(stopped).runningProcesses;
    forall i | 0 <= i < |kept| ensures kept[i].id != processId {
      var m :| 0 <= m < |stopped.runningProcesses| && stopped.runningProcesses[m] == kept[i];
    }
  }

  /** A script just started can be stopped under the id it was given, which
      marks its entry exited. */
  lemma RunThenStop(data: AppData, workspaceId: string, script: ScriptDef, worktreePath: string,
                    windows: bool, pid: U32)
    ensures var run := RunScript(data, workspaceId, script, worktreePath, windows, true, Ok(pid));
            var stopped := StopProcess(run.data, run.result.value.id, None);
            stopped.result.Ok? && stopped.data.runningProcesses[|data.runningProcesses|].status == Exited
  {
    var run := RunScript(data, workspaceId, script, worktreePath, windows, true, Ok(pid));
    assert run.data.runningProcesses[|data.runningProcesses|] == run.result.value;
  }
}

=== FILE: seqs.dfy ===
/** Sequence combinators shared by the stores and the registries: the
    order-preserving `filter` / `retain`, `find`, `some` and the element-wise
    `map` that replaces the elements a predicate selects. */
module Seqs {

  import opened Wrappers

  /** `Array.prototype.filter` and `Vec::retain`: the elements satisfying `p`,
      in their original order. */
  function Filter<T(==)>(s: seq<T>, p: T -> bool): (r: seq<T>)
    ensures |r| <= |s|
    ensures forall i :: 0 <= i < |r| ==> r[i] in s && p(r[i])
    ensures forall i :: 0 <= i < |s| && p(s[i]) ==> s[i] in r
    decreases |s|
  {
    if |s| == 0 then []
    else if p(s[0]) then [s[0]] + Filter(s[1..], p)
    else Filter(s[1..], p)
  }

  /** Filtering distributes over concatenation, so the relative order of the
      kept elements is the input order. */
  lemma {:induction false} FilterAppend<T>(a: seq<T>, b: seq<T>, p: T -> bool)
    ensures Filter(a + b, p) == Filter(a, p) + Filter(b, p)
    decreases |a|
  {
    if |a| == 0 {
      assert a + b == b;
    } else {
      assert (a + b)[1..] == a[1..] + b;
      FilterAppend(a[1..], b, p);
    }
  }

  /** Nothing is removed when every element passes. */
  lemma {:induction false} FilterAll<T>(s: seq<T>, p: T -> bool)
    requires forall i :: 0 <= i < |s| ==> p(s[i])
    ensures Filter(s, p) == s
    decreases |s|
  {
    if |s| > 0 {
      FilterAll(s[1..], p);
    }
  }

  /** Everything is removed when no element passes. */
  lemma {:induction false} FilterNone<T>(s: seq<T>, p: T -> bool)
    requires forall i :: 0 <= i < |s| ==> !p(s[i])
    ensures Filter(s, p) == []
    decreases |s|
  {
    if |s| > 0 {
      FilterNone(s[1..], p);
    }
  }

  /** The number of elements a filter keeps plus the number it drops is the
      length of the input. */
  lemma {:induction false} FilterSplitsLength<T>(s: seq<T>, p: T -> bool)
    ensures |Filter(s, p)| + |Filter(s, x => !p(x))| == |s|
    decreases |s|
  {
    if |s| > 0 {
      FilterSplitsLength(s[1..], p);
    }
  }

  /** Index of the first element satisfying `p`. */
  function FirstIndex<T>(s: seq<T>, p: T -> bool): (r: Option<nat>)
    ensures r.Some? ==> r.value < |s| && p(s[r.value])
    ensures r.Some? ==> forall j :: 0 <= j < r.value ==> !p(s[j])
    ensures r.None? ==> forall j :: 0 <= j < |s| ==> !p(s[j])
    decreases |s|
  {
    if |s| == 0 then None
    else if p(s[0]) then Some(0)
    else match FirstIndex(s[1..], p)
      case None => None
      case Some(i) => Some(i + 1)
  }

  /** The first index is determined by the elements before it. */
  lemma {:induction false} FirstIndexIs<T>(s: seq<T>, p: T -> bool, k: nat)
    requires k < |s| && p(s[k])
    requires forall j :: 0 <= j < k ==> !p(s[j])
    ensures FirstIndex(s, p) == Some(k)
    decreases k
  {
    if k > 0 {
      FirstIndexIs(s[1..], p, k - 1);
    }
  }

  /** `Array.prototype.find` and `Iterator::find`: the first element satisfying
      `p`. */
  function Find<T>(s: seq<T>, p: T -> bool): (r: Option<T>)
    ensures r.Some? <==> exists i :: 0 <= i < |s| && p(s[i])
    ensures r.Some? ==> exists i :: 0 <= i < |s| && s[i] == r.value && p(s[i])
                         && forall j :: 0 <= j < i ==> !p(s[j])
  {
    match FirstIndex(s, p)
    case None => None
    case Some(i) => Some(s[i])
  }

  /** `Array.prototype.some`. */
  function Any<T>(s: seq<T>, p: T -> bool): (r: bool)
    ensures r <==> exists i :: 0 <= i < |s| && p(s[i])
    decreases |s|
  {
    if |s| == 0 then false else p(s[0]) || Any(s[1..], p)
  }

  /** `s.map(x => p(x) ? f(x) : x)`: the selected elements are replaced in
      place, the others are kept. */
  function UpdateWhere<T>(s: seq<T>, p: T -> bool, f: T -> T): (r: seq<T>)
    ensures |r| == |s|
    ensures forall i :: 0 <= i < |s| ==> r[i] == if p(s[i]) then f(s[i]) else s[i]
  {
    seq(|s|, i requires 0 <= i < |s| => if p(s[i]) then f(s[i]) else s[i])
  }

  /** Every earlier element stands in `rel` to every later one. */
  predicate Pairwise<T>(s: seq<T>, rel: (T, T) -> bool) {
    forall i, j :: 0 <= i < j < |s| ==> rel(s[i], s[j])
  }

  /** Filtering keeps the relative order, so a pairwise property survives
      it. */
  lemma {:induction false} FilterPairwise<T>(s: seq<T>, p: T -> bool, rel: (T, T) -> bool)
    requires Pairwise(s, rel)
    ensures Pairwise(Filter(s, p), rel)
    decreases |s|
  {
    if |s| > 0 {
      var rest := Filter(s[1..], p);
      FilterPairwise(s[1..], p, rel);
      if p(s[0]) {
        var r := [s[0]] + rest;
        forall i, j | 0 <= i < j < |r| ensures rel(r[i], r[j]) {
          if i == 0 {
            assert r[j] == rest[j - 1];
            var m :| 0 <= m < |s[1..]| && s[1..][m] == r[j];
            assert s[m + 1] == r[j];
          } else {
            assert r[i] == rest[i - 1] && r[j] == rest[j - 1];
          }
        }
      }
    }
  }

  /** Appending an element that stands in `rel` to every element keeps the
      property. */
  lemma PairwiseSnoc<T>(s: seq<T>, x: T, rel: (T, T) -> bool)
    requires Pairwise(s, rel)
    requires forall i :: 0 <= i < |s| ==> rel(s[i], x)
    ensures Pairwise(s + [x], rel)
  {
    var r := s + [x];
    forall i, j | 0 <= i < j < |r| ensures rel(r[i], r[j]) {
      if j < |s| {
        assert r[i] == s[i] && r[j] == s[j];
      } else {
        assert r[i] == s[i] && r[j] == x;
      }
    }
  }
}

=== FILE: sorting.dfy ===
/** Ordering helpers: lexicographic order on strings (Rust's `Ord` for
    `String` and the default JavaScript sort, comparing character by
    character) and a stable insertion sort by a total preorder, which is what
    `sort_by` and `Array.prototype.sort` promise about their results. */
module Sorting {

  import Seqs

  /** `a` sorts no later than `b`: a prefix comes first, otherwise the first
      differing character decides. */
  predicate LexLe(a: string, b: string)
    decreases |a|
  {
    |a| == 0 || (|b| > 0 && (a[0] < b[0] || (a[0] == b[0] && LexLe(a[1..], b[1..]))))
  }

  lemma {:induction false} LexLeTotal(a: string, b: string)
    ensures LexLe(a, b) || LexLe(b, a)
    decreases |a|
  {
    if |a| > 0 && |b| > 0 && a[0] == b[0] {
      LexLeTotal(a[1..], b[1..]);
    }
  }

  lemma {:induction false} LexLeTransitive(a: string, b: string, c: string)
    requires LexLe(a, b) && LexLe(b, c)
    ensures LexLe(a, c)
    decreases |a|
  {
    if |a| > 0 && a[0] == b[0] && b[0] == c[0] {
      LexLeTransitive(a[1..], b[1..], c[1..]);
    }
  }

  /** Two strings that sort no later than each other are equal. */
  lemma {:induction false} LexLeAntisymmetric(a: string, b: string)
    requires LexLe(a, b) && LexLe(b, a)
    ensures a == b
    decreases |a|
  {
    if |a| > 0 {
      LexLeAntisymmetric(a[1..], b[1..]);
      assert a == [a[0]] + a[1..] && b == [b[0]] + b[1..];
    }
  }

  ghost predicate Total<T(!new)>(le: (T, T) -> bool) {
    forall a: T, b: T :: le(a, b) || le(b, a)
  }

  ghost predicate Transitive<T(!new)>(le: (T, T) -> bool) {
    forall a: T, b: T, c: T :: le(a, b) && le(b, c) ==> le(a, c)
  }

  /** Inserts `x` right before the first element `y` with `le(x, y)`, or at
      the end when there is none; `x` thus goes ahead of the elements it
      ties with, which keeps `Sort` stable. */
  function Insert<T>(x: T, s: seq<T>, le: (T, T) -> bool): (r: seq<T>)
    ensures multiset(r) == multiset(s) + multiset{x}
    ensures |r| == |s| + 1
    decreases |s|
  {
    if |s| == 0 || le(x, s[0]) then [x] + s
    else
      assert s == [s[0]] + s[1..];
      [s[0]] + Insert(x, s[1..], le)
  }

  lemma {:induction false} InsertSorted<T(!new)>(x: T, s: seq<T>, le: (T, T) -> bool)
    requires Total(le) && Transitive(le)
    requires Seqs.Pairwise(s, le)
    ensures Seqs.Pairwise(Insert(x, s, le), le)
    decreases |s|
  {
    if |s| == 0 || le(x, s[0]) {
      var r := [x] + s;
      forall i, j | 0 <= i < j < |r| ensures le(r[i], r[j]) {
        if i == 0 {
          if j > 1 {
            assert le(s[0], s[j - 1]);
          }
        } else {
          assert r[i] == s[i - 1] && r[j] == s[j - 1];
        }
      }
    } else {
      var rest := Insert(x, s[1..], le);
      assert Seqs.Pairwise(s[1..], le) by {
        forall i, j | 0 <= i < j < |s[1..]| ensures le(s[1..][i], s[1..][j]) {
          assert s[1..][i] == s[i + 1] && s[1..][j] == s[j + 1];
        }
      }
      InsertSorted(x, s[1..], le);
      var r := [s[0]] + rest;
      assert le(s[0], x);
      forall i, j | 0 <= i < j < |r| ensures le(r[i], r[j]) {
        if i == 0 {
          var y := rest[j - 1];
          assert y in multiset(rest);
          assert y in multiset(s[1..]) + multiset{x};
          if y != x || y in multiset(s[1..]) {
            if y in multiset(s[1..]) {
              var m :| 0 <= m < |s[1..]| && s[1..][m] == y;
              assert s[m + 1] == y;
            }
          }
        } else {
          assert r[i] == rest[i - 1] && r[j] == rest[j - 1];
        }
      }
    }
  }

  /** The elements that tie with `z` under `le`: each sorts no later than the
      other. */
  function TiesWith<T>(z: T, le: (T, T) -> bool): T -> bool {
    (y: T) => le(z, y) && le(y, z)
  }

  /** Inserting `x` puts it ahead of every element it ties with and leaves
      the order among the others alone. */
  lemma {:induction false} InsertKeepsTies<T(!new)>(x: T, s: seq<T>, le: (T, T) -> bool, z: T)
    requires Transitive(le)
    ensures Seqs.Filter(Insert(x, s, le), TiesWith(z, le))
            == (if TiesWith(z, le)(x) then [x] else []) + Seqs.Filter(s, TiesWith(z, le))
    decreases |s|
  {
    var p := TiesWith(z, le);
    if |s| == 0 || le(x, s[0]) {
      assert ([x] + s)[1..] == s;
    } else {
      InsertKeepsTies(x, s[1..], le, z);
      assert ([s[0]] + Insert(x, s[1..], le))[1..] == Insert(x, s[1..], le);
      assert s == [s[0]] + s[1..];
      assert !(p(x) && p(s[0]));
    }
  }

  /** Insertion sort: stable, and sorted whenever `le` is a total preorder. */
  function Sort<T>(s: seq<T>, le: (T, T) -> bool): (r: seq<T>)
    ensures multiset(r) == multiset(s)
    ensures |r| == |s|
    decreases |s|
  {
    if |s| == 0 then []
    else
      assert s == [s[0]] + s[1..];
      Insert(s[0], Sort(s[1..], le), le)
  }

  lemma {:induction false} SortSorted<T(!new)>(s: seq<T>, le: (T, T) -> bool)
    requires Total(le) && Transitive(le)
    ensures Seqs.Pairwise(Sort(s, le), le)
    decreases |s|
  {
    if |s| > 0 {
      SortSorted(s[1..], le);
      InsertSorted(s[0], Sort(s[1..], le), le);
    }
  }

  /** `Sort` is stable: the elements that tie with any `z` come out in the
      order they went in. */
  lemma {:induction false} SortStable<T(!new)>(s: seq<T>, le: (T, T) -> bool, z: T)
    requires Transitive(le)
    ensures Seqs.Filter(Sort(s, le), TiesWith(z, le)) == Seqs.Filter(s, TiesWith(z, le))
    decreases |s|
  {
    if |s| > 0 {
      SortStable(s[1..], le, z);
      InsertKeepsTies(s[0], Sort(s[1..], le), le, z);
    }
  }
}

=== FILE: strings.dfy ===
/** Text helpers shared by the model: prefixes and substrings, splitting on a
    separator and joining back, ASCII lowercasing, the two whitespace classes
    (JavaScript's `\s`/`trim` and Unicode White_Space used by Rust's `trim`),
    and decimal/hexadecimal number formatting. */
module Strings {

  import Wrappers

  // ---------------------------------------------------------------------------
  // Prefixes, suffixes, substrings
  // ---------------------------------------------------------------------------

  predicate StartsWith(s: string, prefix: string) {
    |prefix| <= |s| && s[..|prefix|] == prefix
  }

  predicate EndsWith(s: string, suffix: string) {
    |suffix| <= |s| && s[|s| - |suffix|..] == suffix
  }

  /** `sub` occurs in `s` starting at index `i`. */
  predicate OccursAt(s: string, sub: string, i: nat) {
    i + |sub| <= |s| && s[i..i + |sub|] == sub
  }

  /** `s.includes(sub)` / `str::contains`. */
  predicate Contains(s: string, sub: string) {
    exists i: nat | i <= |s| :: OccursAt(s, sub, i)
  }

  lemma ContainsEmpty(s: string)
    ensures Contains(s, "")
  {
    assert OccursAt(s, "", 0);
  }

  // ---------------------------------------------------------------------------
  // Lowercasing (ASCII letters only)
  // ---------------------------------------------------------------------------

  function LowerChar(c: char): (r: char)
    ensures 'A' <= c <= 'Z' ==> r == c + ('a' - 'A') as char
    ensures !('A' <= c <= 'Z') ==> r == c
  {
    if 'A' <= c <= 'Z' then (c as int + 32) as char else c
  }

  function Lower(s: string): (r: string)
    ensures |r| == |s|
    ensures forall i :: 0 <= i < |s| ==> r[i] == LowerChar(s[i])
  {
    seq(|s|, i requires 0 <= i < |s| => LowerChar(s[i]))
  }

  lemma LowerIdempotent(s: string)
    ensures Lower(Lower(s)) == Lower(s)
  {
  }

  /** A string with no upper-case ASCII letter is its own lowercase. */
  lemma LowerOfLower(s: string)
    requires forall i :: 0 <= i < |s| ==> !('A' <= s[i] <= 'Z')
    ensures Lower(s) == s
  {
  }

  // ---------------------------------------------------------------------------
  // Whitespace classes
  // ---------------------------------------------------------------------------

  /** Unicode White_Space, the class Rust's `char::is_whitespace` and `str::trim` use. */
  predicate IsUnicodeSpace(c: char) {
    ('\t' <= c <= '\r') || c == ' ' || c == '\U{0085}' || c == '\U{00A0}' || c == '\U{1680}'
    || ('\U{2000}' <= c <= '\U{200A}') || c == '\U{2028}' || c == '\U{2029}'
    || c == '\U{202F}' || c == '\U{205F}' || c == '\U{3000}'
  }

  /** ECMAScript WhiteSpace and LineTerminator, the class of regular-expression `\s`
      and of `String.prototype.trim`. */
  predicate IsJsSpace(c: char) {
    ('\t' <= c <= '\r') || c == ' ' || c == '\U{00A0}' || c == '\U{1680}'
    || ('\U{2000}' <= c <= '\U{200A}') || c == '\U{2028}' || c == '\U{2029}'
    || c == '\U{202F}' || c == '\U{205F}' || c == '\U{3000}' || c == '\U{FEFF}'
  }

  /** The number of leading characters of `s` in the class. */
  function LeadingCount(s: string, isSpace: char -> bool): (n: nat)
    ensures n <= |s|
    ensures forall i :: 0 <= i < n ==> isSpace(s[i])
    ensures n < |s| ==> !isSpace(s[n])
    decreases |s|
  {
    if |s| > 0 && isSpace(s[0]) then
      var k := LeadingCount(s[1..], isSpace);
      assert forall i :: 1 <= i < 1 + k ==> s[i] == s[1..][i - 1];
      1 + k
    else 0
  }

  /** The number of trailing characters of `s` in the class. */
  function TrailingCount(s: string, isSpace: char -> bool): (n: nat)
    ensures n <= |s|
    ensures forall i :: |s| - n <= i < |s| ==> isSpace(s[i])
    ensures n < |s| ==> !isSpace(s[|s| - n - 1])
    decreases |s|
  {
    if |s| > 0 && isSpace(s[|s| - 1]) then
      var k := TrailingCount(s[..|s| - 1], isSpace);
      assert forall i :: |s| - 1 - k <= i < |s| - 1 ==> s[i] == s[..|s| - 1][i];
      1 + k
    else 0
  }

  function TrimStart(s: string, isSpace: char -> bool): (r: string)
    ensures |r| <= |s| && r == s[|s| - |r|..]
    ensures |r| > 0 ==> !isSpace(r[0])
    ensures forall i :: 0 <= i < |s| - |r| ==> isSpace(s[i])
  {
    s[LeadingCount(s, isSpace)..]
  }

  function TrimEnd(s: string, isSpace: char -> bool): (r: string)
    ensures |r| <= |s| && r == s[..|r|]
    ensures |r| > 0 ==> !isSpace(r[|r| - 1])
    ensures forall i :: |r| <= i < |s| ==> isSpace(s[i])
  {
    s[..|s| - TrailingCount(s, isSpace)]
  }

  /** Whitespace trimmed from both ends under the given class. */
  function Trim(s: string, isSpace: char -> bool): (r: string)
    ensures |r| <= |s|
    ensures |r| > 0 ==> !isSpace(r[0]) && !isSpace(r[|r| - 1])
  {
    TrimEnd(TrimStart(s, isSpace), isSpace)
  }

  /** JavaScript `s.trim()`. */
  function TrimJs(s: string): string {
    Trim(s, IsJsSpace)
  }

  /** Rust `s.trim()`. */
  function TrimRust(s: string): string {
    Trim(s, IsUnicodeSpace)
  }

  /** The trimmed string is empty exactly when every character is whitespace. */
  lemma TrimEmptyIff(s: string, isSpace: char -> bool)
    ensures Trim(s, isSpace) == "" <==> forall i :: 0 <= i < |s| ==> isSpace(s[i])
  {
    var t := TrimStart(s, isSpace);
    if t != "" {
      assert !isSpace(t[0]);
      assert |TrimEnd(t, isSpace)| > 0;
    }
  }

  /** Rust `trim_end_matches(c)` for a single character: drops every trailing `c`. */
  function TrimEndChar(s: string, c: char): (r: string)
    ensures |r| <= |s| && r == s[..|r|]
    ensures |r| > 0 ==> r[|r| - 1] != c
    ensures forall i :: |r| <= i < |s| ==> s[i] == c
  {
    if |s| > 0 && s[|s| - 1] == c then TrimEndChar(s[..|s| - 1], c) else s
  }

  // ---------------------------------------------------------------------------
  // Split and join on one separator character
  // ---------------------------------------------------------------------------

  /** `s.split(sep)` (JavaScript) with a one-character separator: the pieces
      between separators, at least one, none containing the separator. */
  function Split(s: string, sep: char): (parts: seq<string>)
    ensures |parts| >= 1
    ensures forall k :: 0 <= k < |parts| ==> sep !in parts[k]
    decreases |s|
  {
    if |s| == 0 then [""]
    else if s[0] == sep then [""] + Split(s[1..], sep)
    else
      var rest := Split(s[1..], sep);
      [[s[0]] + rest[0]] + rest[1..]
  }

  /** `parts.join(sep)`. */
  function Join(parts: seq<string>, sep: char): string
    decreases |parts|
  {
    if |parts| == 0 then ""
    else if |parts| == 1 then parts[0]
    else parts[0] + [sep] + Join(parts[1..], sep)
  }

  lemma JoinCons(first: string, parts: seq<string>, sep: char)
    requires |parts| >= 1
    ensures Join([first] + parts, sep) == first + [sep] + Join(parts, sep)
  {
    assert ([first] + parts)[1..] == parts;
  }

  lemma JoinSnoc(parts: seq<string>, last: string, sep: char)
    requires |parts| >= 1
    ensures Join(parts + [last], sep) == Join(parts, sep) + [sep] + last
    decreases |parts|
  {
    var all := parts + [last];
    if |parts| == 1 {
      assert all == [parts[0]] + [last];
      JoinCons(parts[0], [last], sep);
    } else {
      var t := parts[1..];
      assert all == [parts[0]] + (t + [last]);
      assert parts == [parts[0]] + t;
      JoinSnoc(t, last, sep);
      JoinCons(parts[0], t + [last], sep);
      JoinCons(parts[0], t, sep);
    }
  }

  /** Joining the pieces of a split gives the text back. */
  lemma {:induction false} JoinSplit(s: string, sep: char)
    ensures Join(Split(s, sep), sep) == s
    decreases |s|
  {
    if |s| > 0 {
      var rest := Split(s[1..], sep);
      JoinSplit(s[1..], sep);
      if s[0] == sep {
        JoinCons("", rest, sep);
      } else {
        var first := [s[0]] + rest[0];
        if |rest| == 1 {
          assert Split(s, sep) == [first];
        } else {
          JoinCons(first, rest[1..], sep);
          JoinCons(rest[0], rest[1..], sep);
          assert rest == [rest[0]] + rest[1..];
        }
        assert s == [s[0]] + s[1..];
      }
    }
  }

  /** Joining two non-empty lists puts one separator between their joins. */
  lemma {:induction false} JoinAppend(p: seq<string>, q: seq<string>, sep: char)
    requires |p| >= 1 && |q| >= 1
    ensures Join(p + q, sep) == Join(p, sep) + [sep] + Join(q, sep)
    decreases |p|
  {
    if |p| == 1 {
      assert p + q == [p[0]] + q;
      JoinCons(p[0], q, sep);
    } else {
      var t := p[1..];
      assert p + q == [p[0]] + (t + q);
      assert p == [p[0]] + t;
      JoinAppend(t, q, sep);
      JoinCons(p[0], t + q, sep);
      JoinCons(p[0], t, sep);
    }
  }

  /** Splitting a joined list of separator-free pieces gives the pieces back. */
  lemma {:induction false} SplitJoin(parts: seq<string>, sep: char)
    requires |parts| >= 1
    requires forall k :: 0 <= k < |parts| ==> sep !in parts[k]
    ensures Split(Join(parts, sep), sep) == parts
    decreases |parts|, |parts[0]|
  {
    if |parts| == 1 {
      SplitNoSep(parts[0], sep);
    } else if |parts[0]| == 0 {
      var s := Join(parts, sep);
      assert s == [sep] + Join(parts[1..], sep);
      assert s[1..] == Join(parts[1..], sep);
      SplitJoin(parts[1..], sep);
    } else {
      var s := Join(parts, sep);
      var p0 := parts[0];
      assert s[0] == p0[0];
      var tailParts := [p0[1..]] + parts[1..];
      assert Join(tailParts, sep) == p0[1..] + [sep] + Join(parts[1..], sep);
      assert s[1..] == Join(tailParts, sep);
      assert forall k :: 0 <= k < |tailParts| ==> sep !in tailParts[k] by {
        forall k | 0 <= k < |tailParts| ensures sep !in tailParts[k] {
          if k == 0 {
            assert forall c :: c in p0[1..] ==> c in p0;
          } else {
            assert tailParts[k] == parts[k];
          }
        }
      }
      SplitJoin(tailParts, sep);
      assert p0 == [p0[0]] + p0[1..];
    }
  }

  /** A string without the separator splits into itself. */
  lemma {:induction false} SplitNoSep(s: string, sep: char)
    requires sep !in s
    ensures Split(s, sep) == [s]
    decreases |s|
  {
    if |s| > 0 {
      assert sep !in s[1..] by {
        assert forall c :: c in s[1..] ==> c in s;
      }
      SplitNoSep(s[1..], sep);
      assert s == [s[0]] + s[1..];
    }
  }

  // ---------------------------------------------------------------------------
  // Last occurrence of a character
  // ---------------------------------------------------------------------------

  /** The index of the last `c` in `s`, if any. */
  function LastIndexOf(s: string, c: char): (r: Wrappers.Option<nat>)
    ensures r.None? <==> c !in s
    ensures r.Some? ==> r.value < |s| && s[r.value] == c
                        && forall j :: r.value < j < |s| ==> s[j] != c
  {
    if |s| == 0 then Wrappers.None
    else if s[|s| - 1] == c then Wrappers.Some(|s| - 1)
    else
      var r := LastIndexOf(s[..|s| - 1], c);
      assert c in s[..|s| - 1] ==> c in s;
      assert c in s ==> c in s[..|s| - 1] by {
        if c in s {
          var i :| 0 <= i < |s| && s[i] == c;
          assert s[..|s| - 1][i] == c;
        }
      }
      r
  }

  // ---------------------------------------------------------------------------
  // Numbers as text
  // ---------------------------------------------------------------------------

  function DigitChar(d: nat): (c: char)
    requires d < 10
    ensures '0' <= c <= '9'
  {
    ('0' as int + d) as char
  }

  predicate IsDigit(c: char) {
    '0' <= c <= '9'
  }

  predicate AllDigits(s: string) {
    forall i :: 0 <= i < |s| ==> IsDigit(s[i])
  }

  /** The value of a run of decimal digits (`parseInt(s, 10)` on digits only). */
  function DecimalValue(s: string): nat
    requires AllDigits(s)
  {
    if |s| == 0 then 0 else 10 * DecimalValue(s[..|s| - 1]) + (s[|s| - 1] as int - '0' as int)
  }

  /** `n.to_string()` / `${n}`: the shortest decimal rendering. */
  function NatToString(n: nat): (r: string)
    ensures |r| >= 1 && AllDigits(r)
    ensures |r| > 1 ==> r[0] != '0'
  {
    if n < 10 then [DigitChar(n)] else NatToString(n / 10) + [DigitChar(n % 10)]
  }

  lemma {:induction false} NatToStringValue(n: nat)
    ensures DecimalValue(NatToString(n)) == n
  {
    if n >= 10 {
      var r := NatToString(n);
      assert r[..|r| - 1] == NatToString(n / 10);
      NatToStringValue(n / 10);
    }
  }

  /** Left-pads with `pad` to at least `width` characters (`{:0w}` formatting). */
  function PadLeft(s: string, width: nat, pad: char): (r: string)
    ensures |s| >= width ==> r == s
    ensures |s| < width ==> |r| == width
    ensures |r| >= |s| && r[|r| - |s|..] == s
    ensures forall i :: 0 <= i < |r| - |s| ==> r[i] == pad
    decreases width
  {
    if |s| >= width then s
    else
      var t := PadLeft(s, width - 1, pad);
      var r := [pad] + t;
      assert |t| == width - 1 by {
        if |s| >= width - 1 {
          assert t == s;
        }
      }
      assert r[|r| - |s|..] == t[|t| - |s|..];
      assert forall i :: 1 <= i < |r| ==> r[i] == t[i - 1];
      r
  }

  /** A number zero-padded to at least `width` digits. */
  function ZeroPad(n: nat, width: nat): (r: string)
    ensures AllDigits(r)
    ensures |r| >= width
  {
    PadDigits(NatToString(n), width);
    PadLeft(NatToString(n), width, '0')
  }

  lemma {:induction false} LeadingZeros(s: string)
    requires AllDigits(s)
    ensures DecimalValue(['0'] + s) == DecimalValue(s)
    decreases |s|
  {
    if |s| > 0 {
      var t := ['0'] + s;
      assert t[..|t| - 1] == ['0'] + s[..|s| - 1];
      LeadingZeros(s[..|s| - 1]);
    }
  }

  /** Zero padding keeps a digit string a digit string. */
  lemma PadDigits(s: string, width: nat)
    requires AllDigits(s)
    ensures AllDigits(PadLeft(s, width, '0'))
  {
    var r := PadLeft(s, width, '0');
    var k := |r| - |s|;
    forall i | 0 <= i < |r| ensures IsDigit(r[i]) {
      if i >= k {
        assert r[i] == r[k..][i - k];
      }
    }
  }

  function Zeros(k: nat): (r: string)
    ensures |r| == k
  {
    if k == 0 then "" else ['0'] + Zeros(k - 1)
  }

  /** Padding puts `width - |s|` zeros in front. */
  lemma {:induction false} PadIsZeros(s: string, width: nat)
    ensures PadLeft(s, width, '0') == Zeros(if |s| < width then width - |s| else 0) + s
    decreases width
  {
    if |s| < width {
      PadIsZeros(s, width - 1);
    }
  }

  /** Leading zeros do not change the value. */
  lemma {:induction false} ZerosValue(k: nat, s: string)
    requires AllDigits(s)
    ensures AllDigits(Zeros(k) + s)
    ensures DecimalValue(Zeros(k) + s) == DecimalValue(s)
    decreases k
  {
    if k > 0 {
      var t := Zeros(k - 1) + s;
      ZerosValue(k - 1, s);
      assert Zeros(k) + s == ['0'] + t;
      assert AllDigits(['0'] + t) by {
        forall i | 0 <= i < |t| + 1 ensures IsDigit((['0'] + t)[i]) {
          if i > 0 {
            assert (['0'] + t)[i] == t[i - 1];
          }
        }
      }
      LeadingZeros(t);
      var u := Zeros(k) + s;
      assert u == ['0'] + t;
      assert DecimalValue(u) == DecimalValue(['0'] + t);
    } else {
      assert Zeros(k) + s == s;
    }
  }

  lemma PadValue(s: string, width: nat)
    requires AllDigits(s)
    ensures DecimalValue(PadLeft(s, width, '0')) == DecimalValue(s)
  {
    PadIsZeros(s, width);
    ZerosValue(if |s| < width then width - |s| else 0, s);
  }

  lemma ZeroPadValue(n: nat, width: nat)
    ensures DecimalValue(ZeroPad(n, width)) == n
  {
    NatToStringValue(n);
    PadValue(NatToString(n), width);
  }

  /** A small number in exactly `width` digits. */
  lemma ZeroPadWidth(n: nat, width: nat)
    requires width >= 1
    requires n < Pow10(width)
    ensures |ZeroPad(n, width)| == width
  {
    NatToStringLength(n, width);
  }

  function Pow10(k: nat): (r: nat)
    ensures r >= 1
  {
    if k == 0 then 1 else 10 * Pow10(k - 1)
  }

  lemma {:induction false} NatToStringLength(n: nat, width: nat)
    requires width >= 1
    requires n < Pow10(width)
    ensures |NatToString(n)| <= width
    decreases width
  {
    if n >= 10 {
      assert width >= 2;
      NatToStringLength(n / 10, width - 1);
    }
  }

  // Hexadecimal, fixed width, lowercase.

  function HexChar(d: nat): (c: char)
    requires d < 16
    ensures IsLowerHex(c)
  {
    if d < 10 then ('0' as int + d) as char else ('a' as int + d - 10) as char
  }

  predicate IsLowerHex(c: char) {
    '0' <= c <= '9' || 'a' <= c <= 'f'
  }

  function HexValue(c: char): (d: nat)
    requires IsLowerHex(c)
    ensures d < 16
  {
    if c <= '9' then c as int - '0' as int else c as int - 'a' as int + 10
  }

  function Pow16(k: nat): (r: nat)
    ensures r >= 1
  {
    if k == 0 then 1 else 16 * Pow16(k - 1)
  }

  /** `{:0wx}` of a number that fits in `width` hex digits: the low `width`
      digits of `n`, most significant first. */
  function HexDigits(n: nat, width: nat): (r: string)
    ensures |r| == width
    ensures forall i :: 0 <= i < |r| ==> IsLowerHex(r[i])
  {
    if width == 0 then "" else HexDigits(n / 16, width - 1) + [HexChar(n % 16)]
  }

  predicate AllLowerHex(s: string) {
    forall i :: 0 <= i < |s| ==> IsLowerHex(s[i])
  }

  function ParseHex(s: string): nat
    requires AllLowerHex(s)
  {
    if |s| == 0 then 0 else 16 * ParseHex(s[..|s| - 1]) + HexValue(s[|s| - 1])
  }

  /** Reading the digits back gives the number, when it fits in `width` digits. */
  lemma {:induction false} HexRoundTrip(n: nat, width: nat)
    requires n < Pow16(width)
    ensures ParseHex(HexDigits(n, width)) == n
    decreases width
  {
    if width > 0 {
      var r := HexDigits(n, width);
      assert r[..|r| - 1] == HexDigits(n / 16, width - 1);
      HexRoundTrip(n / 16, width - 1);
      assert HexValue(HexChar(n % 16)) == n % 16;
    }
  }
}

=== FILE: terminal_sessions.dfy ===
/** The multi-session terminal of the desktop app: a module-wide map from key to
    session plus the key of the session in the foreground, the helpers that
    create, show, kill, spawn and destroy sessions, the pty exit callback, and
    the effect that reacts to a change of selected worktree or agent.

    The pty, the xterm.js terminal and the DOM container are not modelled; a
    pty is an opaque handle number, the container is a visibility flag, and
    the event subscriptions a session owns are counted. Handles are drawn
    from a counter so that every successful spawn yields a handle no other
    session holds. */
module TerminalSessions {

  import opened Wrappers

  type HandleId = nat

  datatype Status = Running | Exited

  datatype Session = Session(
    key: string,
    worktreePath: string,
    agentId: string,
    pty: Option<HandleId>,
    status: Status,
    disposers: nat,   // number of live subscriptions (pty data, pty exit, input, resize)
    visible: bool     // the container is displayed
  )

  /** The module state: `sessions`, `activeSessionKey`, and the next fresh handle. */
  datatype Registry = Registry(
    sessions: map<string, Session>,
    activeKey: Option<string>,
    nextHandle: HandleId
  )

  /** Subscriptions registered by one successful spawn. */
  const SpawnDisposers: nat := 4

  const EmptyRegistry := Registry(map[], None, 0)

  // ---------------------------------------------------------------------------
  // Invariants
  // ---------------------------------------------------------------------------

  /** A session holds a pty exactly when it is running; a running session owns
      the four subscriptions of its spawn; otherwise it owns all four or none. */
  predicate SessionOk(s: Session) {
    && (s.pty.Some? <==> s.status == Running)
    && (s.status == Running ==> s.disposers == SpawnDisposers)
    && (s.disposers == 0 || s.disposers == SpawnDisposers)
  }

  predicate Inv(reg: Registry) {
    // sessions are stored under their own key, which is their worktree path
    && (forall k :: k in reg.sessions ==>
          reg.sessions[k].key == k && reg.sessions[k].worktreePath == k && SessionOk(reg.sessions[k]))
    // only the active session's container can be visible
    && (forall k :: k in reg.sessions && reg.sessions[k].visible ==> reg.activeKey == Some(k))
    // every held handle was issued, and no two sessions share one
    && (forall k :: k in reg.sessions && reg.sessions[k].pty.Some? ==>
          reg.sessions[k].pty.value < reg.nextHandle)
    && (forall k1, k2 ::
          (k1 in reg.sessions && k2 in reg.sessions && k1 != k2 && reg.sessions[k1].pty.Some?) ==>
            reg.sessions[k1].pty != reg.sessions[k2].pty)
  }

  lemma EmptyInv()
    ensures Inv(EmptyRegistry)
  {
  }

  // ---------------------------------------------------------------------------
  // Session-level helpers
  // ---------------------------------------------------------------------------

  /** `createSession`'s record: no agent, no pty, exited, no subscriptions, hidden. */
  function NewSession(worktreePath: string): (s: Session)
    ensures s.key == worktreePath && s.worktreePath == worktreePath && s.agentId == ""
    ensures s.pty.None? && s.status == Exited && s.disposers == 0 && !s.visible
    ensures SessionOk(s)
  {
    Session(worktreePath, worktreePath, "", None, Exited, 0, false)
  }

  /** `killSessionPty`: dispose every subscription, kill and drop the pty if
      any, and mark the session exited. */
  function KillSessionPty(s: Session): (r: Session)
    ensures r.disposers == 0 && r.pty.None? && r.status == Exited
    ensures r.key == s.key && r.worktreePath == s.worktreePath
    ensures r.agentId == s.agentId && r.visible == s.visible
    ensures SessionOk(r)
  {
    s.(disposers := 0, pty := None, status := Exited)
  }

  /** A new session holds nothing to kill: killing it changes nothing. */
  lemma KillNewSession(worktreePath: string)
    ensures KillSessionPty(NewSession(worktreePath)) == NewSession(worktreePath)
  {
  }

  /** A second kill changes nothing. */
  lemma KillIdempotent(s: Session)
    ensures KillSessionPty(KillSessionPty(s)) == KillSessionPty(s)
  {
  }

  /** `spawnInSession`: kill what runs, record the agent, then either hold the
      new pty with its four subscriptions (`spawned == Some(h)`) or stay
      exited when `spawn` throws (`spawned == None`). */
  function SpawnInSession(s: Session, agentId: string, spawned: Option<HandleId>): (r: Session)
    ensures r.agentId == agentId
    ensures r.key == s.key && r.worktreePath == s.worktreePath && r.visible == s.visible
    ensures spawned.Some? ==> r.pty == spawned && r.status == Running && r.disposers == SpawnDisposers
    ensures spawned.None? ==> r.pty.None? && r.status == Exited && r.disposers == 0
    ensures SessionOk(r)
  {
    var killed := KillSessionPty(s).(agentId := agentId);
    match spawned
    case Some(h) => killed.(pty := Some(h), status := Running, disposers := SpawnDisposers)
    case None => killed.(status := Exited)
  }

  /** The pty `onExit` callback of handle `h`: it writes the exit line and,
      only if `h` is still the session's pty, drops it and marks the session
      exited. The subscriptions are left in place. */
  function OnExit(s: Session, h: HandleId): (r: Session)
    ensures s.pty == Some(h) ==> r.pty.None? && r.status == Exited
    ensures s.pty != Some(h) ==> r == s
    ensures r.key == s.key && r.agentId == s.agentId && r.disposers == s.disposers && r.visible == s.visible
    ensures SessionOk(s) ==> SessionOk(r)
  {
    if s.pty == Some(h) then s.(pty := None, status := Exited) else s
  }

  /** A natural exit leaves the four subscriptions registered: a session can be
      exited while still owning subscriptions. */
  lemma ExitKeepsDisposers(s: Session, h: HandleId)
    requires s.pty == Some(h) && SessionOk(s)
    ensures OnExit(s, h).status == Exited && OnExit(s, h).disposers == SpawnDisposers
  {
  }

  // ---------------------------------------------------------------------------
  // Registry-level operations
  // ---------------------------------------------------------------------------

  /** `createSession(worktreePath)`: a fresh hidden session stored under its
      worktree path; the active key and the other sessions are untouched. */
  function CreateSession(reg: Registry, worktreePath: string): (r: Registry)
    ensures worktreePath in r.sessions
    ensures r.sessions[worktreePath] == Session(worktreePath, worktreePath, "", None, Exited, 0, false)
    ensures r.sessions.Keys == reg.sessions.Keys + {worktreePath}
    ensures forall k :: k in reg.sessions && k != worktreePath ==> r.sessions[k] == reg.sessions[k]
    ensures r.activeKey == reg.activeKey && r.nextHandle == reg.nextHandle
  {
    reg.(sessions := reg.sessions[worktreePath := NewSession(worktreePath)])
  }

  /** `showSession(key)`: exactly the session under `key` is visible and
      `key` becomes active, whether or not a session exists for it. */
  function ShowSession(reg: Registry, key: string): (r: Registry)
    ensures r.activeKey == Some(key)
    ensures r.sessions.Keys == reg.sessions.Keys
    ensures forall k :: k in r.sessions ==> (r.sessions[k].visible <==> k == key)
    ensures forall k :: k in r.sessions ==> r.sessions[k] == reg.sessions[k].(visible := r.sessions[k].visible)
    ensures r.nextHandle == reg.nextHandle
  {
    Registry(map k | k in reg.sessions :: reg.sessions[k].(visible := k == key), Some(key), reg.nextHandle)
  }

  /** `spawnInSession` on the session stored under `key`; a successful spawn
      takes the next fresh handle. */
  function SpawnIn(reg: Registry, key: string, agentId: string, succeeded: bool): (r: Registry)
    requires key in reg.sessions
    ensures r.sessions.Keys == reg.sessions.Keys
    ensures r.sessions[key] == SpawnInSession(reg.sessions[key], agentId,
                                              if succeeded then Some(reg.nextHandle) else None)
    ensures forall k :: k in reg.sessions && k != key ==> r.sessions[k] == reg.sessions[k]
    ensures r.activeKey == reg.activeKey
    ensures r.nextHandle == if succeeded then reg.nextHandle + 1 else reg.nextHandle
  {
    var spawned := if succeeded then Some(reg.nextHandle) else None;
    Registry(reg.sessions[key := SpawnInSession(reg.sessions[key], agentId, spawned)],
             reg.activeKey,
             if succeeded then reg.nextHandle + 1 else reg.nextHandle)
  }

  /** The exit callback of handle `h`, registered on the session under `key`.
      A session no longer in the map is not observable. */
  function ExitIn(reg: Registry, key: string, h: HandleId): (r: Registry)
    ensures r.sessions.Keys == reg.sessions.Keys && r.activeKey == reg.activeKey
    ensures r.nextHandle == reg.nextHandle
    ensures key in reg.sessions ==> r.sessions[key] == OnExit(reg.sessions[key], h)
    ensures forall k :: k in reg.sessions && k != key ==> r.sessions[k] == reg.sessions[k]
  {
    if key in reg.sessions then reg.(sessions := reg.sessions[key := OnExit(reg.sessions[key], h)])
    else reg
  }

  /** `destroySession(key)`: an unknown key changes nothing; a known key is
      killed and removed, and stops being active if it was. */
  function DestroySession(reg: Registry, key: string): (r: Registry)
    ensures key !in reg.sessions ==> r == reg
    ensures key in reg.sessions ==> r.sessions.Keys == reg.sessions.Keys - {key}
    ensures key in reg.sessions ==> r.activeKey == (if reg.activeKey == Some(key) then None else reg.activeKey)
    ensures forall k :: k in r.sessions ==> k in reg.sessions && r.sessions[k] == reg.sessions[k]
    ensures r.nextHandle == reg.nextHandle
  {
    if key !in reg.sessions then reg
    else
      Registry(reg.sessions - {key},
               if reg.activeKey == Some(key) then None else reg.activeKey,
               reg.nextHandle)
  }

  /** Destroying twice is destroying once. */
  lemma DestroyIdempotent(reg: Registry, key: string)
    ensures DestroySession(DestroySession(reg, key), key) == DestroySession(reg, key)
  {
  }

  /** The registry after every session has been destroyed. */
  function Cleared(reg: Registry): Registry {
    Registry(map[],
             if reg.activeKey.Some? && reg.activeKey.value in reg.sessions then None else reg.activeKey,
             reg.nextHandle)
  }

  /** `destroyAllSessions`: `destroySession` on every key in turn. The map
      ends empty and the active key is cleared iff it named a session. */
  method DestroyAllSessions(reg: Registry) returns (r: Registry)
    ensures r.sessions == map[]
    ensures r.activeKey == (if reg.activeKey.Some? && reg.activeKey.value in reg.sessions then None
                            else reg.activeKey)
    ensures r.nextHandle == reg.nextHandle
    ensures r == Cleared(reg)
  {
    r := reg;
    var keys := reg.sessions.Keys;
    while keys != {}
      invariant keys == r.sessions.Keys
      invariant r.sessions.Keys <= reg.sessions.Keys
      invariant r.activeKey == (if reg.activeKey.Some? && reg.activeKey.value in reg.sessions
                                   && reg.activeKey.value !in r.sessions then None
                                else reg.activeKey)
      invariant r.nextHandle == reg.nextHandle
      decreases keys
    {
      var k :| k in keys;
      r := DestroySession(r, k);
      keys := keys - {k};
    }
  }

  // ---------------------------------------------------------------------------
  // Invariant preservation
  // ---------------------------------------------------------------------------

  lemma CreatePreservesInv(reg: Registry, worktreePath: string)
    requires Inv(reg)
    ensures Inv(CreateSession(reg, worktreePath))
  {
  }

  lemma ShowPreservesInv(reg: Registry, key: string)
    requires Inv(reg)
    ensures Inv(ShowSession(reg, key))
  {
  }

  lemma SpawnPreservesInv(reg: Registry, key: string, agentId: string, succeeded: bool)
    requires Inv(reg) && key in reg.sessions
    ensures Inv(SpawnIn(reg, key, agentId, succeeded))
  {
    var r := SpawnIn(reg, key, agentId, succeeded);
    forall k1, k2 | k1 in r.sessions && k2 in r.sessions && k1 != k2 && r.sessions[k1].pty.Some?
      ensures r.sessions[k1].pty != r.sessions[k2].pty
    {
      if k1 == key || k2 == key {
        // the fresh handle is above every handle held elsewhere
      }
    }
  }

  lemma ExitPreservesInv(reg: Registry, key: string, h: HandleId)
    requires Inv(reg)
    ensures Inv(ExitIn(reg, key, h))
  {
  }

  lemma DestroyPreservesInv(reg: Registry, key: string)
    requires Inv(reg)
    ensures Inv(DestroySession(reg, key))
  {
  }

  // ---------------------------------------------------------------------------
  // Stale exit after a respawn
  // ---------------------------------------------------------------------------

  /** After a successful respawn of the session under `key`, the exit of the
      pty it held before touches neither its new pty nor its status. */
  lemma StaleExitAfterRespawn(reg: Registry, key: string, agentId: string)
    requires Inv(reg) && key in reg.sessions && reg.sessions[key].pty.Some?
    ensures var old_h := reg.sessions[key].pty.value;
            var after := SpawnIn(reg, key, agentId, true);
            var exited := ExitIn(after, key, old_h);
            exited.sessions[key] == after.sessions[key]
            && exited.sessions[key].status == Running
            && exited.sessions[key].pty == Some(reg.nextHandle)
  {
  }

  // ---------------------------------------------------------------------------
  // The selection effect
  // ---------------------------------------------------------------------------

  /** What the effect does once it has a worktree key and a known agent. */
  datatype Decision =
    | CreateAndSpawn          // no session yet: create, show, spawn
    | RestoreAgent(agentId: string)  // show, and hand the session's agent back to the store
    | Respawn                 // show, then spawn the selected agent again
    | ShowOnly                // show only

  function Decide(existing: Option<Session>, worktreeChanged: bool, selectedAgentId: string): (d: Decision)
    ensures existing.None? <==> d == CreateAndSpawn
    ensures d.RestoreAgent? <==>
              existing.Some? && worktreeChanged && existing.value.agentId != ""
              && existing.value.agentId != selectedAgentId
    ensures d.RestoreAgent? ==> d.agentId == existing.value.agentId
    ensures d == Respawn <==>
              existing.Some? && !d.RestoreAgent?
              && (existing.value.agentId != selectedAgentId || existing.value.pty.None?)
  {
    match existing
    case None => CreateAndSpawn
    case Some(s) =>
      if worktreeChanged && s.agentId != "" && s.agentId != selectedAgentId then RestoreAgent(s.agentId)
      else if s.agentId != selectedAgentId || s.pty.None? then Respawn
      else ShowOnly
  }

  /** The component's view: the registry, the last worktree path it saw, and the
      store's `selectedAgentId`. */
  datatype Controller = Controller(reg: Registry, prevWorktreePath: Option<string>, selectedAgentId: string)

  function Lookup(reg: Registry, key: string): Option<Session> {
    if key in reg.sessions then Some(reg.sessions[key]) else None
  }

  /** One run of the selection effect. `worktree` is the selected worktree's
      path, `agentKnown` whether the selected agent id is in the agent list,
      `spawnOk` whether `spawn` would succeed. Without a worktree or a known
      agent the run returns before recording the worktree path. */
  function SelectionEffect(c: Controller, worktree: Option<string>, agentKnown: bool, spawnOk: bool): (r: Controller)
    ensures worktree.None? || !agentKnown ==> r == c
    ensures worktree.Some? && agentKnown ==>
              r.prevWorktreePath == worktree && r.reg.activeKey == worktree
              && worktree.value in r.reg.sessions
  {
    if worktree.None? || !agentKnown then c
    else
      var key := worktree.value;
      var changed := c.prevWorktreePath != Some(key);
      var reg := c.reg;
      match Decide(Lookup(reg, key), changed, c.selectedAgentId)
      case CreateAndSpawn =>
        var shown := ShowSession(CreateSession(reg, key), key);
        Controller(SpawnIn(shown, key, c.selectedAgentId, spawnOk), Some(key), c.selectedAgentId)
      case RestoreAgent(a) =>
        Controller(ShowSession(reg, key), Some(key), a)
      case Respawn =>
        Controller(SpawnIn(ShowSession(reg, key), key, c.selectedAgentId, spawnOk), Some(key), c.selectedAgentId)
      case ShowOnly =>
        Controller(ShowSession(reg, key), Some(key), c.selectedAgentId)
  }

  /** First visit: a session is created for the worktree path, shown, and the
      selected agent spawned in it. */
  lemma FirstVisitSpawns(c: Controller, path: string, spawnOk: bool)
    requires path !in c.reg.sessions
    ensures var r := SelectionEffect(c, Some(path), true, spawnOk);
            && r.reg.sessions[path].agentId == c.selectedAgentId
            && r.reg.sessions[path].visible
            && (r.reg.sessions[path].status == Running <==> spawnOk)
            && r.reg.sessions.Keys == c.reg.sessions.Keys + {path}
  {
  }

  /** Coming back to a worktree whose session runs another agent only hands
      that agent back to the store; the session is left as it was apart from
      being shown. */
  lemma SwitchBackRestoresAgent(c: Controller, path: string, spawnOk: bool)
    requires path in c.reg.sessions && c.prevWorktreePath != Some(path)
    requires c.reg.sessions[path].agentId != "" && c.reg.sessions[path].agentId != c.selectedAgentId
    ensures var r := SelectionEffect(c, Some(path), true, spawnOk);
            && r.selectedAgentId == c.reg.sessions[path].agentId
            && r.reg.sessions[path] == c.reg.sessions[path].(visible := true)
            && r.reg.nextHandle == c.reg.nextHandle
  {
  }

  /** Re-selecting a worktree whose pty has exited respawns it, even when the
      agent did not change (the restore branch aside). */
  lemma ExitedSessionRespawns(c: Controller, path: string, spawnOk: bool)
    requires path in c.reg.sessions && c.reg.sessions[path].pty.None?
    requires c.reg.sessions[path].agentId == c.selectedAgentId
    ensures var r := SelectionEffect(c, Some(path), true, spawnOk);
            && r.reg.sessions[path].agentId == c.selectedAgentId
            && (r.reg.sessions[path].status == Running <==> spawnOk)
  {
  }

  /** After the restore branch hands the session's agent to the store, the
      store change re-runs the effect on the same worktree; that run respawns
      exactly when the session has no pty. */
  lemma RestoreThenRerun(c: Controller, path: string, spawnOk: bool)
    requires Inv(c.reg)
    requires path in c.reg.sessions && c.prevWorktreePath != Some(path)
    requires c.reg.sessions[path].agentId != "" && c.reg.sessions[path].agentId != c.selectedAgentId
    ensures var r1 := SelectionEffect(c, Some(path), true, spawnOk);
            var r2 := SelectionEffect(r1, Some(path), true, spawnOk);
            (r2.reg.nextHandle != r1.reg.nextHandle || r2.reg.sessions[path] != r1.reg.sessions[path])
            <==> (c.reg.sessions[path].pty.None? && (spawnOk || c.reg.sessions[path].disposers != 0))
  {
    var r1 := SelectionEffect(c, Some(path), true, spawnOk);
    assert r1.reg.sessions[path] == c.reg.sessions[path].(visible := true);
  }

  /** A running session with the selected agent is only shown. */
  lemma RunningSameAgentShowsOnly(c: Controller, path: string, spawnOk: bool)
    requires path in c.reg.sessions && c.reg.sessions[path].pty.Some?
    requires c.reg.sessions[path].agentId == c.selectedAgentId
    ensures SelectionEffect(c, Some(path), true, spawnOk).reg == ShowSession(c.reg, path)
  {
  }

  /** The "heroi:respawn-agent" handler: respawn the selected agent in the
      selected worktree's session, if both exist. */
  function RespawnRequested(c: Controller, worktree: Option<string>, agentKnown: bool, spawnOk: bool): (r: Controller)
    ensures worktree.None? || !agentKnown || worktree.value !in c.reg.sessions ==> r == c
    ensures worktree.Some? && agentKnown && worktree.value in c.reg.sessions ==>
              worktree.value in r.reg.sessions
              && r.reg.sessions[worktree.value].agentId == c.selectedAgentId
              && (r.reg.sessions[worktree.value].status == Running <==> spawnOk)
              && r.reg.activeKey == c.reg.activeKey
  {
    if worktree.None? || worktree.value !in c.reg.sessions || !agentKnown then c
    else c.(reg := SpawnIn(c.reg, worktree.value, c.selectedAgentId, spawnOk))
  }

  // ---------------------------------------------------------------------------
  // Signals reaching the registry, one at a time
  // ---------------------------------------------------------------------------

  datatype Signal =
    | SelectWorktree(worktree: Option<string>, agentKnown: bool, spawnOk: bool)
    | RespawnAgent(worktree: Option<string>, agentKnown: bool, spawnOk: bool)
    | PtyExit(key: string, handle: HandleId)
    /** The tab bar's close handler calls `destroySession` with the tab id.
        `destroySession` is not exported, so the handler's import does not
        resolve as written; this signal takes the call as if it did. */
    | CloseTab(tabId: string)
    | Unmount

  /** One event handler of the terminal component. Only the selection effect
      records a worktree path or hands an agent back to the store; an exit
      keeps the set of sessions, closing a tab drops that tab's session, and
      unmounting drops every session. */
  function Step(c: Controller, sig: Signal): (r: Controller)
    ensures !sig.SelectWorktree? ==> r.selectedAgentId == c.selectedAgentId
    ensures !sig.SelectWorktree? ==> r.prevWorktreePath == c.prevWorktreePath
    ensures sig.PtyExit? ==> r.reg.sessions.Keys == c.reg.sessions.Keys
    ensures sig.CloseTab? ==> r.reg.sessions.Keys == c.reg.sessions.Keys - {sig.tabId}
    ensures sig.Unmount? ==> r.reg.sessions == map[] && r.reg.nextHandle == c.reg.nextHandle
  {
    match sig
    case SelectWorktree(w, known, ok) => SelectionEffect(c, w, known, ok)
    case RespawnAgent(w, known, ok) => RespawnRequested(c, w, known, ok)
    case PtyExit(key, h) => c.(reg := ExitIn(c.reg, key, h))
    case CloseTab(tabId) => c.(reg := DestroySession(c.reg, tabId))
    case Unmount => c.(reg := Cleared(c.reg))
  }

  function Run(c: Controller, signals: seq<Signal>): Controller
    decreases |signals|
  {
    if |signals| == 0 then c else Run(Step(c, signals[0]), signals[1..])
  }

  lemma StepPreservesInv(c: Controller, sig: Signal)
    requires Inv(c.reg)
    ensures Inv(Step(c, sig).reg)
  {
    match sig
    case SelectWorktree(w, known, ok) =>
      if w.Some? && known {
        var key := w.value;
        var changed := c.prevWorktreePath != Some(key);
        match Decide(Lookup(c.reg, key), changed, c.selectedAgentId)
        case CreateAndSpawn =>
          CreatePreservesInv(c.reg, key);
          ShowPreservesInv(CreateSession(c.reg, key), key);
          SpawnPreservesInv(ShowSession(CreateSession(c.reg, key), key), key, c.selectedAgentId, ok);
        case RestoreAgent(_) =>
          ShowPreservesInv(c.reg, key);
        case Respawn =>
          ShowPreservesInv(c.reg, key);
          SpawnPreservesInv(ShowSession(c.reg, key), key, c.selectedAgentId, ok);
        case ShowOnly =>
          ShowPreservesInv(c.reg, key);
      }
    case RespawnAgent(w, known, ok) =>
      if w.Some? && known && w.value in c.reg.sessions {
        SpawnPreservesInv(c.reg, w.value, c.selectedAgentId, ok);
      }
    case PtyExit(key, h) => ExitPreservesInv(c.reg, key, h);
    case CloseTab(tabId) => DestroyPreservesInv(c.reg, tabId);
    case Unmount =>
  }

  /** Every sequence of signals from any state satisfying the invariant keeps
      it: pty held iff running, one visible session at most, exclusive handles. */
  lemma {:induction false} RunPreservesInv(c: Controller, signals: seq<Signal>)
    requires Inv(c.reg)
    ensures Inv(Run(c, signals).reg)
    decreases |signals|
  {
    if |signals| > 0 {
      StepPreservesInv(c, signals[0]);
      RunPreservesInv(Step(c, signals[0]), signals[1..]);
    }
  }

  /** Closing a tab passes the tab id where a worktree path is expected: unless
      some worktree path equals the tab id, no session is destroyed and every
      pty keeps running. */
  lemma CloseTabLeavesSessions(c: Controller, tabId: string)
    requires tabId !in c.reg.sessions
    ensures Step(c, CloseTab(tabId)) == c
  {
  }
}

=== FILE: terminal_store.dfy ===
/** The front end's list of pty sessions per workspace and the active session
    id. */
module TerminalStore {

  import opened Wrappers
  import Seqs

  datatype PtyStatus = PtyRunning | PtyExited

  datatype PtySession = PtySession(
    id: string,
    workspaceId: string,
    worktreePath: string,
    agentId: string,
    pid: int,
    status: PtyStatus
  )

  datatype State = State(sessions: map<string, seq<PtySession>>, activeSessionId: Option<string>)

  const Initial := State(map[], None)

  /** `getSessionsForWorkspace`: the workspace's sessions, or none for an
      unknown workspace. */
  function SessionsFor(s: State, workspaceId: string): (r: seq<PtySession>)
    ensures workspaceId !in s.sessions ==> r == []
    ensures workspaceId in s.sessions ==> r == s.sessions[workspaceId]
  {
    if workspaceId in s.sessions then s.sessions[workspaceId] else []
  }

  /** `addSession`: append to the workspace's list and make it active. */
  function AddSession(s: State, workspaceId: string, session: PtySession): (r: State)
    ensures SessionsFor(r, workspaceId) == SessionsFor(s, workspaceId) + [session]
    ensures forall w :: w != workspaceId ==> SessionsFor(r, w) == SessionsFor(s, w)
    ensures r.activeSessionId == Some(session.id)
  {
    State(s.sessions[workspaceId := SessionsFor(s, workspaceId) + [session]], Some(session.id))
  }

  function IdIsNot(id: string): PtySession -> bool {
    (p: PtySession) => p.id != id
  }

  /** `removeSession`: drop the sessions with that id from that workspace; the
      active id is cleared only when it was the removed one. */
  function RemoveSession(s: State, workspaceId: string, sessionId: string): (r: State)
    ensures SessionsFor(r, workspaceId) == Seqs.Filter(SessionsFor(s, workspaceId), IdIsNot(sessionId))
    ensures forall i :: 0 <= i < |SessionsFor(r, workspaceId)| ==> SessionsFor(r, workspaceId)[i].id != sessionId
    ensures forall i :: 0 <= i < |SessionsFor(s, workspaceId)| && SessionsFor(s, workspaceId)[i].id != sessionId
              ==> SessionsFor(s, workspaceId)[i] in SessionsFor(r, workspaceId)
    ensures forall w :: w != workspaceId ==> SessionsFor(r, w) == SessionsFor(s, w)
    ensures r.activeSessionId == if s.activeSessionId == Some(sessionId) then None else s.activeSessionId
  {
    var kept := Seqs.Filter(SessionsFor(s, workspaceId), IdIsNot(sessionId));
    assert forall i :: 0 <= i < |kept| ==> IdIsNot(sessionId)(kept[i]);
    State(s.sessions[workspaceId := kept],
          if s.activeSessionId == Some(sessionId) then None else s.activeSessionId)
  }

  /** `setActiveSession`. */
  function SetActiveSession(s: State, id: Option<string>): (r: State)
    ensures r.activeSessionId == id && r.sessions == s.sessions
  {
    s.(activeSessionId := id)
  }

  function HasId(id: string): PtySession -> bool {
    (p: PtySession) => p.id == id
  }

  function WithStatus(status: PtyStatus): PtySession -> PtySession {
    (p: PtySession) => p.(status := status)
  }

  /** `updateSessionStatus`: only the status of the sessions with that id
      changes; length and order of the list are kept. */
  function UpdateSessionStatus(s: State, workspaceId: string, sessionId: string, status: PtyStatus): (r: State)
    ensures |SessionsFor(r, workspaceId)| == |SessionsFor(s, workspaceId)|
    ensures forall i :: 0 <= i < |SessionsFor(s, workspaceId)| ==>
              var before := SessionsFor(s, workspaceId)[i];
              var after := SessionsFor(r, workspaceId)[i];
              after.(status := before.status) == before
              && after.status == (if before.id == sessionId then status else before.status)
    ensures forall w :: w != workspaceId ==> SessionsFor(r, w) == SessionsFor(s, w)
    ensures r.activeSessionId == s.activeSessionId
  {
    s.(sessions := s.sessions[workspaceId := Seqs.UpdateWhere(SessionsFor(s, workspaceId), HasId(sessionId), WithStatus(status))])
  }

  function IsRunning(p: PtySession): bool {
    p.status == PtyRunning
  }

  /** `hasRunningSession`: some session of the workspace is running. */
  function HasRunningSession(s: State, workspaceId: string): (r: bool)
    ensures r <==> exists i :: 0 <= i < |SessionsFor(s, workspaceId)| && SessionsFor(s, workspaceId)[i].status == PtyRunning
  {
    Seqs.Any(SessionsFor(s, workspaceId), IsRunning)
  }

  /** Marking the only sessions that are running as exited leaves the
      workspace with none running. */
  lemma ExitingAllRunning(s: State, workspaceId: string, sessionId: string)
    requires forall i :: 0 <= i < |SessionsFor(s, workspaceId)| && SessionsFor(s, workspaceId)[i].status == PtyRunning
               ==> SessionsFor(s, workspaceId)[i].id == sessionId
    ensures !HasRunningSession(UpdateSessionStatus(s, workspaceId, sessionId, PtyExited), workspaceId)
  {
  }

  /** A session just added as running makes the workspace have a running
      session. */
  lemma AddRunningSession(s: State, workspaceId: string, session: PtySession)
    requires session.status == PtyRunning
    ensures HasRunningSession(AddSession(s, workspaceId, session), workspaceId)
  {
    var r := AddSession(s, workspaceId, session);
    assert SessionsFor(r, workspaceId)[|SessionsFor(s, workspaceId)|] == session;
  }

  /** Removing a session just added under a fresh id restores the workspace's
      list. */
  lemma {:induction false} RemoveUndoesAdd(s: State, workspaceId: string, session: PtySession)
    requires forall i :: 0 <= i < |SessionsFor(s, workspaceId)| ==> SessionsFor(s, workspaceId)[i].id != session.id
    ensures SessionsFor(RemoveSession(AddSession(s, workspaceId, session), workspaceId, session.id), workspaceId)
            == SessionsFor(s, workspaceId)
  {
    var before := SessionsFor(s, workspaceId);
    Seqs.FilterAppend(before, [session], IdIsNot(session.id));
    Seqs.FilterAll(before, IdIsNot(session.id));
    assert Seqs.Filter([session], IdIsNot(session.id)) == [];
  }
}

=== FILE: timestamp.dfy ===
/** The backend's hand-made timestamp: epoch seconds to "YYYY-MM-DDTHH:MM:SSZ"
    (the date-time form of section 5.6 of RFC 3339) by walking whole years
    from 1970 and then whole months under the Gregorian leap rule. The clock
    reading is a parameter. */
module Timestamp {

  import opened Strings

  const EpochYear: int := 1970

  /** `is_leap`, the Gregorian rule: every fourth year, except century
      years, except every fourth century. */
  function IsLeap(y: int): (b: bool)
    ensures b ==> y % 4 == 0
    ensures y % 4 == 0 && y % 100 != 0 ==> b
    ensures y % 100 == 0 ==> (b <==> y % 400 == 0)
  {
    (y % 4 == 0 && y % 100 != 0) || y % 400 == 0
  }

  /** The leap rule repeats every 400 years. */
  lemma LeapCycle(y: int)
    ensures IsLeap(y + 400) == IsLeap(y)
  {
  }

  function DaysInYear(y: int): (n: nat)
    ensures n == 365 || n == 366
    ensures n == 366 <==> IsLeap(y)
  {
    if IsLeap(y) then 366 else 365
  }

  /** The month lengths the code uses for year `y`. */
  function MonthLengths(y: int): (r: seq<nat>)
    ensures |r| == 12
    ensures forall i :: 0 <= i < 12 ==> 28 <= r[i] <= 31
  {
    [31, if IsLeap(y) then 29 else 28, 31, 30, 31, 30, 31, 31, 30, 31, 30, 31]
  }

  function Sum(s: seq<nat>): nat
    decreases |s|
  {
    if |s| == 0 then 0 else s[0] + Sum(s[1..])
  }

  /** The twelve months fill the year exactly. */
  lemma MonthsFillYear(y: int)
    ensures Sum(MonthLengths(y)) == DaysInYear(y)
  {
    var m := MonthLengths(y);
    assert m[12..] == [];
    SumStep(m, 11); SumStep(m, 10); SumStep(m, 9); SumStep(m, 8);
    SumStep(m, 7); SumStep(m, 6); SumStep(m, 5); SumStep(m, 4);
    SumStep(m, 3); SumStep(m, 2); SumStep(m, 1); SumStep(m, 0);
    assert m[0..] == m;
  }

  lemma SumStep(s: seq<nat>, k: nat)
    requires k < |s|
    ensures Sum(s[k..]) == s[k] + Sum(s[k + 1..])
  {
    assert s[k..][1..] == s[k + 1..];
  }

  /** A prefix and the element after it never exceed the whole. */
  lemma {:induction false} PrefixSum(s: seq<nat>, i: nat)
    requires i < |s|
    ensures Sum(s[..i]) + s[i] <= Sum(s)
    decreases i
  {
    if i == 0 {
      assert s[..0] == [];
    } else {
      assert s[..i][1..] == s[1..][..i - 1];
      PrefixSum(s[1..], i - 1);
    }
  }

  /** Days from 1 January of `from` to 1 January of `to`. */
  function DaysBetween(from: int, to: int): nat
    decreases to - from
  {
    if to <= from then 0 else DaysInYear(from) + DaysBetween(from + 1, to)
  }

  /** The year loop: subtract whole years while the remainder covers one. */
  function SplitYears(y: int, remaining: nat): (r: (int, nat))
    ensures r.0 >= y
    ensures r.1 < DaysInYear(r.0)
    ensures DaysBetween(y, r.0) + r.1 == remaining
    decreases remaining
  {
    if remaining < DaysInYear(y) then (y, remaining)
    else SplitYears(y + 1, remaining - DaysInYear(y))
  }

  /** The month loop: subtract whole months while the remainder covers one;
      returns how many months were passed and the day offset within the next. */
  function SplitMonths(lengths: seq<nat>, remaining: nat): (r: (nat, nat))
    ensures r.0 <= |lengths|
    ensures r.0 < |lengths| ==> r.1 < lengths[r.0]
    ensures Sum(lengths[..r.0]) + r.1 == remaining
    ensures remaining < Sum(lengths) ==> r.0 < |lengths|
    decreases |lengths|
  {
    if |lengths| == 0 || remaining < lengths[0] then
      assert lengths[..0] == [];
      (0, remaining)
    else
      var rest := SplitMonths(lengths[1..], remaining - lengths[0]);
      assert lengths[..rest.0 + 1][1..] == lengths[1..][..rest.0];
      (rest.0 + 1, rest.1)
  }

  /** A calendar date and a time of day, as the loops compute them. */
  datatype Date = Date(year: int, month: nat, day: nat)
  datatype Clock = Clock(hour: nat, minute: nat, second: nat)
  datatype DateTime = DateTime(date: Date, time: Clock)

  /** A date from 1970 on: month 1 to 12, day within the month. */
  predicate ValidDate(d: Date) {
    && d.year >= EpochYear
    && 1 <= d.month <= 12
    && 1 <= d.day <= MonthLengths(d.year)[d.month - 1]
  }

  predicate ValidClock(c: Clock) {
    c.hour < 24 && c.minute < 60 && c.second < 60
  }

  predicate ValidDateTime(dt: DateTime) {
    ValidDate(dt.date) && ValidClock(dt.time)
  }

  /** The year and month loops: the date `days` days after 1 January 1970. */
  function DateOf(days: nat): (d: Date)
    ensures ValidDate(d)
  {
    var ym := SplitYears(EpochYear, days);
    MonthsFillYear(ym.0);
    var md := SplitMonths(MonthLengths(ym.0), ym.1);
    Date(ym.0, md.0 + 1, md.1 + 1)
  }

  /** The hour, minute and second of second `t` of a day. */
  function ClockOf(t: nat): (c: Clock)
    requires t < 86400
    ensures ValidClock(c)
  {
    Clock(t / 3600, (t % 3600) / 60, t % 60)
  }

  /** The calendar fields `now_iso8601` computes from epoch seconds. */
  function ToDateTime(secs: nat): (dt: DateTime)
    ensures ValidDateTime(dt)
  {
    DateTime(DateOf(secs / 86400), ClockOf(secs % 86400))
  }

  /** Days from 1 January 1970 to a date: the reference `DateOf` is checked
      against. */
  function DayNumber(d: Date): nat
    requires ValidDate(d)
  {
    DaysBetween(EpochYear, d.year) + DayOfYear(d)
  }

  /** Days from 1 January of the date's year to the date. */
  function DayOfYear(d: Date): nat
    requires ValidDate(d)
  {
    Sum(MonthLengths(d.year)[..d.month - 1]) + d.day - 1
  }

  function SecondOfDay(c: Clock): nat {
    c.hour * 3600 + c.minute * 60 + c.second
  }

  /** Epoch seconds of a calendar date-time. */
  function FromDateTime(dt: DateTime): nat
    requires ValidDateTime(dt)
  {
    DayNumber(dt.date) * 86400 + SecondOfDay(dt.time)
  }

  /** Any offset inside year `y` is found by the year loop. */
  lemma {:induction false} SplitYearsOf(from: int, y: int, k: nat)
    requires from <= y && k < DaysInYear(y)
    ensures SplitYears(from, DaysBetween(from, y) + k) == (y, k)
    decreases y - from
  {
    if from < y {
      SplitYearsOf(from + 1, y, k);
    }
  }

  /** Any offset inside month `i` is found by the month loop. */
  lemma {:induction false} SplitMonthsOf(lengths: seq<nat>, i: nat, k: nat)
    requires i < |lengths| && k < lengths[i]
    ensures SplitMonths(lengths, Sum(lengths[..i]) + k) == (i, k)
    decreases i
  {
    if i > 0 {
      assert lengths[..i][1..] == lengths[1..][..i - 1];
      SplitMonthsOf(lengths[1..], i - 1, k);
    } else {
      assert lengths[..0] == [];
    }
  }

  /** Counting a date's days and walking them back gives the date again. */
  lemma DateOfDayNumber(d: Date)
    requires ValidDate(d)
    ensures DateOf(DayNumber(d)) == d
  {
    YearLoopOf(d);
    MonthLoopOf(d);
  }

  /** A date's offset in its year is less than the year's length. */
  lemma DayOfYearBound(d: Date)
    requires ValidDate(d)
    ensures DayOfYear(d) < DaysInYear(d.year)
  {
    MonthsFillYear(d.year);
    PrefixSum(MonthLengths(d.year), d.month - 1);
  }

  /** The year loop stops at the date's year with the date's offset in it. */
  lemma YearLoopOf(d: Date)
    requires ValidDate(d)
    ensures SplitYears(EpochYear, DayNumber(d)) == (d.year, DayOfYear(d))
  {
    DayOfYearBound(d);
    SplitYearsOf(EpochYear, d.year, DayOfYear(d));
  }

  /** The month loop stops at the date's month with the day before it. */
  lemma MonthLoopOf(d: Date)
    requires ValidDate(d)
    ensures SplitMonths(MonthLengths(d.year), DayOfYear(d)) == (d.month - 1, d.day - 1)
  {
    var lengths := MonthLengths(d.year);
    var i, k := d.month - 1, d.day - 1;
    assert k < lengths[i];
    SplitMonthsOf(lengths, i, k);
    assert DayOfYear(d) == Sum(lengths[..i]) + k;
  }

  /** The loops account for every day they walk. */
  lemma DayNumberOfDate(days: nat)
    ensures DayNumber(DateOf(days)) == days
  {
  }

  /** The second of the day of a clock reads back as the clock. */
  lemma ClockOfSecondOfDay(c: Clock)
    requires ValidClock(c)
    ensures SecondOfDay(c) < 86400 && ClockOf(SecondOfDay(c)) == c
  {
  }

  /** The clock of a second of the day counts back to that second. */
  lemma SecondOfDayOfClock(t: nat)
    requires t < 86400
    ensures SecondOfDay(ClockOf(t)) == t
  {
  }

  /** Seconds split back into whole days and the second of the day. */
  lemma DayAndTime(days: nat, t: nat)
    requires t < 86400
    ensures (days * 86400 + t) / 86400 == days
    ensures (days * 86400 + t) % 86400 == t
  {
  }

  /** Epoch seconds are whole days plus the second of the day. */
  lemma SplitSeconds(secs: nat)
    ensures secs == (secs / 86400) * 86400 + secs % 86400
  {
  }

  /** Converting to calendar fields loses nothing. */
  lemma ToDateTimeRoundTrip(secs: nat)
    ensures FromDateTime(ToDateTime(secs)) == secs
  {
    DayNumberOfDate(secs / 86400);
    SecondOfDayOfClock(secs % 86400);
    SplitSeconds(secs);
  }

  /** Every valid date-time from 1970 on is the image of its epoch seconds. */
  lemma FromDateTimeRoundTrip(dt: DateTime)
    requires ValidDateTime(dt)
    ensures ToDateTime(FromDateTime(dt)) == dt
  {
    SecondsOfDateTime(dt);
    DateOfDayNumber(dt.date);
    ClockOfSecondOfDay(dt.time);
    ToDateTimeParts(FromDateTime(dt));
  }

  /** The epoch seconds of a date-time divide back into its day number and
      its second of the day. */
  lemma SecondsOfDateTime(dt: DateTime)
    requires ValidDateTime(dt)
    ensures FromDateTime(dt) / 86400 == DayNumber(dt.date)
    ensures FromDateTime(dt) % 86400 == SecondOfDay(dt.time)
  {
    ClockOfSecondOfDay(dt.time);
    DayAndTime(DayNumber(dt.date), SecondOfDay(dt.time));
    FromDateTimeParts(dt);
  }

  /** Epoch seconds of a date-time, as whole days and the second of the day. */
  lemma FromDateTimeParts(dt: DateTime)
    requires ValidDateTime(dt)
    ensures FromDateTime(dt) == DayNumber(dt.date) * 86400 + SecondOfDay(dt.time)
  {
  }

  /** The calendar fields of epoch seconds: the date of the whole days and the
      clock of the rest. */
  lemma ToDateTimeParts(secs: nat)
    ensures ToDateTime(secs) == DateTime(DateOf(secs / 86400), ClockOf(secs % 86400))
  {
  }

  /** Where the `{:04}-{:02}-{:02}T{:02}:{:02}:{:02}Z` layout puts each
      field of `r` and its separators. */
  predicate Layout(r: string, year: string, month: string, day: string, hour: string, minute: string, second: string) {
    && |r| == |year| + 16
    && r[..|r| - 16] == year
    && r[|r| - 15..|r| - 13] == month
    && r[|r| - 12..|r| - 10] == day
    && r[|r| - 9..|r| - 7] == hour
    && r[|r| - 6..|r| - 4] == minute
    && r[|r| - 3..|r| - 1] == second
    && r[|r| - 1] == 'Z'
    && r[|r| - 4] == ':' && r[|r| - 7] == ':' && r[|r| - 10] == 'T'
    && r[|r| - 13] == '-' && r[|r| - 16] == '-'
  }

  /** The layout from the rendered fields: each field can be cut back out of
      the text. */
  function Render(year: string, month: string, day: string, hour: string, minute: string, second: string): (r: string)
    requires |month| == 2 && |day| == 2 && |hour| == 2 && |minute| == 2 && |second| == 2
    ensures Layout(r, year, month, day, hour, minute, second)
  {
    var tail := ['-', month[0], month[1], '-', day[0], day[1], 'T', hour[0], hour[1],
                 ':', minute[0], minute[1], ':', second[0], second[1], 'Z'];
    TailLayout(year, tail, month, day, hour, minute, second);
    year + tail
  }

  lemma TailLayout(year: string, tail: string, month: string, day: string, hour: string, minute: string, second: string)
    requires |month| == 2 && |day| == 2 && |hour| == 2 && |minute| == 2 && |second| == 2
    requires tail == ['-', month[0], month[1], '-', day[0], day[1], 'T', hour[0], hour[1],
                      ':', minute[0], minute[1], ':', second[0], second[1], 'Z']
    ensures Layout(year + tail, year, month, day, hour, minute, second)
  {
    var r := year + tail;
    assert r[..|r| - 16] == year;
    TailSlice(year, tail, 1, month);
    TailSlice(year, tail, 4, day);
    TailSlice(year, tail, 7, hour);
    TailSlice(year, tail, 10, minute);
    TailSlice(year, tail, 13, second);
    assert r[|r| - 1] == tail[15] && r[|r| - 4] == tail[12] && r[|r| - 7] == tail[9];
    assert r[|r| - 10] == tail[6] && r[|r| - 13] == tail[3] && r[|r| - 16] == tail[0];
  }

  /** A two-character field at offset `i` of the tail is cut back out of the
      whole text. */
  lemma TailSlice(head: string, tail: string, i: nat, field: string)
    requires i + 2 <= |tail| && |field| == 2 && tail[i] == field[0] && tail[i + 1] == field[1]
    ensures (head + tail)[|head| + i..|head| + i + 2] == field
  {
    var r := head + tail;
    assert r[|head| + i] == field[0] && r[|head| + i + 1] == field[1];
  }

  /** `{:02}` of a number below 100: exactly two digits that read back as the
      number. */
  function TwoDigits(n: nat): (r: string)
    requires n < 100
    ensures |r| == 2 && AllDigits(r) && DecimalValue(r) == n
  {
    var r := [DigitChar(n / 10), DigitChar(n % 10)];
    assert r[..1] == [DigitChar(n / 10)];
    assert [DigitChar(n / 10)][..0] == [];
    assert DecimalValue(r[..1]) == n / 10;
    r
  }

  /** For two-digit numbers the direct rendering is the general zero padding. */
  lemma TwoDigitsIsZeroPad(n: nat)
    requires n < 100
    ensures TwoDigits(n) == ZeroPad(n, 2)
  {
    if n < 10 {
      assert NatToString(n) == [DigitChar(n)];
      assert PadLeft([DigitChar(n)], 1, '0') == [DigitChar(n)];
    } else {
      assert NatToString(n / 10) == [DigitChar(n / 10)];
    }
  }

  /** Fields the layout prints in full: a year that is not negative and
      every other field below 100. */
  predicate FitsLayout(dt: DateTime) {
    && dt.date.year >= 0 && dt.date.month < 100 && dt.date.day < 100
    && dt.time.hour < 100 && dt.time.minute < 100 && dt.time.second < 100
  }

  /** The text of the calendar fields: the year in at least four digits,
      every other field in exactly two. */
  function DateTimeText(dt: DateTime): (r: string)
    requires FitsLayout(dt)
    ensures |r| >= 20
    ensures r[|r| - 1] == 'Z'
    ensures r[|r| - 4] == ':' && r[|r| - 7] == ':' && r[|r| - 10] == 'T'
    ensures r[|r| - 13] == '-' && r[|r| - 16] == '-'
  {
    var d, c := dt.date, dt.time;
    Render(ZeroPad(d.year, 4), TwoDigits(d.month), TwoDigits(d.day), TwoDigits(c.hour), TwoDigits(c.minute), TwoDigits(c.second))
  }

  /** `now_iso8601` for a clock reading of `secs` seconds. */
  function Iso8601(secs: nat): (r: string)
    ensures |r| >= 20
    ensures r[|r| - 1] == 'Z'
    ensures r[|r| - 4] == ':' && r[|r| - 7] == ':' && r[|r| - 10] == 'T'
    ensures r[|r| - 13] == '-' && r[|r| - 16] == '-'
  {
    ValidFitsLayout(ToDateTime(secs));
    DateTimeText(ToDateTime(secs))
  }

  /** Every date-time the conversion produces prints in full. */
  lemma ValidFitsLayout(dt: DateTime)
    requires ValidDateTime(dt)
    ensures FitsLayout(dt)
  {
    assert MonthLengths(dt.date.year)[dt.date.month - 1] <= 31;
  }

  /** The text `r` holds the fields of `d` and `c` where the layout puts
      them, in decimal: the year is everything before the first dash, every
      other field the two digits between its separators. */
  predicate ReadsAs(r: string, d: Date, c: Clock) {
    && |r| >= 16
    && AllDigits(r[..|r| - 16]) && DecimalValue(r[..|r| - 16]) == d.year
    && AllDigits(r[|r| - 15..|r| - 13]) && DecimalValue(r[|r| - 15..|r| - 13]) == d.month
    && AllDigits(r[|r| - 12..|r| - 10]) && DecimalValue(r[|r| - 12..|r| - 10]) == d.day
    && AllDigits(r[|r| - 9..|r| - 7]) && DecimalValue(r[|r| - 9..|r| - 7]) == c.hour
    && AllDigits(r[|r| - 6..|r| - 4]) && DecimalValue(r[|r| - 6..|r| - 4]) == c.minute
    && AllDigits(r[|r| - 3..|r| - 1]) && DecimalValue(r[|r| - 3..|r| - 1]) == c.second
  }

  /** Every numeric field of the text reads back as its calendar field. */
  lemma DateTimeTextFields(dt: DateTime)
    requires FitsLayout(dt)
    ensures ReadsAs(DateTimeText(dt), dt.date, dt.time)
  {
    var d, c := dt.date, dt.time;
    var year := ZeroPad(d.year, 4);
    ZeroPadValue(d.year, 4);
    var mo, da, ho, mi, se := TwoDigits(d.month), TwoDigits(d.day), TwoDigits(c.hour), TwoDigits(c.minute), TwoDigits(c.second);
    RenderReadsAs(year, mo, da, ho, mi, se, d, c);
    DateTimeTextIsRender(dt);
  }

  /** The text is the layout of the padded fields. */
  lemma DateTimeTextIsRender(dt: DateTime)
    requires FitsLayout(dt)
    ensures var d, c := dt.date, dt.time;
            DateTimeText(dt) == Render(ZeroPad(d.year, 4), TwoDigits(d.month), TwoDigits(d.day), TwoDigits(c.hour), TwoDigits(c.minute), TwoDigits(c.second))
  {
  }

  /** The layout of decimal fields reads back as the numbers they spell. */
  lemma RenderReadsAs(year: string, mo: string, da: string, ho: string, mi: string, se: string, d: Date, c: Clock)
    requires AllDigits(year) && DecimalValue(year) == d.year
    requires |mo| == 2 && AllDigits(mo) && DecimalValue(mo) == d.month
    requires |da| == 2 && AllDigits(da) && DecimalValue(da) == d.day
    requires |ho| == 2 && AllDigits(ho) && DecimalValue(ho) == c.hour
    requires |mi| == 2 && AllDigits(mi) && DecimalValue(mi) == c.minute
    requires |se| == 2 && AllDigits(se) && DecimalValue(se) == c.second
    ensures ReadsAs(Render(year, mo, da, ho, mi, se), d, c)
  {
    var r := Render(year, mo, da, ho, mi, se);
    assert r[..|r| - 16] == year;
    assert r[|r| - 15..|r| - 13] == mo;
    assert r[|r| - 12..|r| - 10] == da;
    assert r[|r| - 9..|r| - 7] == ho;
    assert r[|r| - 6..|r| - 4] == mi;
    assert r[|r| - 3..|r| - 1] == se;
  }

  /** The text of epoch seconds spells, field by field, a valid calendar
      date and time of day, and those fields count back to the seconds. */
  lemma Iso8601ReadsBack(secs: nat)
    ensures var dt := ToDateTime(secs);
            && ValidDateTime(dt) && FromDateTime(dt) == secs
            && ReadsAs(Iso8601(secs), dt.date, dt.time)
  {
    ValidFitsLayout(ToDateTime(secs));
    DateTimeTextFields(ToDateTime(secs));
    ToDateTimeRoundTrip(secs);
  }

  /** Before the year 10000 the text is exactly 20 characters. */
  lemma Iso8601Length(secs: nat)
    requires ToDateTime(secs).date.year < 10000
    ensures |Iso8601(secs)| == 20
  {
    assert Pow10(4) == 10000;
    ZeroPadWidth(ToDateTime(secs).date.year, 4);
  }

  /** The epoch itself. */
  lemma EpochText()
    ensures Iso8601(0) == "1970-01-01T00:00:00Z"
  {
    EpochDate();
    EpochDateText();
  }

  lemma EpochDateText()
    ensures DateTimeText(DateTime(Date(1970, 1, 1), Clock(0, 0, 0))) == "1970-01-01T00:00:00Z"
  {
    SmallTwoDigits();
    YearText1970();
    RenderEpoch();
  }

  lemma SmallTwoDigits()
    ensures TwoDigits(0) == "00" && TwoDigits(1) == "01"
  {
  }

  lemma RenderEpoch()
    ensures Render("1970", "01", "01", "00", "00", "00") == "1970-01-01T00:00:00Z"
  {
  }

  lemma YearText1970()
    ensures ZeroPad(1970, 4) == "1970"
  {
    assert NatToString(1) == "1";
    assert NatToString(19) == "19";
    assert NatToString(197) == "197";
    assert NatToString(1970) == "1970";
  }

  /** Second 0 is midnight on 1 January 1970. */
  lemma EpochDate()
    ensures ToDateTime(0) == DateTime(Date(1970, 1, 1), Clock(0, 0, 0))
  {
    var lengths := MonthLengths(1970);
    assert SplitYears(EpochYear, 0) == (1970, 0);
    assert lengths[0] == 31;
    assert SplitMonths(lengths, 0) == (0, 0);
    assert DateOf(0) == Date(1970, 1, 1);
    assert ClockOf(0) == Clock(0, 0, 0);
  }

  /** The leap rule on the century years and an ordinary leap year. */
  lemma LeapExamples()
    ensures !IsLeap(1900) && IsLeap(2000) && IsLeap(2024) && !IsLeap(2023) && !IsLeap(2100)
  {
  }
}

=== FILE: unified_diff.dfy ===
/** The unified-diff view's line parser (src/components/diff/UnifiedDiff.tsx):
    each line of the diff text becomes an added, removed, context or header
    line, and two counters number the old and new sides, reset by every hunk
    header `@@ -a[,n] +b[,m] @@`. */
module UnifiedDiff {

  import opened Wrappers
  import opened Strings
  import Seqs

  datatype LineKind = Added | Removed | Context | Header

  datatype DiffLine = DiffLine(kind: LineKind, content: string, oldLineNo: Option<nat>, newLineNo: Option<nat>)

  /** The next old and new line numbers. */
  datatype Counters = Counters(oldLine: nat, newLine: nat)

  // ---------------------------------------------------------------------------
  // The hunk header pattern /@@ -(\d+)(?:,\d+)? \+(\d+)(?:,\d+)? @@/
  // ---------------------------------------------------------------------------

  /** The number of leading digits. */
  function DigitRun(t: string): (n: nat)
    ensures n <= |t| && AllDigits(t[..n])
    ensures n == |t| || !IsDigit(t[n])
    decreases |t|
  {
    if |t| > 0 && IsDigit(t[0]) then
      var n := 1 + DigitRun(t[1..]);
      assert t[..n] == [t[0]] + t[1..][..n - 1];
      n
    else 0
  }

  /** A match of `\d+` at the start: its digits and the text after them.
      Digits are greedy, and giving one back never helps the rest of the
      pattern, because what follows a number there is `,` or a space. */
  datatype Scan = Scan(digits: string, rest: string)

  function Number(t: string): (r: Option<Scan>)
    ensures r.Some? ==> |r.value.digits| >= 1 && AllDigits(r.value.digits) && r.value.digits + r.value.rest == t
    ensures r.None? <==> |t| == 0 || !IsDigit(t[0])
  {
    var n := DigitRun(t);
    assert t == t[..n] + t[n..];
    if n == 0 then None else Some(Scan(t[..n], t[n..]))
  }

  /** What `(?:,\d+)?` leaves: the text after a comma and its digits when
      they are there, otherwise all of it. */
  function SkipCount(t: string): string {
    if |t| > 0 && t[0] == ',' && Number(t[1..]).Some? then Number(t[1..]).value.rest else t
  }

  /** The part ` \+(\d+)(?:,\d+)? @@` of the pattern at the start: the
      digits of the new start. */
  function NewSide(t: string): (r: Option<string>)
    ensures r.Some? ==> AllDigits(r.value)
  {
    if !StartsWith(t, " +") then None
    else match Number(t[2..])
      case None => None
      case Some(n) => if StartsWith(SkipCount(n.rest), " @@") then Some(n.digits) else None
  }

  /** The digits of the two start numbers when the pattern matches at the
      start of `t`. */
  function HunkAtStart(t: string): (r: Option<(string, string)>)
    ensures r.Some? ==> AllDigits(r.value.0) && AllDigits(r.value.1)
  {
    if !StartsWith(t, "@@ -") then None
    else match Number(t[4..])
      case None => None
      case Some(o) =>
        match NewSide(SkipCount(o.rest))
        case None => None
        case Some(newDigits) => Some((o.digits, newDigits))
  }

  function HunkAt(s: string, i: nat): (r: Option<(string, string)>)
    requires i <= |s|
    ensures r.Some? ==> AllDigits(r.value.0) && AllDigits(r.value.1)
  {
    HunkAtStart(s[i..])
  }

  /** The first `f(j)` that is present, for `i <= j <= n`. */
  function FirstSome<T>(f: nat -> Option<T>, i: nat, n: nat): (r: Option<T>)
    ensures r.Some? ==> exists j :: i <= j <= n && f(j) == r
    decreases n - i
  {
    if i > n then None
    else if f(i).Some? then f(i)
    else FirstSome(f, i + 1, n)
  }

  /** `FirstSome` finds the leftmost present value, and nothing when there is
      none. */
  lemma {:induction false} FirstSomeLeftmost<T>(f: nat -> Option<T>, i: nat, n: nat)
    ensures FirstSome(f, i, n).None? <==> forall j :: i <= j <= n ==> f(j).None?
    ensures FirstSome(f, i, n).Some? ==>
              exists j :: i <= j <= n && FirstSome(f, i, n) == f(j) && forall m :: i <= m < j ==> f(m).None?
    decreases n - i
  {
    if i <= n {
      if f(i).Some? {
        assert FirstSome(f, i, n) == f(i);
      } else {
        var r := FirstSome(f, i + 1, n);
        assert FirstSome(f, i, n) == r;
        FirstSomeLeftmost(f, i + 1, n);
        if r.Some? {
          var j :| i + 1 <= j <= n && r == f(j) && forall m :: i + 1 <= m < j ==> f(m).None?;
          assert forall m :: i <= m < j ==> f(m).None?;
        } else {
          assert forall j :: i <= j <= n ==> f(j).None?;
        }
      }
    }
  }

  /** The pattern tried at each position of `s`. */
  function MatchAt(s: string): nat -> Option<(string, string)> {
    (j: nat) => if j <= |s| then HunkAt(s, j) else None
  }

  /** `String.prototype.match` with this (unanchored) pattern: the match at
      the leftmost position where there is one. */
  function HunkSearch(s: string): (r: Option<(string, string)>)
    ensures r.Some? ==> AllDigits(r.value.0) && AllDigits(r.value.1)
  {
    FirstSome(MatchAt(s), 0, |s|)
  }

  /** The two starts as `parseInt` reads them. */
  function HunkStarts(raw: string): Option<(nat, nat)> {
    match HunkSearch(raw)
    case None => None
    case Some((oldDigits, newDigits)) => Some((DecimalValue(oldDigits), DecimalValue(newDigits)))
  }

  // ---------------------------------------------------------------------------
  // Parsing
  // ---------------------------------------------------------------------------

  /** The branch a raw line takes, or None for a line that is dropped. The
      `+` and `-` tests come before the header prefixes, so `+++` and `---`
      lines count as added and removed. */
  function Classify(raw: string): (k: Option<LineKind>)
    ensures StartsWith(raw, "@@") ==> k == Some(Header)
    ensures !StartsWith(raw, "@@") && StartsWith(raw, "+") ==> k == Some(Added)
    ensures !StartsWith(raw, "@@") && StartsWith(raw, "-") ==> k == Some(Removed)
    ensures StartsWith(raw, " ") ==> k == Some(Context)
    ensures raw == "" ==> k.None?
    ensures k == Some(Header) <==> StartsWith(raw, "@@") || StartsWith(raw, "diff ") || StartsWith(raw, "index ")
    ensures k == Some(Added) ==> |raw| >= 1 && raw[0] == '+'
    ensures k == Some(Removed) ==> |raw| >= 1 && raw[0] == '-'
    ensures k == Some(Context) ==> |raw| >= 1 && raw[0] == ' '
  {
    assert |raw| > 0 ==> raw[..1][0] == raw[0] && (|raw| > 1 ==> raw[..2][0] == raw[0]);
    if StartsWith(raw, "@@") then Some(Header)
    else if StartsWith(raw, "+") then Some(Added)
    else if StartsWith(raw, "-") then Some(Removed)
    else if StartsWith(raw, " ") then Some(Context)
    else if StartsWith(raw, "diff ") || StartsWith(raw, "index ") || StartsWith(raw, "---") || StartsWith(raw, "+++") then Some(Header)
    else None
  }

  function IsKept(raw: string): bool {
    Classify(raw).Some?
  }

  /** One iteration of the loop: the line it emits, if any, and the counters
      after it. */
  function Step(c: Counters, raw: string): (r: (Option<DiffLine>, Counters))
    ensures r.0.None? <==> !IsKept(raw)
    ensures r.0.None? ==> r.1 == c
    ensures r.0.Some? ==> r.0.value.kind == Classify(raw).value
    ensures Classify(raw) == Some(Header) ==>
              r.0 == Some(DiffLine(Header, raw, None, None))
              && r.1 == (if StartsWith(raw, "@@") && HunkStarts(raw).Some?
                         then Counters(HunkStarts(raw).value.0, HunkStarts(raw).value.1) else c)
    ensures Classify(raw) == Some(Added) ==>
              r.0 == Some(DiffLine(Added, raw[1..], None, Some(c.newLine))) && r.1 == c.(newLine := c.newLine + 1)
    ensures Classify(raw) == Some(Removed) ==>
              r.0 == Some(DiffLine(Removed, raw[1..], Some(c.oldLine), None)) && r.1 == c.(oldLine := c.oldLine + 1)
    ensures Classify(raw) == Some(Context) ==>
              r.0 == Some(DiffLine(Context, raw[1..], Some(c.oldLine), Some(c.newLine)))
              && r.1 == Counters(c.oldLine + 1, c.newLine + 1)
  {
    match Classify(raw)
    case None => (None, c)
    case Some(Header) =>
      var next := if StartsWith(raw, "@@") && HunkStarts(raw).Some?
                  then Counters(HunkStarts(raw).value.0, HunkStarts(raw).value.1) else c;
      (Some(DiffLine(Header, raw, None, None)), next)
    case Some(Added) => (Some(DiffLine(Added, raw[1..], None, Some(c.newLine))), c.(newLine := c.newLine + 1))
    case Some(Removed) => (Some(DiffLine(Removed, raw[1..], Some(c.oldLine), None)), c.(oldLine := c.oldLine + 1))
    case Some(Context) =>
      (Some(DiffLine(Context, raw[1..], Some(c.oldLine), Some(c.newLine))), Counters(c.oldLine + 1, c.newLine + 1))
  }

  function OptionToSeq<T>(o: Option<T>): (r: seq<T>)
    ensures |r| <= 1
  {
    if o.Some? then [o.value] else []
  }

  /** The loop over raw lines from counters `c`. Headers carry no line
      numbers; an added line carries only a new-side number, a removed line
      only an old-side one, a context line both. */
  function ParseLines(c: Counters, raws: seq<string>): (r: seq<DiffLine>)
    ensures |r| <= |raws|
    ensures forall i :: 0 <= i < |r| ==>
              (r[i].oldLineNo.Some? <==> r[i].kind == Removed || r[i].kind == Context)
              && (r[i].newLineNo.Some? <==> r[i].kind == Added || r[i].kind == Context)
    decreases |raws|
  {
    if |raws| == 0 then []
    else
      var (line, next) := Step(c, raws[0]);
      OptionToSeq(line) + ParseLines(next, raws[1..])
  }

  /** The counters after the loop over `raws`. */
  function FinalCounters(c: Counters, raws: seq<string>): Counters
    decreases |raws|
  {
    if |raws| == 0 then c else FinalCounters(Step(c, raws[0]).1, raws[1..])
  }

  /** `parseDiffLines`: the parsed lines render back to exactly the kept
      raw lines of the text, in order. */
  function ParseDiffLines(diffText: string): (r: seq<DiffLine>)
    ensures RenderAll(r) == Seqs.Filter(Split(diffText, '\n'), IsKept)
  {
    ParseRenders(Counters(0, 0), Split(diffText, '\n'));
    ParseLines(Counters(0, 0), Split(diffText, '\n'))
  }

  // ---------------------------------------------------------------------------
  // Rendering back, and what the parser promises
  // ---------------------------------------------------------------------------

  /** The raw line a parsed line came from: the marker and the content, or
      the header itself. */
  function Render(line: DiffLine): string {
    match line.kind
    case Header => line.content
    case Added => "+" + line.content
    case Removed => "-" + line.content
    case Context => " " + line.content
  }

  function RenderAll(lines: seq<DiffLine>): (r: seq<string>)
    ensures |r| == |lines|
    decreases |lines|
  {
    if |lines| == 0 then [] else [Render(lines[0])] + RenderAll(lines[1..])
  }

  lemma RenderAllAppend(a: seq<DiffLine>, b: seq<DiffLine>)
    ensures RenderAll(a + b) == RenderAll(a) + RenderAll(b)
    decreases |a|
  {
    if |a| > 0 {
      assert (a + b)[1..] == a[1..] + b;
      RenderAllAppend(a[1..], b);
    } else {
      assert a + b == b;
    }
  }

  /** A line the parser keeps renders back to itself. */
  lemma StepRenders(c: Counters, raw: string)
    requires IsKept(raw)
    ensures Step(c, raw).0.Some? && Render(Step(c, raw).0.value) == raw
  {
    if Classify(raw) != Some(Header) {
      assert raw == [raw[0]] + raw[1..];
    }
  }

  /** Parsing loses nothing but the dropped lines: rendering the parsed lines
      gives back exactly the raw lines that are kept, in order, whatever the
      counters. */
  lemma {:induction false} ParseRenders(c: Counters, raws: seq<string>)
    ensures RenderAll(ParseLines(c, raws)) == Seqs.Filter(raws, IsKept)
    decreases |raws|
  {
    if |raws| > 0 {
      var (line, next) := Step(c, raws[0]);
      ParseRenders(next, raws[1..]);
      RenderAllAppend(OptionToSeq(line), ParseLines(next, raws[1..]));
      if IsKept(raws[0]) {
        StepRenders(c, raws[0]);
      }
    }
  }

  /** At most one parsed line per raw line; exactly one per kept raw line. */
  lemma ParseLength(diffText: string)
    ensures |ParseDiffLines(diffText)| == |Seqs.Filter(Split(diffText, '\n'), IsKept)|
    ensures |ParseDiffLines(diffText)| <= |Split(diffText, '\n')|
  {
    ParseRenders(Counters(0, 0), Split(diffText, '\n'));
  }

  /** Whether a line moves the new-side counter (added and context lines)
      or the old-side counter (removed and context lines). */
  function MovesNew(raw: string): bool {
    Classify(raw) == Some(Added) || Classify(raw) == Some(Context)
  }

  function MovesOld(raw: string): bool {
    Classify(raw) == Some(Removed) || Classify(raw) == Some(Context)
  }

  /** Inside a hunk (no `@@` line), each counter advances by exactly the
      number of lines on its side. */
  lemma {:induction false} CountersAdvance(c: Counters, raws: seq<string>)
    requires forall k :: 0 <= k < |raws| ==> !StartsWith(raws[k], "@@")
    ensures FinalCounters(c, raws).newLine == c.newLine + |Seqs.Filter(raws, MovesNew)|
    ensures FinalCounters(c, raws).oldLine == c.oldLine + |Seqs.Filter(raws, MovesOld)|
    decreases |raws|
  {
    if |raws| > 0 {
      CountersAdvance(Step(c, raws[0]).1, raws[1..]);
    }
  }

  /** `+++` and `---` file lines take the added and removed branches. */
  lemma FileLinesNotHeaders(name: string)
    ensures Classify("+++ " + name) == Some(Added) && Classify("--- " + name) == Some(Removed)
  {
    var added := "+++ " + name;
    var removed := "--- " + name;
    assert added[..2][0] == '+' && added[..1] == "+";
    assert removed[..2][0] == '-' && removed[..1] == "-";
  }

  // ---------------------------------------------------------------------------
  // Headers as git writes them parse back to their start numbers
  // ---------------------------------------------------------------------------

  /** `,count`, or nothing when git leaves the count out. */
  function CountText(count: Option<nat>): string {
    if count.Some? then "," + NatToString(count.value) else ""
  }

  /** `@@ -a[,n] +b[,m] @@` followed by the section heading. */
  function HunkHeader(oldStart: nat, oldCount: Option<nat>, newStart: nat, newCount: Option<nat>, heading: string): string {
    "@@ -" + (NatToString(oldStart) + (CountText(oldCount) + (" +" + (NatToString(newStart) + (CountText(newCount)
    + (" @@" + heading))))))
  }

  /** A digit string followed by a non-digit (or nothing) is read as one
      number. */
  lemma {:induction false} NumberOf(digits: string, rest: string)
    requires |digits| >= 1 && AllDigits(digits)
    requires |rest| == 0 || !IsDigit(rest[0])
    ensures Number(digits + rest) == Some(Scan(digits, rest))
  {
    DigitRunOf(digits, rest);
    var t := digits + rest;
    assert t[..|digits|] == digits && t[|digits|..] == rest;
  }

  lemma {:induction false} DigitRunOf(digits: string, rest: string)
    requires AllDigits(digits)
    requires |rest| == 0 || !IsDigit(rest[0])
    ensures DigitRun(digits + rest) == |digits|
    decreases |digits|
  {
    if |digits| > 0 {
      assert (digits + rest)[1..] == digits[1..] + rest;
      DigitRunOf(digits[1..], rest);
    } else {
      assert digits + rest == rest;
    }
  }

  /** `SkipCount` steps over `,n` when a count is written. */
  lemma SkipCountOf(count: Option<nat>, rest: string)
    requires |rest| > 0 && rest[0] == ' '
    ensures SkipCount(CountText(count) + rest) == rest
  {
    var t := CountText(count) + rest;
    if count.Some? {
      var d := NatToString(count.value);
      assert t[1..] == d + rest;
      NumberOf(d, rest);
    } else {
      assert t == rest;
    }
  }

  /** A literal piece at the start, and what follows it. */
  lemma PieceOf(piece: string, rest: string)
    ensures StartsWith(piece + rest, piece) && (piece + rest)[|piece|..] == rest
  {
    assert (piece + rest)[..|piece|] == piece;
  }

  /** ` +b[,m] @@` followed by the heading. */
  lemma NewSideOf(b: string, newCount: Option<nat>, heading: string)
    requires |b| >= 1 && AllDigits(b)
    ensures NewSide(" +" + (b + (CountText(newCount) + (" @@" + heading)))) == Some(b)
  {
    var t4 := CountText(newCount) + (" @@" + heading);
    PieceOf(" +", b + t4);
    assert t4[0] == (if newCount.Some? then ',' else ' ');
    NumberOf(b, t4);
    SkipCountOf(newCount, " @@" + heading);
    PieceOf(" @@", heading);
  }

  /** A header as git writes it matches the pattern at its first character,
      with the two start numbers' digits. */
  lemma HeaderMatchesAtStart(oldStart: nat, oldCount: Option<nat>, newStart: nat, newCount: Option<nat>, heading: string)
    ensures HunkAtStart(HunkHeader(oldStart, oldCount, newStart, newCount, heading))
            == Some((NatToString(oldStart), NatToString(newStart)))
  {
    var a, b := NatToString(oldStart), NatToString(newStart);
    var t2 := " +" + (b + (CountText(newCount) + (" @@" + heading)));
    var t1 := CountText(oldCount) + t2;
    PieceOf("@@ -", a + t1);
    assert t1[0] == (if oldCount.Some? then ',' else ' ');
    NumberOf(a, t1);
    SkipCountOf(oldCount, t2);
    NewSideOf(b, newCount, heading);
  }

  /** A header as git writes it yields its two start numbers. */
  lemma HunkHeaderParses(oldStart: nat, oldCount: Option<nat>, newStart: nat, newCount: Option<nat>, heading: string)
    ensures HunkStarts(HunkHeader(oldStart, oldCount, newStart, newCount, heading)) == Some((oldStart, newStart))
  {
    var s := HunkHeader(oldStart, oldCount, newStart, newCount, heading);
    HeaderMatchesAtStart(oldStart, oldCount, newStart, newCount, heading);
    assert s[0..] == s;
    assert MatchAt(s)(0) == Some((NatToString(oldStart), NatToString(newStart)));
    NatToStringValue(oldStart);
    NatToStringValue(newStart);
  }

  /** After a hunk header as git writes it, the counters hold its starts. */
  lemma HeaderResetsCounters(c: Counters, oldStart: nat, oldCount: Option<nat>, newStart: nat, newCount: Option<nat>,
                             heading: string)
    ensures var raw := HunkHeader(oldStart, oldCount, newStart, newCount, heading);
            Step(c, raw) == (Some(DiffLine(Header, raw, None, None)), Counters(oldStart, newStart))
  {
    var raw := HunkHeader(oldStart, oldCount, newStart, newCount, heading);
    HunkHeaderParses(oldStart, oldCount, newStart, newCount, heading);
    assert raw[..2] == "@@";
  }
}

=== FILE: uuid.dfy ===
/** `uuid_v4` (src-tauri/src/commands/workspace_lifecycle.rs): an id in the
    8-4-4-4-12 layout cut from the nanosecond clock reading `seed` (a `u128`).
    Masks and shifts are written as `%` and `/` by powers of two. */
module Uuid {

  import opened Strings

  /** The five numbers the format string prints, in order. */
  datatype Fields = Fields(a: nat, b: nat, c: nat, d: nat, e: nat)

  /** Each field fits the width it is printed in, so the printing pads and
      never truncates. */
  predicate FieldsFit(f: Fields) {
    f.a < 0x1_0000_0000 && f.b < 0x1_0000 && f.c < 0x1000 && f.d < 0x1_0000 && f.e < 0x1_0000_0000_0000
  }

  /** Bits 60..65 of the seed with bit 7 set. The six-bit value is below 0x40,
      so `| 0x80` adds 0x80. */
  function VariantByte(seed: nat): (r: nat)
    ensures 0x80 <= r < 0xC0
  {
    (seed / 0x1000_0000_0000_0000) % 0x40 + 0x80
  }

  /** Bits 66..73 of the seed. */
  function HighByte(seed: nat): (r: nat)
    ensures r < 0x100
  {
    (seed / 0x4_0000_0000_0000_0000) % 0x100
  }

  /** The fields as the source computes them: in the fourth, the variant byte
      is the LOW byte and bits 66..73 are shifted above it. */
  function FieldsAsWritten(seed: nat): (f: Fields)
    ensures FieldsFit(f)
    ensures f.d == VariantByte(seed) + 0x100 * HighByte(seed)
  {
    Fields(seed % 0x1_0000_0000,
           (seed / 0x1_0000_0000) % 0x1_0000,
           (seed / 0x1_0000_0000_0000) % 0x1000,
           VariantByte(seed) + 0x100 * HighByte(seed),
           (seed / 0x400_0000_0000_0000_0000) % 0x1_0000_0000_0000)
  }

  /** The fields with the variant byte as the HIGH byte of the fourth group,
      which is where the `0x80` marker belongs. */
  function FieldsCorrected(seed: nat): (f: Fields)
    ensures FieldsFit(f)
    ensures f.d == 0x100 * VariantByte(seed) + HighByte(seed)
  {
    FieldsAsWritten(seed).(d := 0x100 * VariantByte(seed) + HighByte(seed))
  }

  /** `{:08x}-{:04x}-4{:03x}-{:04x}-{:012x}` of the five fields. */
  function Layout(f: Fields): (r: string)
    ensures |r| == 36
    ensures r[8] == '-' && r[13] == '-' && r[18] == '-' && r[23] == '-'
    ensures r[14] == '4'
  {
    HexDigits(f.a, 8) + "-" + HexDigits(f.b, 4) + "-4" + HexDigits(f.c, 3) + "-" + HexDigits(f.d, 4) + "-" + HexDigits(f.e, 12)
  }

  /** The positions of `Layout` that hold hex digits. */
  predicate IsDigitPosition(i: int) {
    0 <= i < 36 && i != 8 && i != 13 && i != 14 && i != 18 && i != 23
  }

  /** Every position but the four dashes and the version digit holds a
      lowercase hex digit, and each group reads back as its field. */
  lemma LayoutReadsBack(f: Fields)
    requires FieldsFit(f)
    ensures var r := Layout(f);
            && (forall i :: IsDigitPosition(i) ==> IsLowerHex(r[i]))
            && ParseHex(r[0..8]) == f.a
            && ParseHex(r[9..13]) == f.b
            && ParseHex(r[15..18]) == f.c
            && ParseHex(r[19..23]) == f.d
            && ParseHex(r[24..36]) == f.e
  {
    var r := Layout(f);
    assert r[0..8] == HexDigits(f.a, 8);
    assert r[9..13] == HexDigits(f.b, 4);
    assert r[15..18] == HexDigits(f.c, 3);
    assert r[19..23] == HexDigits(f.d, 4);
    assert r[24..36] == HexDigits(f.e, 12);
    HexRoundTrip(f.a, 8);
    HexRoundTrip(f.b, 4);
    HexRoundTrip(f.c, 3);
    HexRoundTrip(f.d, 4);
    HexRoundTrip(f.e, 12);
    forall i | IsDigitPosition(i) ensures IsLowerHex(r[i]) {
      if i < 8 {
        assert r[i] == r[0..8][i];
      } else if i < 13 {
        assert r[i] == r[9..13][i - 9];
      } else if i < 18 {
        assert r[i] == r[15..18][i - 15];
      } else if i < 23 {
        assert r[i] == r[19..23][i - 19];
      } else {
        assert r[i] == r[24..36][i - 24];
      }
    }
  }

  /** Four hex digits read back as their positional sum. */
  lemma ParseHex4(s: string)
    requires |s| == 4 && AllLowerHex(s)
    ensures ParseHex(s) == 0x1000 * HexValue(s[0]) + 0x100 * HexValue(s[1]) + 0x10 * HexValue(s[2]) + HexValue(s[3])
  {
    assert s[..3][..2] == s[..2];
    assert s[..2][..1] == s[..1];
    assert s[..1][..0] == [];
    assert ParseHex(s[..1]) == HexValue(s[0]);
    assert ParseHex(s[..2]) == 16 * HexValue(s[0]) + HexValue(s[1]);
    assert ParseHex(s[..3]) == 16 * ParseHex(s[..2]) + HexValue(s[2]);
  }

  /** The id as the source prints it. */
  function UuidAsWritten(seed: nat): (r: string)
    ensures |r| == 36 && r[14] == '4'
    ensures AllLowerHex(r[19..23]) && ParseHex(r[19..23]) == VariantByte(seed) + 0x100 * HighByte(seed)
  {
    var f := FieldsAsWritten(seed);
    LayoutReadsBack(f);
    Layout(f)
  }

  /** The id with the variant marker where it was meant to go. */
  function UuidV4(seed: nat): (r: string)
    ensures |r| == 36 && r[14] == '4'
    ensures AllLowerHex(r[19..23]) && ParseHex(r[19..23]) == 0x100 * VariantByte(seed) + HighByte(seed)
  {
    var f := FieldsCorrected(seed);
    LayoutReadsBack(f);
    Layout(f)
  }

  /** The first, second, third and fifth groups read back as the seed's bits
      0..31, 32..47, 48..59 and 74..121. */
  lemma UuidReadsBack(seed: nat)
    ensures var r := UuidV4(seed);
            && (forall i :: IsDigitPosition(i) ==> IsLowerHex(r[i]))
            && ParseHex(r[0..8]) == seed % 0x1_0000_0000
            && ParseHex(r[9..13]) == (seed / 0x1_0000_0000) % 0x1_0000
            && ParseHex(r[15..18]) == (seed / 0x1_0000_0000_0000) % 0x1000
            && ParseHex(r[24..36]) == (seed / 0x400_0000_0000_0000_0000) % 0x1_0000_0000_0000
  {
    LayoutReadsBack(FieldsCorrected(seed));
  }

  /** The corrected id carries the variant in the first digit of its fourth
      group: one of 8, 9, a, b. */
  lemma VariantDigit(seed: nat)
    ensures UuidV4(seed)[19] in "89ab"
  {
    var r := UuidV4(seed);
    var g := r[19..23];
    VariantGroup(g, VariantByte(seed), HighByte(seed));
    assert g[0] == r[19];
  }

  /** A group of four hex digits reading as `0x100 * v + h`, with `v` a
      variant byte and `h` a byte, starts with 8, 9, a or b. */
  lemma VariantGroup(g: string, v: nat, h: nat)
    requires |g| == 4 && AllLowerHex(g)
    requires 0x80 <= v < 0xC0 && h < 0x100
    requires ParseHex(g) == 0x100 * v + h
    ensures g[0] in "89ab"
  {
    ParseHex4(g);
    LeadingDigit(HexValue(g[0]), HexValue(g[1]), HexValue(g[2]), HexValue(g[3]), v, h);
  }

  /** The arithmetic behind `VariantGroup`. */
  lemma LeadingDigit(h0: nat, h1: nat, h2: nat, h3: nat, v: nat, h: nat)
    requires h0 < 16 && h1 < 16 && h2 < 16 && h3 < 16
    requires 0x80 <= v < 0xC0 && h < 0x100
    requires 0x1000 * h0 + 0x100 * h1 + 0x10 * h2 + h3 == 0x100 * v + h
    ensures 8 <= h0 < 12
  {
    assert 0x100 * h1 + 0x10 * h2 + h3 < 0x1000;
  }

  /** As written, every seed below 2^66 (every nanosecond clock reading for
      the next two thousand years) prints `00` as the start of the fourth group: the variant
      byte never reaches the first digit. */
  lemma AsWrittenVariantMisplaced(seed: nat)
    requires seed < 0x4_0000_0000_0000_0000
    ensures UuidAsWritten(seed)[19] == '0' && UuidAsWritten(seed)[20] == '0'
    ensures UuidAsWritten(seed)[19] !in "89ab"
  {
    var r := UuidAsWritten(seed);
    var g := r[19..23];
    assert AllLowerHex(g);
    ParseHex4(g);
    HighByteOfSmallSeed(seed);
    assert HexValue(g[0]) == 0 && HexValue(g[1]) == 0;
    assert g[0] == r[19] && g[1] == r[20];
  }

  /** Two field sets that differ at most in the fourth field print alike
      outside the fourth group. */
  lemma LayoutOutsideFourthGroup(f: Fields, d: nat)
    ensures Layout(f)[..19] == Layout(f.(d := d))[..19]
    ensures Layout(f)[23..] == Layout(f.(d := d))[23..]
  {
    var g := f.(d := d);
    var pre := HexDigits(f.a, 8) + "-" + HexDigits(f.b, 4) + "-4" + HexDigits(f.c, 3) + "-";
    var post := "-" + HexDigits(f.e, 12);
    assert Layout(f) == pre + HexDigits(f.d, 4) + post;
    assert Layout(g) == pre + HexDigits(g.d, 4) + post;
  }

  /** The printed id and the corrected one agree everywhere but in the
      fourth group, where the variant byte and bits 66..73 trade places. */
  lemma AsWrittenDiffersInFourthGroupOnly(seed: nat)
    ensures UuidAsWritten(seed)[..19] == UuidV4(seed)[..19]
    ensures UuidAsWritten(seed)[23..] == UuidV4(seed)[23..]
    ensures UuidAsWritten(seed)[19..23] != UuidV4(seed)[19..23] <==> VariantByte(seed) != HighByte(seed)
  {
    LayoutOutsideFourthGroup(FieldsAsWritten(seed), FieldsCorrected(seed).d);
    var v, h := VariantByte(seed), HighByte(seed);
    if v != h {
      assert 0x100 * v + h != v + 0x100 * h;
    } else {
      assert FieldsCorrected(seed) == FieldsAsWritten(seed);
    }
  }

  lemma HighByteOfSmallSeed(seed: nat)
    requires seed < 0x4_0000_0000_0000_0000
    ensures HighByte(seed) == 0
  {
  }
}

=== FILE: workspace_lifecycle.dfy ===
/** The in-memory effects of the workspace commands
    (src-tauri/src/commands/workspace_lifecycle.rs): the port allocator, and
    how create, delete, archive, restore and load change the workspace list
    and the set of allocated ports. Every git, filesystem, clock and store
    outcome is a parameter; a failing store write after the lock is released
    leaves the change in memory and still returns its error. */
module WorkspaceLifecycle {

  import opened Wrappers
  import opened Strings
  import opened Models
  import Paths
  import Seqs
  import Timestamp
  import Uuid

  const PortStart: U16 := 3000
  const PortMax: U16 := 65000

  /** A base the allocator can hand out: 3000, 3010, ..., 64990. */
  predicate IsCandidate(p: nat) {
    PortStart <= p < PortMax && (p - 3000) % 10 == 0
  }

  /** `!allocated.contains(&port) && is_port_range_available(port)`; the TCP
      probe is the parameter `available`. */
  predicate IsFree(taken: set<U16>, available: U16 -> bool, p: U16) {
    p !in taken && available(p)
  }

  /** The loop of `allocate_port_range` from `port` on: the first candidate
      base that is free, or the error once the bases are exhausted. */
  function PortSearch(taken: set<U16>, available: U16 -> bool, port: U16): (r: Result<U16>)
    requires IsCandidate(port) || port == PortMax
    ensures r.Ok? ==> IsCandidate(r.value) && port <= r.value && IsFree(taken, available, r.value)
    ensures r.Ok? ==> forall p: U16 :: IsCandidate(p) && port <= p < r.value ==> !IsFree(taken, available, p)
    ensures r.Err? ==> r.error == "No available port range found"
    ensures r.Err? ==> forall p: U16 :: IsCandidate(p) && port <= p ==> !IsFree(taken, available, p)
    decreases PortMax - port
  {
    if port >= PortMax then Err("No available port range found")
    else if IsFree(taken, available, port) then Ok(port)
    else PortSearch(taken, available, port + 10)
  }

  /** `allocate_port_range`: the smallest free candidate base. */
  function AllocatePortRange(taken: set<U16>, available: U16 -> bool): (r: Result<U16>)
    ensures r.Ok? ==> IsCandidate(r.value) && IsFree(taken, available, r.value)
    ensures r.Ok? ==> forall p: U16 :: IsCandidate(p) && p < r.value ==> !IsFree(taken, available, p)
    ensures r.Err? <==> forall p: U16 :: IsCandidate(p) ==> !IsFree(taken, available, p)
  {
    PortSearch(taken, available, PortStart)
  }

  /** The new state of a command together with what it returns. */
  datatype Outcome<T> = Outcome(data: AppData, result: Result<T>)

  /** The outcomes `create_workspace` depends on. `mkdirError` is the failure
      to create a missing `.worktrees` directory; `nowNanos` and `nowSecs` are
      the clock readings for the id and the creation time. */
  datatype CreateIo = CreateIo(
    repoExists: bool,
    openError: Option<string>,
    available: U16 -> bool,
    mkdirError: Option<string>,
    git: CommandOutcome,
    nowNanos: nat,
    nowSecs: nat,
    persistError: Option<string>
  )

  /** The environment every workspace gets. */
  function WorkspaceEnv(worktreePath: string, repoPath: string, port: U16, name: string): (env: map<string, string>)
    ensures env.Keys == {"HEROI_WORKSPACE_PATH", "HEROI_ROOT_PATH", "HEROI_PORT", "HEROI_WORKSPACE_NAME"}
    ensures env["HEROI_WORKSPACE_PATH"] == worktreePath && env["HEROI_ROOT_PATH"] == repoPath
    ensures env["HEROI_WORKSPACE_NAME"] == name
    ensures AllDigits(env["HEROI_PORT"]) && DecimalValue(env["HEROI_PORT"]) == port
  {
    NatToStringValue(port);
    map["HEROI_WORKSPACE_PATH" := worktreePath,
        "HEROI_ROOT_PATH" := repoPath,
        "HEROI_PORT" := NatToString(port),
        "HEROI_WORKSPACE_NAME" := name]
  }

  /** `<repo>/.worktrees/<name>`. */
  function WorktreePath(repoPath: string, name: string): string {
    Paths.JoinPath(Paths.JoinPath(repoPath, ".worktrees"), name)
  }

  /** The arguments of `git worktree add`: the base branch is appended only
      when one is given. */
  function WorktreeAddArgs(newBranch: string, path: string, baseBranch: Option<string>): (args: seq<string>)
    ensures |args| >= 5 && args[..5] == ["worktree", "add", "-b", newBranch, path]
    ensures baseBranch.None? <==> |args| == 5
    ensures baseBranch.Some? ==> |args| == 6 && args[5] == baseBranch.value
  {
    ["worktree", "add", "-b", newBranch, path] + (if baseBranch.Some? then [baseBranch.value] else [])
  }

  /** Appends the workspace and marks its port, then reports the store
      write's outcome. */
  function Register(data: AppData, w: WorkspaceConfig, persistError: Option<string>): (o: Outcome<WorkspaceConfig>)
    ensures o.data == data.(workspaces := data.workspaces + [w], allocatedPorts := data.allocatedPorts + {w.portBase})
    ensures o.result == if persistError.Some? then Err(persistError.value) else Ok(w)
    ensures o.data != data && |o.data.workspaces| == |data.workspaces| + 1 && o.data.workspaces[|data.workspaces|] == w
  {
    var d := data.(workspaces := data.workspaces + [w], allocatedPorts := data.allocatedPorts + {w.portBase});
    assert |d.workspaces| == |data.workspaces| + 1;
    Outcome(d, if persistError.Some? then Err(persistError.value) else Ok(w))
  }

  /** `create_workspace`: the checks in order, each failure leaving the state
      as it was; on success a non-main, active workspace on a fresh port. */
  function CreateWorkspace(data: AppData, repoPath: string, name: string, branch: Option<string>,
                           baseBranch: Option<string>, io: CreateIo): (o: Outcome<WorkspaceConfig>)
    ensures !io.repoExists ==> o == Outcome(data, Err("Repository path does not exist"))
    ensures io.repoExists && io.openError.Some? ==> o == Outcome(data, Err("Not a valid git repository: " + io.openError.value))
    ensures io.repoExists && io.openError.None? && AllocatePortRange(data.allocatedPorts, io.available).Err?
            ==> o == Outcome(data, Err("No available port range found"))
    ensures io.repoExists && io.openError.None? && AllocatePortRange(data.allocatedPorts, io.available).Ok?
            && io.mkdirError.Some?
            ==> o == Outcome(data, Err("Failed to create .worktrees directory: " + io.mkdirError.value))
    ensures io.repoExists && io.openError.None? && AllocatePortRange(data.allocatedPorts, io.available).Ok?
            && io.mkdirError.None? && io.git.SpawnFailed?
            ==> o == Outcome(data, Err("Failed to run git: " + io.git.error))
    ensures io.repoExists && io.openError.None? && AllocatePortRange(data.allocatedPorts, io.available).Ok?
            && io.mkdirError.None? && io.git.Finished? && !io.git.success
            ==> o == Outcome(data, Err("git worktree add failed: " + io.git.stderr))
    ensures o.data != data ==>
              && io.repoExists && io.openError.None? && io.mkdirError.None? && io.git.Finished? && io.git.success
              && AllocatePortRange(data.allocatedPorts, io.available).Ok?
              && var port := AllocatePortRange(data.allocatedPorts, io.available).value;
              && |o.data.workspaces| == |data.workspaces| + 1
              && var w := o.data.workspaces[|data.workspaces|];
              && o.data == data.(workspaces := data.workspaces + [w], allocatedPorts := data.allocatedPorts + {port})
              && w.portBase == port && port !in data.allocatedPorts
              && w.name == name && w.repoPath == repoPath && w.branch == branch.GetOr(name)
              && w.worktreePath == WorktreePath(repoPath, name)
              && !w.isMainWorktree && w.status == Active
              && w.envVars == WorkspaceEnv(w.worktreePath, repoPath, port, name)
              && w.id == Uuid.UuidV4(io.nowNanos) && w.createdAt == Timestamp.Iso8601(io.nowSecs)
    ensures io.repoExists && io.openError.None? && AllocatePortRange(data.allocatedPorts, io.available).Ok?
            && io.mkdirError.None? && io.git.Finished? && io.git.success
            ==> o.data != data && (o.result.Ok? <==> io.persistError.None?)
    ensures o.result.Ok? ==> o.data != data && o.result.value == o.data.workspaces[|data.workspaces|]
  {
    if !io.repoExists then Outcome(data, Err("Repository path does not exist"))
    else if io.openError.Some? then Outcome(data, Err("Not a valid git repository: " + io.openError.value))
    else match AllocatePortRange(data.allocatedPorts, io.available)
      case Err(e) => Outcome(data, Err(e))
      case Ok(port) =>
        var newBranch := branch.GetOr(name);
        var path := WorktreePath(repoPath, name);
        if io.mkdirError.Some? then
          Outcome(data, Err("Failed to create .worktrees directory: " + io.mkdirError.value))
        else match io.git
          case SpawnFailed(e) => Outcome(data, Err("Failed to run git: " + e))
          case Finished(success, stderr) =>
            if !success then Outcome(data, Err("git worktree add failed: " + stderr))
            else
              var w := WorkspaceConfig(Uuid.UuidV4(io.nowNanos), name, repoPath, path, newBranch, false,
                                       WorkspaceEnv(path, repoPath, port, name), port, Active,
                                       Timestamp.Iso8601(io.nowSecs));
              Register(data, w, io.persistError)
  }

  /** `main_path.trim_end_matches('/').trim_end_matches('\\')`: the text cut
      off is a run of `\` followed by a run of `/`, each as long as it goes,
      so a trailing `/` run is removed whole and so is the `\` run before it. */
  function CleanMainPath(path: string): (r: string)
    ensures |r| <= |path| && r == path[..|r|]
    ensures |r| > 0 ==> r[|r| - 1] != '\\'
    ensures forall i :: |r| <= i < |path| ==> path[i] == '/' || path[i] == '\\'
    ensures forall i, j :: |r| <= i < j < |path| && path[i] == '/' ==> path[j] == '/'
    ensures |r| > 0 && (|r| == |path| || path[|r|] == '/') ==> r[|r| - 1] != '/'
  {
    var noSlash := TrimEndChar(path, '/');
    var r := TrimEndChar(noSlash, '\\');
    assert forall i :: |r| <= i < |noSlash| ==> path[i] == noSlash[i];
    r
  }

  /** A working directory reported with trailing slashes, as libgit2's
      `workdir()` reports it, comes back without them. */
  lemma CleanMainPathDropsSlashes(dir: string, slashes: string)
    requires dir != "" && dir[|dir| - 1] != '/' && dir[|dir| - 1] != '\\'
    requires forall i :: 0 <= i < |slashes| ==> slashes[i] == '/'
    ensures CleanMainPath(dir + slashes) == dir
  {
    var path := dir + slashes;
    var r := CleanMainPath(path);
    assert path[|dir| - 1] == dir[|dir| - 1];
    assert forall i :: |dir| <= i < |path| ==> path[i] == slashes[i - |dir|];
    assert path[..|dir|] == dir;
  }

  /** The outcomes `create_workspace_for_main` depends on: the repository's
      working directory and the short name of its HEAD, when git has them. */
  datatype MainIo = MainIo(
    openError: Option<string>,
    workdir: Option<string>,
    headShorthand: Option<string>,
    available: U16 -> bool,
    nowNanos: nat,
    nowSecs: nat,
    persistError: Option<string>
  )

  /** `create_workspace_for_main`: a main-worktree workspace on the cleaned
      working directory (or the repository path), on the HEAD branch or
      "main". */
  function CreateWorkspaceForMain(data: AppData, repoPath: string, name: string, io: MainIo): (o: Outcome<WorkspaceConfig>)
    ensures io.openError.Some? ==> o == Outcome(data, Err("Not a valid git repository: " + io.openError.value))
    ensures io.openError.None? && AllocatePortRange(data.allocatedPorts, io.available).Err?
            ==> o == Outcome(data, Err("No available port range found"))
    ensures io.openError.None? && AllocatePortRange(data.allocatedPorts, io.available).Ok? ==>
              && var port := AllocatePortRange(data.allocatedPorts, io.available).value;
              && |o.data.workspaces| == |data.workspaces| + 1
              && var w := o.data.workspaces[|data.workspaces|];
              && o.data == data.(workspaces := data.workspaces + [w], allocatedPorts := data.allocatedPorts + {port})
              && (o.result.Ok? <==> io.persistError.None?)
              && w.portBase == port && port !in data.allocatedPorts
              && w.name == name && w.repoPath == repoPath
              && w.worktreePath == CleanMainPath(io.workdir.GetOr(repoPath))
              && w.branch == io.headShorthand.GetOr("main")
              && w.isMainWorktree && w.status == Active
              && w.envVars == WorkspaceEnv(w.worktreePath, repoPath, port, name)
              && w.id == Uuid.UuidV4(io.nowNanos)
  {
    if io.openError.Some? then Outcome(data, Err("Not a valid git repository: " + io.openError.value))
    else
      var mainPath := CleanMainPath(io.workdir.GetOr(repoPath));
      var branch := io.headShorthand.GetOr("main");
      match AllocatePortRange(data.allocatedPorts, io.available)
      case Err(e) => Outcome(data, Err(e))
      case Ok(port) =>
        var w := WorkspaceConfig(Uuid.UuidV4(io.nowNanos), name, repoPath, mainPath, branch, true,
                                 WorkspaceEnv(mainPath, repoPath, port, name), port, Active,
                                 Timestamp.Iso8601(io.nowSecs));
        Register(data, w, io.persistError)
  }

  function IdIs(id: string): WorkspaceConfig -> bool {
    (w: WorkspaceConfig) => w.id == id
  }

  function IdIsNot(id: string): WorkspaceConfig -> bool {
    (w: WorkspaceConfig) => w.id != id
  }

  function NotFound(id: string): string {
    "Workspace '" + id + "' not found"
  }

  /** The outcomes of removing a non-main worktree: `git worktree remove`,
      the fallback directory removal after a failed git run, and the final
      removal of a directory that is still there. A removal error of `None`
      covers both "removed" and "was not there". */
  datatype DeleteIo = DeleteIo(
    gitRemove: CommandOutcome,
    fallbackRemoveError: Option<string>,
    finalRemoveError: Option<string>,
    persistError: Option<string>
  )

  /** The error, if any, that stops the removal of the worktree. */
  function RemovalError(io: DeleteIo): (r: Option<string>)
    ensures io.gitRemove.SpawnFailed? ==> r == Some("Failed to run git: " + io.gitRemove.error)
    ensures io.gitRemove.Finished? && io.gitRemove.success && io.finalRemoveError.None? ==> r.None?
    ensures r.None? <==> io.gitRemove.Finished? && (io.gitRemove.success || io.fallbackRemoveError.None?)
                         && io.finalRemoveError.None?
    ensures io.gitRemove.Finished? && !io.gitRemove.success && io.fallbackRemoveError.Some?
            ==> r == Some("Failed to remove worktree directory: " + io.fallbackRemoveError.value)
    ensures io.gitRemove.Finished? && (io.gitRemove.success || io.fallbackRemoveError.None?) && io.finalRemoveError.Some?
            ==> r == Some("Failed to remove worktree directory: " + io.finalRemoveError.value)
  {
    match io.gitRemove
    case SpawnFailed(e) => Some("Failed to run git: " + e)
    case Finished(success, _) =>
      if !success && io.fallbackRemoveError.Some? then
        Some("Failed to remove worktree directory: " + io.fallbackRemoveError.value)
      else if io.finalRemoveError.Some? then
        Some("Failed to remove worktree directory: " + io.finalRemoveError.value)
      else None
  }

  /** `delete_workspace`: find the first workspace with the id, remove its
      worktree unless it is the main one, free ITS port and drop every entry
      with the id. */
  function DeleteWorkspace(data: AppData, id: string, io: DeleteIo): (o: Outcome<()>)
    ensures Seqs.Find(data.workspaces, IdIs(id)).None? ==> o == Outcome(data, Err(NotFound(id)))
    ensures o.data != data ==>
              && Seqs.Find(data.workspaces, IdIs(id)).Some?
              && var first := Seqs.Find(data.workspaces, IdIs(id)).value;
              && (first.isMainWorktree || RemovalError(io).None?)
              && o.data == data.(workspaces := Seqs.Filter(data.workspaces, IdIsNot(id)),
                                 allocatedPorts := data.allocatedPorts - {first.portBase})
    ensures var f := Seqs.Find(data.workspaces, IdIs(id));
            f.Some? && !f.value.isMainWorktree && RemovalError(io).Some? ==> o == Outcome(data, Err(RemovalError(io).value))
    ensures var f := Seqs.Find(data.workspaces, IdIs(id));
            f.Some? && (f.value.isMainWorktree || RemovalError(io).None?) ==>
              o.data == data.(workspaces := Seqs.Filter(data.workspaces, IdIsNot(id)),
                              allocatedPorts := data.allocatedPorts - {f.value.portBase})
    ensures forall i :: 0 <= i < |o.data.workspaces| ==> o.data.workspaces[i].id != id || o.data == data
    ensures o.result.Ok? <==> Seqs.Find(data.workspaces, IdIs(id)).Some? && io.persistError.None?
                              && (Seqs.Find(data.workspaces, IdIs(id)).value.isMainWorktree || RemovalError(io).None?)
  {
    match Seqs.Find(data.workspaces, IdIs(id))
    case None => Outcome(data, Err(NotFound(id)))
    case Some(first) =>
      if !first.isMainWorktree && RemovalError(io).Some? then Outcome(data, Err(RemovalError(io).value))
      else
        var kept := Seqs.Filter(data.workspaces, IdIsNot(id));
        assert forall i :: 0 <= i < |kept| ==> IdIsNot(id)(kept[i]);
        var d := data.(workspaces := kept, allocatedPorts := data.allocatedPorts - {first.portBase});
        Outcome(d, if io.persistError.Some? then Err(io.persistError.value) else Ok(()))
  }

  /** `get_workspace_env`: the environment of the first workspace with the
      id. */
  function GetWorkspaceEnv(data: AppData, id: string): (r: Result<map<string, string>>)
    ensures r.Err? <==> forall i :: 0 <= i < |data.workspaces| ==> data.workspaces[i].id != id
    ensures r.Err? ==> r.error == NotFound(id)
    ensures r.Ok? ==> exists i :: 0 <= i < |data.workspaces| && data.workspaces[i].id == id
                       && data.workspaces[i].envVars == r.value
                       && forall j :: 0 <= j < i ==> data.workspaces[j].id != id
  {
    match Seqs.Find(data.workspaces, IdIs(id))
    case None => Err(NotFound(id))
    case Some(w) => Ok(w.envVars)
  }

  /** Sets the status of the first workspace with the id
      (`archive_workspace` with `Archived`, `restore_workspace` with
      `Active`). */
  function SetStatus(data: AppData, id: string, status: WorkspaceStatus, persistError: Option<string>): (o: Outcome<()>)
    ensures o.data.(workspaces := data.workspaces) == data
    ensures |o.data.workspaces| == |data.workspaces|
    ensures Seqs.FirstIndex(data.workspaces, IdIs(id)).None? ==> o == Outcome(data, Err(NotFound(id)))
    ensures Seqs.FirstIndex(data.workspaces, IdIs(id)).Some? ==>
              && var k := Seqs.FirstIndex(data.workspaces, IdIs(id)).value;
              && o.data.workspaces == data.workspaces[k := data.workspaces[k].(status := status)]
              && (o.result.Ok? <==> persistError.None?)
  {
    match Seqs.FirstIndex(data.workspaces, IdIs(id))
    case None => Outcome(data, Err(NotFound(id)))
    case Some(k) =>
      var d := data.(workspaces := data.workspaces[k := data.workspaces[k].(status := status)]);
      Outcome(d, if persistError.Some? then Err(persistError.value) else Ok(()))
  }

  function ArchiveWorkspace(data: AppData, id: string, persistError: Option<string>): (o: Outcome<()>)
    ensures o == SetStatus(data, id, Archived, persistError)
  {
    SetStatus(data, id, Archived, persistError)
  }

  function RestoreWorkspace(data: AppData, id: string, persistError: Option<string>): (o: Outcome<()>)
    ensures o == SetStatus(data, id, Active, persistError)
  {
    SetStatus(data, id, Active, persistError)
  }

  /** What the store holds under `workspace_configs`. */
  datatype Stored = Missing | Malformed(error: string) | Loaded(configs: seq<WorkspaceConfig>)

  function PortsOf(ws: seq<WorkspaceConfig>): (ports: set<U16>)
    ensures forall i :: 0 <= i < |ws| ==> ws[i].portBase in ports
    ensures forall p :: p in ports ==> exists i :: 0 <= i < |ws| && ws[i].portBase == p
  {
    set i | 0 <= i < |ws| :: ws[i].portBase
  }

  /** `load_workspace_configs`: the stored list replaces the in-memory one
      and its ports join the allocated set; nothing changes when the key is
      missing or the value does not deserialize. */
  function LoadWorkspaceConfigs(data: AppData, storeError: Option<string>, stored: Stored): (o: Outcome<()>)
    ensures storeError.Some? ==> o == Outcome(data, Err(storeError.value))
    ensures storeError.None? && stored.Missing? ==> o == Outcome(data, Ok(()))
    ensures storeError.None? && stored.Malformed? ==> o == Outcome(data, Err(stored.error))
    ensures storeError.None? && stored.Loaded? ==>
              && o.result == Ok(())
              && o.data.workspaces == stored.configs
              && o.data.allocatedPorts == data.allocatedPorts + PortsOf(stored.configs)
              && o.data.(workspaces := data.workspaces, allocatedPorts := data.allocatedPorts) == data
  {
    if storeError.Some? then Outcome(data, Err(storeError.value))
    else match stored
      case Missing => Outcome(data, Ok(()))
      case Malformed(e) => Outcome(data, Err(e))
      case Loaded(configs) =>
        Outcome(data.(workspaces := configs, allocatedPorts := data.allocatedPorts + PortsOf(configs)), Ok(()))
  }

  // Invariants of the allocator's bookkeeping.

  /** Every workspace's port is marked allocated. */
  predicate PortsTracked(data: AppData) {
    forall i :: 0 <= i < |data.workspaces| ==> data.workspaces[i].portBase in data.allocatedPorts
  }

  /** Two workspaces that share neither port nor id. */
  predicate Apart(a: WorkspaceConfig, b: WorkspaceConfig) {
    a.portBase != b.portBase && a.id != b.id
  }

  /** No two workspaces share a port, and no two share an id. */
  predicate Distinct(data: AppData) {
    Seqs.Pairwise(data.workspaces, Apart)
  }

  predicate Inv(data: AppData) {
    PortsTracked(data) && Distinct(data)
  }

  /** A workspace whose port is not allocated and whose id is fresh can
      join a consistent state. */
  lemma AppendPreservesInv(data: AppData, w: WorkspaceConfig)
    requires Inv(data)
    requires w.portBase !in data.allocatedPorts
    requires forall i :: 0 <= i < |data.workspaces| ==> data.workspaces[i].id != w.id
    ensures Inv(data.(workspaces := data.workspaces + [w], allocatedPorts := data.allocatedPorts + {w.portBase}))
  {
    forall i | 0 <= i < |data.workspaces| ensures Apart(data.workspaces[i], w) {
      assert data.workspaces[i].portBase in data.allocatedPorts;
    }
    Seqs.PairwiseSnoc(data.workspaces, w, Apart);
    var ws := data.workspaces + [w];
    forall i | 0 <= i < |ws| ensures ws[i].portBase in data.allocatedPorts + {w.portBase} {
      if i < |data.workspaces| {
        assert ws[i] == data.workspaces[i];
      }
    }
  }

  /** Creating a workspace under a fresh id keeps the bookkeeping consistent:
      the allocator never hands out a port a workspace already holds. */
  lemma CreatePreservesInv(data: AppData, repoPath: string, name: string, branch: Option<string>,
                           baseBranch: Option<string>, io: CreateIo)
    requires Inv(data)
    requires forall i :: 0 <= i < |data.workspaces| ==> data.workspaces[i].id != Uuid.UuidV4(io.nowNanos)
    ensures Inv(CreateWorkspace(data, repoPath, name, branch, baseBranch, io).data)
  {
    var o := CreateWorkspace(data, repoPath, name, branch, baseBranch, io);
    if o.data != data {
      AppendPreservesInv(data, o.data.workspaces[|data.workspaces|]);
    }
  }

  lemma CreateForMainPreservesInv(data: AppData, repoPath: string, name: string, io: MainIo)
    requires Inv(data)
    requires forall i :: 0 <= i < |data.workspaces| ==> data.workspaces[i].id != Uuid.UuidV4(io.nowNanos)
    ensures Inv(CreateWorkspaceForMain(data, repoPath, name, io).data)
  {
    var o := CreateWorkspaceForMain(data, repoPath, name, io);
    if o.data != data {
      var w := o.data.workspaces[|data.workspaces|];
      assert w.id == Uuid.UuidV4(io.nowNanos);
      AppendPreservesInv(data, w);
    }
  }

  lemma DeletePreservesInv(data: AppData, id: string, io: DeleteIo)
    requires Inv(data)
    ensures Inv(DeleteWorkspace(data, id, io).data)
  {
    var o := DeleteWorkspace(data, id, io);
    if o.data != data {
      var ws := data.workspaces;
      var first := Seqs.Find(ws, IdIs(id)).value;
      var k :| 0 <= k < |ws| && ws[k] == first && IdIs(id)(ws[k]);
      Seqs.FilterPairwise(ws, IdIsNot(id), Apart);
      KeptPortsTracked(ws, data.allocatedPorts, id, k);
    }
  }

  /** Dropping the entries with an id keeps every other port, and none of
      them is the port of a dropped entry, so freeing that port leaves the
      kept ones tracked. */
  lemma KeptPortsTracked(ws: seq<WorkspaceConfig>, ports: set<U16>, id: string, k: nat)
    requires Seqs.Pairwise(ws, Apart)
    requires forall i :: 0 <= i < |ws| ==> ws[i].portBase in ports
    requires k < |ws| && ws[k].id == id
    ensures var kept := Seqs.Filter(ws, IdIsNot(id));
            forall i :: 0 <= i < |kept| ==> kept[i].portBase in ports - {ws[k].portBase}
  {
    var kept := Seqs.Filter(ws, IdIsNot(id));
    forall i | 0 <= i < |kept| ensures kept[i].portBase in ports - {ws[k].portBase} {
      assert kept[i] in ws && IdIsNot(id)(kept[i]);
      var m :| 0 <= m < |ws| && ws[m] == kept[i];
      assert m != k;
      if m < k {
        assert Apart(ws[m], ws[k]);
      } else {
        assert Apart(ws[k], ws[m]);
      }
    }
  }

  lemma SetStatusPreservesInv(data: AppData, id: string, status: WorkspaceStatus, persistError: Option<string>)
    requires Inv(data)
    ensures Inv(SetStatus(data, id, status, persistError).data)
  {
  }

  /** After a load every loaded workspace's port is taken, whatever was
      allocated before; distinctness is not checked on load. */
  lemma LoadTracksPorts(data: AppData, stored: Stored)
    requires stored.Loaded?
    ensures PortsTracked(LoadWorkspaceConfigs(data, None, stored).data)
  {
  }

  /** Deleting a workspace just created, with every removal succeeding, gives
      back the workspaces and ports from before. */
  lemma DeleteUndoesCreate(data: AppData, repoPath: string, name: string, branch: Option<string>,
                           baseBranch: Option<string>, io: CreateIo, dio: DeleteIo)
    requires forall i :: 0 <= i < |data.workspaces| ==> data.workspaces[i].id != Uuid.UuidV4(io.nowNanos)
    requires CreateWorkspace(data, repoPath, name, branch, baseBranch, io).data != data
    requires RemovalError(dio).None?
    ensures var created := CreateWorkspace(data, repoPath, name, branch, baseBranch, io).data;
            DeleteWorkspace(created, Uuid.UuidV4(io.nowNanos), dio).data == data
  {
    var created := CreateWorkspace(data, repoPath, name, branch, baseBranch, io).data;
    var id := Uuid.UuidV4(io.nowNanos);
    var w := created.workspaces[|data.workspaces|];
    assert w.id == id && w.portBase !in data.allocatedPorts;
    RemoveAppended(data, w, dio);
  }

  /** Deleting the id of a workspace appended under a fresh id and port
      restores the state before the append. */
  lemma RemoveAppended(data: AppData, w: WorkspaceConfig, dio: DeleteIo)
    requires w.portBase !in data.allocatedPorts
    requires forall i :: 0 <= i < |data.workspaces| ==> data.workspaces[i].id != w.id
    requires RemovalError(dio).None?
    ensures DeleteWorkspace(data.(workspaces := data.workspaces + [w], allocatedPorts := data.allocatedPorts + {w.portBase}),
                            w.id, dio).data == data
  {
    var ws := data.workspaces + [w];
    assert ws[|data.workspaces|] == w;
    assert Seqs.Find(ws, IdIs(w.id)) == Some(w);
    Seqs.FilterAppend(data.workspaces, [w], IdIsNot(w.id));
    Seqs.FilterAll(data.workspaces, IdIsNot(w.id));
    assert Seqs.Filter([w], IdIsNot(w.id)) == [];
    assert data.allocatedPorts + {w.portBase} - {w.portBase} == data.allocatedPorts;
  }

  /** Restoring an archived workspace that was active returns the state
      before the archive. */
  lemma RestoreUndoesArchive(data: AppData, id: string)
    requires forall i :: 0 <= i < |data.workspaces| && data.workspaces[i].id == id ==> data.workspaces[i].status == Active
    ensures RestoreWorkspace(ArchiveWorkspace(data, id, None).data, id, None).data == data
  {
    match Seqs.FirstIndex(data.workspaces, IdIs(id))
    case None =>
    case Some(k) =>
      var archived := ArchiveWorkspace(data, id, None).data;
      assert Seqs.FirstIndex(archived.workspaces, IdIs(id)) == Some(k) by {
        FirstIndexAfterStatus(data.workspaces, id, k, Archived);
      }
  }

  /** Changing the status of the first match does not move the first match. */
  lemma FirstIndexAfterStatus(ws: seq<WorkspaceConfig>, id: string, k: nat, status: WorkspaceStatus)
    requires Seqs.FirstIndex(ws, IdIs(id)) == Some(k)
    ensures Seqs.FirstIndex(ws[k := ws[k].(status := status)], IdIs(id)) == Some(k)
  {
    var ws' := ws[k := ws[k].(status := status)];
    assert IdIs(id)(ws'[k]);
    assert forall j :: 0 <= j < k ==> ws'[j] == ws[j];
    Seqs.FirstIndexIs(ws', IdIs(id), k);
  }

  /** Archiving twice is archiving once. */
  lemma ArchiveIdempotent(data: AppData, id: string)
    ensures ArchiveWorkspace(ArchiveWorkspace(data, id, None).data, id, None).data == ArchiveWorkspace(data, id, None).data
  {
    match Seqs.FirstIndex(data.workspaces, IdIs(id))
    case None =>
    case Some(k) =>
      FirstIndexAfterStatus(data.workspaces, id, k, Archived);
  }

  /** Once a workspace holds a port, the allocator skips it. */
  lemma AllocatorSkipsHeldPorts(data: AppData, available: U16 -> bool)
    requires PortsTracked(data)
    ensures AllocatePortRange(data.allocatedPorts, available).Ok? ==>
              forall i :: 0 <= i < |data.workspaces| ==>
                data.workspaces[i].portBase != AllocatePortRange(data.allocatedPorts, available).value
  {
  }
}

=== FILE: worktree_dialog.dfy ===
/** The new-worktree dialog (src/components/sidebar/CreateWorktreeDialog.tsx):
    the branch picker's search and its split into local and remote branches,
    the rewriting of typed names (each run of whitespace becomes one `-`),
    and the arguments a submit passes on to `create_worktree`. */
module WorktreeDialog {

  import opened Wrappers
  import opened Strings
  import opened Models
  import Seqs
  import Worktrees

  // ---------------------------------------------------------------------------
  // Branch search and split
  // ---------------------------------------------------------------------------

  /** The branch's lower-cased name contains the (lower-cased) query. */
  function NameMatches(q: string): BranchInfo -> bool {
    (b: BranchInfo) => Contains(Lower(b.name), q)
  }

  /** `filteredBranches`: all branches for an empty search, otherwise those
      whose name contains the search without regard to case, in order. */
  function FilteredBranches(branches: seq<BranchInfo>, search: string): (r: seq<BranchInfo>)
    ensures search == "" ==> r == branches
    ensures forall i :: 0 <= i < |r| ==> r[i] in branches && Contains(Lower(r[i].name), Lower(search))
    ensures forall i :: 0 <= i < |branches| && Contains(Lower(branches[i].name), Lower(search)) ==> branches[i] in r
  {
    if search == "" then
      forall i | 0 <= i < |branches| ensures Contains(Lower(branches[i].name), Lower(search)) {
        assert Lower(search) == "";
        ContainsEmpty(Lower(branches[i].name));
      }
      branches
    else
      var r := Seqs.Filter(branches, NameMatches(Lower(search)));
      assert forall i :: 0 <= i < |r| ==> NameMatches(Lower(search))(r[i]);
      r
  }

  /** The empty-search shortcut changes nothing: every name contains the
      empty string, so filtering would keep every branch anyway. */
  lemma EmptySearchKeepsAll(branches: seq<BranchInfo>)
    ensures FilteredBranches(branches, "") == Seqs.Filter(branches, NameMatches(Lower("")))
  {
    forall i | 0 <= i < |branches| ensures NameMatches(Lower(""))(branches[i]) {
      assert Lower("") == "";
      ContainsEmpty(Lower(branches[i].name));
    }
    Seqs.FilterAll(branches, NameMatches(Lower("")));
  }

  /** The search keeps the list order: searching a list made of two parts
      searches each part. */
  lemma SearchKeepsOrder(a: seq<BranchInfo>, b: seq<BranchInfo>, search: string)
    ensures FilteredBranches(a + b, search) == FilteredBranches(a, search) + FilteredBranches(b, search)
  {
    if search != "" {
      Seqs.FilterAppend(a, b, NameMatches(Lower(search)));
    }
  }

  function IsRemote(b: BranchInfo): bool {
    b.isRemote
  }

  function IsLocal(b: BranchInfo): bool {
    !b.isRemote
  }

  /** `localBranches`. */
  function LocalBranches(filtered: seq<BranchInfo>): (r: seq<BranchInfo>)
    ensures r == Seqs.Filter(filtered, IsLocal)
    ensures forall i :: 0 <= i < |r| ==> !r[i].isRemote && r[i] in filtered
    ensures forall i :: 0 <= i < |filtered| && !filtered[i].isRemote ==> filtered[i] in r
  {
    var r := Seqs.Filter(filtered, IsLocal);
    assert forall i :: 0 <= i < |r| ==> IsLocal(r[i]);
    r
  }

  /** `remoteBranches`. */
  function RemoteBranches(filtered: seq<BranchInfo>): (r: seq<BranchInfo>)
    ensures r == Seqs.Filter(filtered, IsRemote)
    ensures forall i :: 0 <= i < |r| ==> r[i].isRemote && r[i] in filtered
    ensures forall i :: 0 <= i < |filtered| && filtered[i].isRemote ==> filtered[i] in r
  {
    var r := Seqs.Filter(filtered, IsRemote);
    assert forall i :: 0 <= i < |r| ==> IsRemote(r[i]);
    r
  }

  /** The two lists split the filtered branches: together they are as long as
      it, and each keeps the order of its part. */
  lemma {:induction false} SplitPartitions(filtered: seq<BranchInfo>)
    ensures |LocalBranches(filtered)| + |RemoteBranches(filtered)| == |filtered|
    decreases |filtered|
  {
    if |filtered| > 0 {
      SplitPartitions(filtered[1..]);
    }
  }

  /** On the backend's list, where every local branch comes first, the split
      gives back exactly the backend's local and remote loops. */
  lemma SplitRecoversBackendLoops(locals: Result<seq<Result<Worktrees.GitBranch>>>,
                                  remotes: Result<seq<Result<Worktrees.GitBranch>>>)
    ensures var ls := Worktrees.LocalEntries(Worktrees.ItemsOr(locals));
            var rs := Worktrees.RemoteEntries(Worktrees.ItemsOr(remotes));
            var bs := Worktrees.ListBranches(None, locals, remotes).value;
            LocalBranches(bs) == ls && RemoteBranches(bs) == rs
  {
    var ls := Worktrees.LocalEntries(Worktrees.ItemsOr(locals));
    var rs := Worktrees.RemoteEntries(Worktrees.ItemsOr(remotes));
    Worktrees.LocalEntriesAreLocal(Worktrees.ItemsOr(locals));
    Worktrees.RemoteEntriesAreListed(Worktrees.ItemsOr(remotes));
    Seqs.FilterAppend(ls, rs, IsLocal);
    Seqs.FilterAppend(ls, rs, IsRemote);
    Seqs.FilterAll(ls, IsLocal);
    Seqs.FilterAll(rs, IsRemote);
    Seqs.FilterNone(rs, IsLocal);
    Seqs.FilterNone(ls, IsRemote);
  }

  // ---------------------------------------------------------------------------
  // Name rewriting
  // ---------------------------------------------------------------------------

  /** `value.replace(/\s+/g, "-")`: every maximal run of whitespace becomes a
      single `-`. */
  function Dashes(s: string): (r: string)
    ensures forall i :: 0 <= i < |r| ==> !IsJsSpace(r[i])
    ensures r == "" <==> s == ""
    decreases |s|
  {
    if |s| == 0 then ""
    else if IsJsSpace(s[0]) then
      var n := LeadingCount(s, IsJsSpace);
      "-" + Dashes(s[n..])
    else [s[0]] + Dashes(s[1..])
  }

  predicate NoSpace(s: string) {
    forall i :: 0 <= i < |s| ==> !IsJsSpace(s[i])
  }

  /** Text without whitespace is left alone. */
  lemma {:induction false} NoSpaceUnchanged(s: string)
    requires NoSpace(s)
    ensures Dashes(s) == s
    decreases |s|
  {
    if |s| > 0 {
      assert NoSpace(s[1..]) by {
        forall i | 0 <= i < |s[1..]| ensures !IsJsSpace(s[1..][i]) {
          assert s[1..][i] == s[i + 1];
        }
      }
      NoSpaceUnchanged(s[1..]);
      assert s == [s[0]] + s[1..];
    }
  }

  /** Rewriting twice is rewriting once. */
  lemma DashesIdempotent(s: string)
    ensures Dashes(Dashes(s)) == Dashes(s)
  {
    NoSpaceUnchanged(Dashes(s));
  }

  /** A whitespace run stops where the next non-space begins. */
  lemma RunLength(run: string, rest: string)
    requires |run| > 0 && forall i :: 0 <= i < |run| ==> IsJsSpace(run[i])
    requires rest == "" || !IsJsSpace(rest[0])
    ensures LeadingCount(run + rest, IsJsSpace) == |run|
  {
    var s := run + rest;
    var n := LeadingCount(s, IsJsSpace);
    assert forall i :: 0 <= i < |run| ==> s[i] == run[i];
    assert |rest| > 0 ==> s[|run|] == rest[0];
  }

  /** A word, then a run of whitespace, then text that does not start with
      whitespace: the word is kept and the whole run becomes one `-`. */
  lemma {:induction false} RunBecomesOneDash(word: string, run: string, rest: string)
    requires NoSpace(word)
    requires |run| > 0 && forall i :: 0 <= i < |run| ==> IsJsSpace(run[i])
    requires rest == "" || !IsJsSpace(rest[0])
    ensures Dashes(word + run + rest) == word + "-" + Dashes(rest)
    decreases |word|
  {
    if |word| == 0 {
      var s := run + rest;
      assert word + run + rest == s;
      RunLength(run, rest);
      assert s[|run|..] == rest;
    } else {
      var tail := word[1..] + run + rest;
      assert word + run + rest == [word[0]] + tail;
      DashesCons(word[0], tail);
      NoSpaceTail(word);
      RunBecomesOneDash(word[1..], run, rest);
      assert word + "-" + Dashes(rest) == [word[0]] + (word[1..] + "-" + Dashes(rest));
    }
  }

  /** A character that is not whitespace is kept as it is. */
  lemma DashesCons(c: char, t: string)
    requires !IsJsSpace(c)
    ensures Dashes([c] + t) == [c] + Dashes(t)
  {
    assert ([c] + t)[1..] == t;
  }

  lemma NoSpaceTail(s: string)
    requires |s| > 0 && NoSpace(s)
    ensures NoSpace(s[1..])
  {
    forall i | 0 <= i < |s[1..]| ensures !IsJsSpace(s[1..][i]) {
      assert s[1..][i] == s[i + 1];
    }
  }

  /** Text without whitespace at its ends trims to itself. */
  lemma TrimNoSpace(s: string)
    requires NoSpace(s)
    ensures TrimJs(s) == s
  {
    assert LeadingCount(s, IsJsSpace) == 0;
    assert TrailingCount(s, IsJsSpace) == 0;
  }

  // ---------------------------------------------------------------------------
  // Dialog state and submit
  // ---------------------------------------------------------------------------

  /** The dialog's state: the typed name and branch, the chosen base, the
      default branch, the loaded branches and the picker's search text. */
  datatype Dialog = Dialog(
    name: string,
    customBranch: string,
    baseBranch: string,
    defaultBranch: string,
    branches: seq<BranchInfo>,
    branchSearch: string
  )

  /** The dialog right after opening, once both loads have answered: the
      default branch (or `main` when it could not be had) also becomes the
      base on success; a failed branch load leaves no branches. */
  function Open(defaultBranch: Result<string>, branches: Result<seq<BranchInfo>>): (d: Dialog)
    ensures d.name == "" && d.customBranch == "" && d.branchSearch == ""
    ensures defaultBranch.Ok? ==> d.defaultBranch == defaultBranch.value && d.baseBranch == defaultBranch.value
    ensures defaultBranch.Err? ==> d.defaultBranch == "main" && d.baseBranch == ""
    ensures branches.Ok? ==> d.branches == branches.value
    ensures branches.Err? ==> d.branches == []
  {
    var (def, base) := if defaultBranch.Ok? then (defaultBranch.value, defaultBranch.value) else ("main", "");
    Dialog("", "", base, def, if branches.Ok? then branches.value else [], "")
  }

  /** Typing in the name field stores the rewritten text. */
  function TypeName(d: Dialog, typed: string): (r: Dialog)
    ensures NoSpace(r.name)
    ensures r.(name := d.name) == d
  {
    d.(name := Dashes(typed))
  }

  /** Typing in the branch field stores the rewritten text. */
  function TypeBranch(d: Dialog, typed: string): (r: Dialog)
    ensures NoSpace(r.customBranch)
    ensures r.(customBranch := d.customBranch) == d
  {
    d.(customBranch := Dashes(typed))
  }

  /** Picking a branch in the picker makes it the base and clears the search. */
  function PickBase(d: Dialog, b: BranchInfo): (r: Dialog)
    ensures r.baseBranch == b.name && r.branchSearch == ""
    ensures r.(baseBranch := d.baseBranch, branchSearch := d.branchSearch) == d
  {
    d.(baseBranch := b.name, branchSearch := "")
  }

  /** What a submit hands to `create_worktree`; `None` stands for
      `undefined`. */
  datatype SubmitArgs = SubmitArgs(name: string, branch: Option<string>, baseBranch: Option<string>)

  /** `handleSubmit`: nothing for a blank name; otherwise the trimmed name,
      the trimmed custom branch unless it is blank, and the chosen base, else
      the default branch, unless both are empty. */
  function Submit(d: Dialog): (r: Option<SubmitArgs>)
    ensures r.None? <==> TrimJs(d.name) == ""
    ensures r.Some? ==> r.value.name == TrimJs(d.name) && r.value.name != ""
    ensures r.Some? ==> (r.value.branch.None? <==> TrimJs(d.customBranch) == "")
    ensures r.Some? && r.value.branch.Some? ==> r.value.branch.value == TrimJs(d.customBranch)
    ensures r.Some? && d.baseBranch != "" ==> r.value.baseBranch == Some(d.baseBranch)
    ensures r.Some? && d.baseBranch == "" && d.defaultBranch != "" ==> r.value.baseBranch == Some(d.defaultBranch)
    ensures r.Some? && d.baseBranch == "" && d.defaultBranch == "" ==> r.value.baseBranch.None?
  {
    if TrimJs(d.name) == "" then None
    else
      var branch := if TrimJs(d.customBranch) != "" then Some(TrimJs(d.customBranch)) else None;
      var base := if d.baseBranch != "" then Some(d.baseBranch)
                  else if d.defaultBranch != "" then Some(d.defaultBranch) else None;
      Some(SubmitArgs(TrimJs(d.name), branch, base))
  }

  /** The base branch line of the dialog: the base, else the default, else a
      dash. */
  function BaseShown(d: Dialog): string {
    if d.baseBranch != "" then d.baseBranch else if d.defaultBranch != "" then d.defaultBranch else "—"
  }

  /** The dialog submits the base it shows, and submits none only when it
      shows the dash for want of one. */
  lemma SubmitsShownBase(d: Dialog)
    requires Submit(d).Some?
    ensures var base := Submit(d).value.baseBranch;
            && (base.Some? ==> BaseShown(d) == base.value)
            && (base.None? ==> BaseShown(d) == "—")
  {
  }

  /** A typed name is submitted exactly as rewritten: the rewrite leaves no
      whitespace for the trim to remove, and only an empty field is refused. */
  lemma TypedNameSubmitted(d: Dialog, typed: string)
    ensures var r := Submit(TypeName(d, typed));
            && (r.None? <==> typed == "")
            && (r.Some? ==> r.value.name == Dashes(typed))
  {
    TrimNoSpace(Dashes(typed));
  }

  /** After opening, the base a submit passes on is the backend's default
      branch when it has a name, and `main` when it could not be had. */
  lemma OpenedDialogBase(defaultBranch: Result<string>, branches: Result<seq<BranchInfo>>, typed: string)
    requires typed != ""
    ensures var r := Submit(TypeName(Open(defaultBranch, branches), typed));
            && r.Some?
            && (defaultBranch.Ok? && defaultBranch.value != "" ==> r.value.baseBranch == Some(defaultBranch.value))
            && (defaultBranch.Err? ==> r.value.baseBranch == Some("main"))
  {
    TypedNameSubmitted(Open(defaultBranch, branches), typed);
  }

  /** Submitting with no custom branch creates a worktree whose branch is its
      name; with one, the worktree gets that branch. */
  lemma SubmitThenCreate(d: Dialog, repoPath: string, io: Worktrees.CreateIo)
    requires Submit(d).Some?
    requires var a := Submit(d).value; Worktrees.CreateWorktree(repoPath, a.name, a.branch, a.baseBranch, io).Ok?
    ensures var a := Submit(d).value;
            var w := Worktrees.CreateWorktree(repoPath, a.name, a.branch, a.baseBranch, io).value;
            && w.name == TrimJs(d.name)
            && w.branch == Some(if TrimJs(d.customBranch) == "" then TrimJs(d.name) else TrimJs(d.customBranch))
  {
  }
}

=== FILE: worktrees.dfy ===
/** The git worktree commands (src-tauri/src/commands/worktrees.rs): listing
    branches, choosing the default branch, listing worktrees and creating one.
    What libgit2, the file system and the `git` process report are
    parameters. */
module Worktrees {

  import opened Wrappers
  import opened Strings
  import opened Models
  import Paths
  import Seqs
  import WorkspaceLifecycle

  // ---------------------------------------------------------------------------
  // list_branches
  // ---------------------------------------------------------------------------

  /** A branch as libgit2 yields it: its name (an error, or None when it is
      not valid UTF-8) and whether HEAD points at it. */
  datatype GitBranch = GitBranch(name: Result<Option<string>>, isHead: bool)

  /** An item of a branch iterator has a usable name. */
  function IsNamed(item: Result<GitBranch>): bool {
    item.Ok? && item.value.name.Ok? && item.value.name.value.Some?
  }

  function NameOf(item: Result<GitBranch>): string
    requires IsNamed(item)
  {
    item.value.name.value.value
  }

  /** A remote item that is listed: named, and not a `<remote>/HEAD` reference. */
  function IsListedRemote(item: Result<GitBranch>): bool {
    IsNamed(item) && !EndsWith(NameOf(item), "/HEAD")
  }

  /** The loop over local branches: every named item, in iterator order. */
  function LocalEntries(items: seq<Result<GitBranch>>): (r: seq<BranchInfo>)
    ensures |r| == |Seqs.Filter(items, IsNamed)|
    ensures forall k :: 0 <= k < |r| ==>
              var item := Seqs.Filter(items, IsNamed)[k];
              IsNamed(item) && r[k] == BranchInfo(NameOf(item), false, item.value.isHead)
    decreases |items|
  {
    if |items| == 0 then []
    else if IsNamed(items[0]) then [BranchInfo(NameOf(items[0]), false, items[0].value.isHead)] + LocalEntries(items[1..])
    else LocalEntries(items[1..])
  }

  /** The loop over remote branches: every named item except the HEAD
      references, in iterator order, never marked as HEAD. */
  function RemoteEntries(items: seq<Result<GitBranch>>): (r: seq<BranchInfo>)
    ensures |r| == |Seqs.Filter(items, IsListedRemote)|
    ensures forall k :: 0 <= k < |r| ==>
              var item := Seqs.Filter(items, IsListedRemote)[k];
              IsListedRemote(item) && r[k] == BranchInfo(NameOf(item), true, false)
    decreases |items|
  {
    if |items| == 0 then []
    else if IsListedRemote(items[0]) then [BranchInfo(NameOf(items[0]), true, false)] + RemoteEntries(items[1..])
    else RemoteEntries(items[1..])
  }

  /** The items of an iterator, or none when libgit2 could not list them. */
  function ItemsOr(items: Result<seq<Result<GitBranch>>>): seq<Result<GitBranch>> {
    if items.Ok? then items.value else []
  }

  /** `list_branches`: the local branches, then the remote ones. */
  function ListBranches(openError: Option<string>, locals: Result<seq<Result<GitBranch>>>,
                        remotes: Result<seq<Result<GitBranch>>>): (r: Result<seq<BranchInfo>>)
    ensures openError.Some? <==> r.Err?
    ensures openError.Some? ==> r.error == "Failed to open repo: " + openError.value
    ensures r.Ok? ==> r.value == LocalEntries(ItemsOr(locals)) + RemoteEntries(ItemsOr(remotes))
  {
    if openError.Some? then Err("Failed to open repo: " + openError.value)
    else Ok(LocalEntries(ItemsOr(locals)) + RemoteEntries(ItemsOr(remotes)))
  }

  /** `a` may come before `b`: no remote branch precedes a local one. */
  function LocalFirst(a: BranchInfo, b: BranchInfo): bool {
    !b.isRemote ==> !a.isRemote
  }

  /** Every local branch comes before every remote one, and no listed remote
      branch is a HEAD reference or marked as HEAD. */
  lemma LocalsBeforeRemotes(openError: Option<string>, locals: Result<seq<Result<GitBranch>>>,
                            remotes: Result<seq<Result<GitBranch>>>)
    requires openError.None?
    ensures var bs := ListBranches(openError, locals, remotes).value;
            && Seqs.Pairwise(bs, LocalFirst)
            && forall k :: 0 <= k < |bs| && bs[k].isRemote ==> !bs[k].isHead && !EndsWith(bs[k].name, "/HEAD")
  {
    var ls, rs := LocalEntries(ItemsOr(locals)), RemoteEntries(ItemsOr(remotes));
    var bs := ls + rs;
    LocalEntriesAreLocal(ItemsOr(locals));
    RemoteEntriesAreListed(ItemsOr(remotes));
    forall i, j | 0 <= i < j < |bs| ensures LocalFirst(bs[i], bs[j]) {
      if j < |ls| {
        assert bs[i] == ls[i];
      } else {
        assert bs[j] == rs[j - |ls|];
      }
    }
    forall k | 0 <= k < |ls| ensures !bs[k].isRemote {
      assert bs[k] == ls[k];
    }
    forall k | 0 <= k < |bs| && bs[k].isRemote ensures !bs[k].isHead && !EndsWith(bs[k].name, "/HEAD") {
      assert bs[k] == rs[k - |ls|];
    }
  }

  /** The local loop marks nothing as remote. */
  lemma LocalEntriesAreLocal(items: seq<Result<GitBranch>>)
    ensures forall k :: 0 <= k < |LocalEntries(items)| ==> !LocalEntries(items)[k].isRemote
  {
  }

  /** The remote loop marks everything remote, nothing as HEAD, and skips the
      HEAD references. */
  lemma RemoteEntriesAreListed(items: seq<Result<GitBranch>>)
    ensures forall k :: 0 <= k < |RemoteEntries(items)| ==>
              var b := RemoteEntries(items)[k];
              b.isRemote && !b.isHead && !EndsWith(b.name, "/HEAD")
  {
    var rs := RemoteEntries(items);
    forall k | 0 <= k < |rs| ensures rs[k].isRemote && !rs[k].isHead && !EndsWith(rs[k].name, "/HEAD") {
      var item := Seqs.Filter(items, IsListedRemote)[k];
      assert IsListedRemote(item) && rs[k] == BranchInfo(NameOf(item), true, false);
    }
  }

  // ---------------------------------------------------------------------------
  // get_default_branch
  // ---------------------------------------------------------------------------

  /** What the repository says about its default branch: the short name of
      what `refs/remotes/origin/HEAD` resolves to (None when any step fails),
      whether `refs/remotes/origin/main` and `refs/remotes/origin/master`
      exist, and the short name of HEAD. */
  datatype DefaultBranchIo = DefaultBranchIo(
    originHead: Option<string>,
    hasOriginMain: bool,
    hasOriginMaster: bool,
    headShorthand: Option<string>
  )

  /** `get_default_branch`: the first of origin's HEAD, `origin/main`,
      `origin/master`, the current HEAD and finally `main`. */
  function DefaultBranch(openError: Option<string>, io: DefaultBranchIo): (r: Result<string>)
    ensures openError.Some? <==> r.Err?
    ensures openError.Some? ==> r.error == "Failed to open repo: " + openError.value
    ensures r.Ok? && io.originHead.Some? ==> r.value == io.originHead.value
    ensures r.Ok? && io.originHead.None? && io.hasOriginMain ==> r.value == "origin/main"
    ensures r.Ok? && io.originHead.None? && !io.hasOriginMain && io.hasOriginMaster ==> r.value == "origin/master"
    ensures r.Ok? && io.originHead.None? && !io.hasOriginMain && !io.hasOriginMaster && io.headShorthand.Some? ==>
              r.value == io.headShorthand.value
    ensures r.Ok? && io.originHead.None? && !io.hasOriginMain && !io.hasOriginMaster && io.headShorthand.None? ==>
              r.value == "main"
  {
    if openError.Some? then Err("Failed to open repo: " + openError.value)
    else if io.originHead.Some? then Ok(io.originHead.value)
    else if io.hasOriginMain then Ok("origin/main")
    else if io.hasOriginMaster then Ok("origin/master")
    else if io.headShorthand.Some? then Ok(io.headShorthand.value)
    else Ok("main")
  }

  /** The sources in the order they are tried; `main` is the last resort and
      is always available. */
  function DefaultSources(io: DefaultBranchIo): seq<Option<string>> {
    [io.originHead,
     if io.hasOriginMain then Some("origin/main") else None,
     if io.hasOriginMaster then Some("origin/master") else None,
     io.headShorthand,
     Some("main")]
  }

  function IsSomeName(o: Option<string>): bool {
    o.Some?
  }

  /** The default branch is the first source that has a name. */
  lemma DefaultIsFirstSource(io: DefaultBranchIo)
    ensures var sources := DefaultSources(io);
            var k := Seqs.FirstIndex(sources, IsSomeName);
            k.Some? && DefaultBranch(None, io) == Ok(sources[k.value].value)
  {
    var sources := DefaultSources(io);
    var k: nat := if io.originHead.Some? then 0 else if io.hasOriginMain then 1
                  else if io.hasOriginMaster then 2 else if io.headShorthand.Some? then 3 else 4;
    Seqs.FirstIndexIs(sources, IsSomeName, k);
  }

  // ---------------------------------------------------------------------------
  // list_worktrees
  // ---------------------------------------------------------------------------

  /** `Path::parent` on a Unix path given as text: None for the empty path
      and the root, "" for a single relative component, otherwise everything
      before the last component with the separators between them dropped
      ("/" when only the root is left). */
  function Parent(p: string): (r: Option<string>)
    ensures r.Some? ==> |r.value| < |p|
    ensures r.None? <==> forall i :: 0 <= i < |p| ==> p[i] == '/'
    ensures r == Some("/") ==> p[0] == '/'
    ensures r.Some? && r.value != "" && r.value != "/" ==>
              StartsWith(p, r.value + "/") && r.value[|r.value| - 1] != '/'
  {
    var t := TrimEndChar(p, '/');
    if t == "" then None
    else
      assert p[|t| - 1] == t[|t| - 1];
      match LastIndexOf(t, '/')
      case None => Some("")
      case Some(i) =>
        var d := TrimEndChar(t[..i], '/');
        assert p[..|t|][..i] == p[..i];
        if d == "" then Some("/")
        else
          assert p[..|d| + 1] == d + "/";
          Some(d)
  }

  /** The parent of `dir/c`, for a single normal component `c`, is `dir`,
      when `dir` does not end in `/`. */
  lemma ParentOfChild(dir: string, c: string)
    requires dir != "" && dir[|dir| - 1] != '/'
    requires c != "" && c != "." && '/' !in c
    ensures Parent(dir + "/" + c) == Some(dir)
  {
    var p := dir + "/" + c;
    assert p[|p| - 1] == c[|c| - 1];
    assert TrimEndChar(p, '/') == p;
    var i := |dir|;
    assert p[i] == '/';
    assert forall j :: i < j < |p| ==> p[j] == c[j - i - 1];
    assert LastIndexOf(p, '/') == Some(i);
    assert p[..i] == dir;
    assert TrimEndChar(dir, '/') == dir;
  }

  /** The parent of `dir/.git` is `dir`, for a directory with a name that
      does not end in `/`. */
  lemma ParentOfGitFile(dir: string)
    requires dir != "" && dir[|dir| - 1] != '/'
    ensures Parent(dir + "/.git") == Some(dir)
  {
    assert dir + "/.git" == dir + "/" + ".git";
    ParentOfChild(dir, ".git");
  }

  /** What libgit2 and the file system say about one linked worktree: its
      name (None when not valid UTF-8), whether `find_worktree` finds it, its
      administrative directory, the `gitdir` file there (None when there is
      none; otherwise the read result) and the short name of its HEAD. */
  datatype LinkedIo = LinkedIo(
    name: Option<string>,
    found: bool,
    adminPath: string,
    gitdir: Option<Result<string>>,
    branch: Option<string>
  )

  /** The working directory of a linked worktree: the parent of the `.git`
      file named in `gitdir` (read as "" on error), or the administrative
      directory when there is no `gitdir` file or it names no parent. */
  function LinkedPath(w: LinkedIo): (r: string)
    ensures w.gitdir.None? ==> r == w.adminPath
    ensures w.gitdir.Some? ==>
              var parent := Parent(TrimRust(if w.gitdir.value.Ok? then w.gitdir.value.value else ""));
              r == if parent.Some? then parent.value else w.adminPath
  {
    match w.gitdir
    case None => w.adminPath
    case Some(read) =>
      var content := if read.Ok? then read.value else "";
      match Parent(TrimRust(content))
      case Some(dir) => dir
      case None => w.adminPath
  }

  /** A `gitdir` file holding `dir/.git` and a line break gives `dir`. */
  lemma GitdirGivesWorktreeDir(w: LinkedIo, dir: string)
    requires dir != "" && dir[|dir| - 1] != '/' && !IsUnicodeSpace(dir[0])
    requires w.gitdir == Some(Ok(dir + "/.git\n"))
    ensures LinkedPath(w) == dir
  {
    var content := dir + "/.git\n";
    assert TrimStart(content, IsUnicodeSpace) == content;
    assert TrailingCount(content, IsUnicodeSpace) == 1 by {
      assert content[..|content| - 1] == dir + "/.git";
    }
    assert TrimRust(content) == dir + "/.git";
    ParentOfGitFile(dir);
  }

  /** An unreadable `gitdir` file reads as "", which has no parent, so the
      administrative directory is reported. */
  lemma UnreadableGitdirGivesAdminPath(w: LinkedIo, e: string)
    requires w.gitdir == Some(Err(e))
    ensures LinkedPath(w) == w.adminPath
  {
    assert TrimRust("") == "";
  }

  /** A linked worktree that appears in the listing. */
  function IsListedWorktree(w: LinkedIo): bool {
    w.name.Some? && w.found
  }

  function LinkedInfo(w: LinkedIo): WorktreeInfo
    requires IsListedWorktree(w)
  {
    WorktreeInfo(w.name.value, LinkedPath(w), w.branch, false)
  }

  /** The loop over linked worktrees. */
  function LinkedEntries(ws: seq<LinkedIo>): (r: seq<WorktreeInfo>)
    ensures |r| == |Seqs.Filter(ws, IsListedWorktree)|
    ensures forall k :: 0 <= k < |r| ==>
              IsListedWorktree(Seqs.Filter(ws, IsListedWorktree)[k])
              && r[k] == LinkedInfo(Seqs.Filter(ws, IsListedWorktree)[k])
    decreases |ws|
  {
    if |ws| == 0 then []
    else if IsListedWorktree(ws[0]) then [LinkedInfo(ws[0])] + LinkedEntries(ws[1..])
    else LinkedEntries(ws[1..])
  }

  /** `list_worktrees`. `workdir` is the repository's working directory,
      `linked` the names libgit2 lists with what is known about each. */
  function ListWorktrees(openError: Option<string>, repoPath: string, workdir: Option<string>,
                         headShorthand: Option<string>, linked: Result<seq<LinkedIo>>): (r: Result<seq<WorktreeInfo>>)
    ensures openError.Some? <==> r.Err?
    ensures openError.Some? ==> r.error == "Failed to open repo: " + openError.value
    ensures r.Ok? ==> |r.value| >= 1
                      && r.value[0] == WorktreeInfo("main", WorkspaceLifecycle.CleanMainPath(workdir.GetOr(repoPath)),
                                                    headShorthand, true)
    ensures r.Ok? ==> r.value[1..] == LinkedEntries(if linked.Ok? then linked.value else [])
  {
    if openError.Some? then Err("Failed to open repo: " + openError.value)
    else
      var main := WorktreeInfo("main", WorkspaceLifecycle.CleanMainPath(workdir.GetOr(repoPath)), headShorthand, true);
      var r := [main] + LinkedEntries(if linked.Ok? then linked.value else []);
      assert r[1..] == LinkedEntries(if linked.Ok? then linked.value else []);
      Ok(r)
  }

  /** The main worktree is listed first and is the only one marked main. */
  lemma MainWorktreeFirst(repoPath: string, workdir: Option<string>, headShorthand: Option<string>,
                          linked: Result<seq<LinkedIo>>, k: nat)
    requires k < |ListWorktrees(None, repoPath, workdir, headShorthand, linked).value|
    ensures ListWorktrees(None, repoPath, workdir, headShorthand, linked).value[k].isMain <==> k == 0
  {
    var ws := ListWorktrees(None, repoPath, workdir, headShorthand, linked).value;
    if k > 0 {
      assert ws[k] == ws[1..][k - 1];
    }
  }

  // ---------------------------------------------------------------------------
  // create_worktree
  // ---------------------------------------------------------------------------

  /** `repo/.worktrees/name`, joined the way `Path::join` does. */
  function WorktreePath(repoPath: string, name: string): string {
    Paths.JoinPath(Paths.JoinPath(repoPath, ".worktrees"), name)
  }

  /** For a repository path without a trailing `/` and a relative name the
      worktree lies in the repository's `.worktrees` directory; an absolute
      name replaces the whole path. */
  lemma WorktreePathShape(repoPath: string, name: string)
    ensures repoPath != "" && repoPath[|repoPath| - 1] != '/' && !StartsWith(name, "/") ==>
              WorktreePath(repoPath, name) == repoPath + "/.worktrees/" + name
    ensures StartsWith(name, "/") ==> WorktreePath(repoPath, name) == name
  {
    var dir := Paths.JoinPath(repoPath, ".worktrees");
    if repoPath != "" && repoPath[|repoPath| - 1] != '/' && !StartsWith(name, "/") {
      assert ".worktrees"[..1] == ".";
      assert dir == repoPath + "/" + ".worktrees";
      assert dir[|dir| - 1] == 's';
    }
  }

  /** The arguments of the `git` run: `worktree add -b <branch> <path>`, and
      the base branch as start point when one is given. The branch defaults
      to the worktree name. */
  function GitArgs(repoPath: string, name: string, branch: Option<string>, baseBranch: Option<string>): (args: seq<string>)
    ensures |args| == if baseBranch.Some? then 6 else 5
    ensures args[..3] == ["worktree", "add", "-b"]
    ensures args[3] == branch.GetOr(name) && args[4] == WorktreePath(repoPath, name)
    ensures baseBranch.Some? ==> args[5] == baseBranch.value
  {
    ["worktree", "add", "-b", branch.GetOr(name), WorktreePath(repoPath, name)]
    + (if baseBranch.Some? then [baseBranch.value] else [])
  }

  /** Whether `.worktrees` exists, the error creating it if it does not, and
      what the `git` run reports. */
  datatype CreateIo = CreateIo(dirExists: bool, mkdirError: Option<string>, run: CommandOutcome)

  /** `create_worktree`. */
  function CreateWorktree(repoPath: string, name: string, branch: Option<string>, baseBranch: Option<string>,
                          io: CreateIo): (r: Result<WorktreeInfo>)
    ensures !io.dirExists && io.mkdirError.Some? ==>
              r == Err("Failed to create .worktrees directory: " + io.mkdirError.value)
    ensures (io.dirExists || io.mkdirError.None?) && io.run.SpawnFailed? ==>
              r == Err("Failed to run git: " + io.run.error)
    ensures (io.dirExists || io.mkdirError.None?) && io.run.Finished? && !io.run.success ==>
              r == Err("git worktree add failed: " + io.run.stderr)
    ensures r.Ok? <==> (io.dirExists || io.mkdirError.None?) && io.run.Finished? && io.run.success
    ensures r.Ok? ==> r.value == WorktreeInfo(name, WorktreePath(repoPath, name), Some(branch.GetOr(name)), false)
  {
    if !io.dirExists && io.mkdirError.Some? then Err("Failed to create .worktrees directory: " + io.mkdirError.value)
    else match io.run
      case SpawnFailed(e) => Err("Failed to run git: " + e)
      case Finished(success, stderr) =>
        if !success then Err("git worktree add failed: " + stderr)
        else Ok(WorktreeInfo(name, WorktreePath(repoPath, name), Some(branch.GetOr(name)), false))
  }

  /** The created worktree reports the branch and path git was asked to
      create. */
  lemma CreatedMatchesArgs(repoPath: string, name: string, branch: Option<string>, baseBranch: Option<string>,
                           io: CreateIo)
    requires CreateWorktree(repoPath, name, branch, baseBranch, io).Ok?
    ensures var w := CreateWorktree(repoPath, name, branch, baseBranch, io).value;
            var args := GitArgs(repoPath, name, branch, baseBranch);
            && w.branch == Some(args[3]) && w.path == args[4] && !w.isMain
  {
  }
}

=== FILE: wrappers.dfy ===
/** Option and Result, the shapes the source uses for nullable values (`T | null`,
    `Option<T>`) and for fallible commands (`Result<T, String>`). */
module Wrappers {

  datatype Option<+T> = None | Some(value: T) {

    /** The value, or `default` when absent (`??` in TypeScript, `unwrap_or` in Rust). */
    function GetOr(default: T): T {
      match this
      case Some(v) => v
      case None => default
    }
  }

  /** A command result; errors carry the message the source formats. */
  datatype Result<+T> = Ok(value: T) | Err(error: string)
}
